=== FILE: README.md ===
# FLoWS extension for Warp 10: a Dafny model of its core

FLoWS is a small language that compiles to WarpScript, the stack language of
the Warp 10 platform. This project models three parts of the extension's
core and proves properties about them.

1. **The arity primitives `FLOWS.ENSUREDEPTH` and `FLOWS.ASSERTDEPTH`**
   (`depth.dfy`). The generated code calls them around every macro call and
   every macro body.
   - ENSUREDEPTH pads the stack with `null`s or drops its deepest values, so
     that exactly the requested number of values remains.
   - ASSERTDEPTH fails unless the depth already matches.
   - The model writes out Java's 64-bit wrap-around in `depth - count` and
     the `(int)` truncation of the count.
2. **The bookkeeping of `FLoWSExecutor`** (`executor.dfy`, `literals.dfy`).
   These are the parts that do not depend on the ANTLR parse tree:
   - `genSymbol`, the `saveStack`/`restoreStack`/`assertDepth` snippets and
     the `push`/`apply` routing into the innermost macro under construction;
   - `genBlockStatements`, and the builder discipline of `genAnonMacro` and
     `genMacroParameters`;
   - the `LF()`/`indentation()` text layout, and the value of a `LONG`
     literal in eval mode.
   - The generator's state is one record, `Gen`: the mode, the counters, the
     text buffer and the routing.
   - Every snippet is one token list. Eval mode applies it; text mode writes
     it as one line. The lemmas tie the two modes together.
3. **The three macro resolvers.**
   - `FLoWSMacroRepositoryResolver` (`repository.dfy`) loads `<root>/<name><ext>`
     from disk.
   - `FLoWSWarpFleetResolver` (`fleet.dfy`) fetches `<repo>/<name><ext>` from a
     list of WarpFleet repositories.
   - `FLoWSMacroLibraryResolver` (`library.dfy`) loads from the class path and
     from jars.
   - The model covers name validation, cycle detection with the in-flight
     list, the TTL rules, saturating and wrapping expiry, fingerprint reuse,
     negative caching and the fail macros.
   - All three share the insertion-ordered, bounded `LinkedHashMap` cache
     (`cache.dfy`) and the macro units (`units.dfy`).

What the model does not control is passed in as a parameter:
- the file system, the class path and the network (`World.files`,
  `Env.classpath`, `Env.fetch`);
- the clock (`now`) and the SipHash of a file (`World.hash`);
- running a FLoWS source (`run`). A run returns the final stack and its TTL
  attribute, or the text of the exception it raised. In the repository
  resolver it also returns the macro names the source resolves while it runs.

Java semantics are written out explicitly:
- `long` addition wraps (`Wrap64`);
- `Math.addExact` falls back to `Long.MAX_VALUE - 1` (`SaturatingExpiry`);
- `Long.intValue()` keeps the low 32 bits (`Wrap32`);
- removing from an empty `ArrayList` throws, which the model returns as
  `Crashed`;
- deep recursion is bounded by a `fuel` parameter that stands for the JVM
  stack. A load that starts with none left ends in `Overflow`; one that
  runs out inside a source's run is caught by that run and reported as a
  fail macro of the enclosing load.

Several definitions carry a `fixed: bool` parameter. `false` is the code as
written and `true` is the corrected behaviour described under "Findings".

Files: `results.dfy` (Option/Result), `numbers.dfy` (Java integers, decimal
and hex text), `text.dfy` (string predicates and the path-name check),
`depth.dfy`, `literals.dfy`, `executor.dfy`, `units.dfy`, `cache.dfy`,
`repository.dfy`, `fleet.dfy`, `library.dfy`.

## Model

| member | source | states |
|---|---|---|
| Depth.PopCount | src/main/java/io/warp10/ext/flows/FLOWSASSERTDEPTH.java:28 | popping the count fails on an empty stack and on a non-`Long` top; otherwise it yields that `Long` and the stack below it |
| Depth.EnsureCount | src/main/java/io/warp10/ext/flows/FLOWSENSUREDEPTH.java:30-43 | a non-negative count always succeeds and leaves exactly `count` values. Padding keeps the old values in order at the bottom with `null`s above them; dropping keeps the topmost `count` values; a negative `int` count is refused by `popn` |
| Depth.EnsureDepth | src/main/java/io/warp10/ext/flows/FLOWSENSUREDEPTH.java:28-45 | ENSUREDEPTH fails on an empty stack and on a non-`Long` count; otherwise it is `EnsureCount` on the stack below the count |
| Depth.AssertDepth | src/main/java/io/warp10/ext/flows/FLOWSASSERTDEPTH.java:28-33 | succeeds exactly when the count equals the remaining depth, and then leaves that stack unchanged; otherwise the error carries the expected and found depths |
| Depth.MismatchMessageDeterminesCounts | src/main/java/io/warp10/ext/flows/FLOWSASSERTDEPTH.java:31 | two mismatch messages with the same text report the same expected and found numbers |
| Depth.TruncatedCountKeepsLowBits | src/main/java/io/warp10/ext/flows/FLOWSENSUREDEPTH.java:38 | a count of `low - 2^32` is truncated by the `(int)` cast and keeps the topmost `low` values |
| Depth.MinCountPads | src/main/java/io/warp10/ext/flows/FLOWSENSUREDEPTH.java:30-36 | with `Long.MIN_VALUE` the difference wraps negative and the stack is padded to 2^63 values |
| Depth.EnsureDepthIdempotent | src/main/java/io/warp10/ext/flows/FLOWSENSUREDEPTH.java:28-45 | ensuring the same non-negative count a second time changes nothing |
| Depth.EnsureThenAssert | src/main/java/io/warp10/ext/flows/FLOWSENSUREDEPTH.java:28-45 | after ENSUREDEPTH of `c`, ASSERTDEPTH of `c` always succeeds and changes nothing |
| Literals.LongLiteral | src/main/java/io/warp10/ext/flows/antlr/FLoWSExecutor.java:481-486 | the value of a `LONG` literal is always a valid `long` |
| Literals.FifteenHexDigitsFit | src/main/java/io/warp10/ext/flows/antlr/FLoWSExecutor.java:483 | fifteen hex digits stay below 2^60, so the short branch never overflows `parseLong` |
| Literals.ShortHexLiteral | src/main/java/io/warp10/ext/flows/antlr/FLoWSExecutor.java:483 | a `0x` literal shorter than 18 characters denotes exactly its hex number |
| Literals.LongHexLiteral | src/main/java/io/warp10/ext/flows/antlr/FLoWSExecutor.java:483 | a longer `0x` literal denotes the low 64 bits, in two's complement, of its hex number |
| Literals.HexRoundTrip | src/main/java/io/warp10/ext/flows/antlr/FLoWSExecutor.java:482-483 | any `long` written as `0x` plus its unsigned hex digits reads back as itself, on both sides of the 18-character boundary |
| Literals.DecimalRoundTrip | src/main/java/io/warp10/ext/flows/antlr/FLoWSExecutor.java:484-486 | any `long` written in decimal reads back as itself |
| Executor.GenSymbol | src/main/java/io/warp10/ext/flows/antlr/FLoWSExecutor.java:1016-1018 | returns the symbol of the current counter and advances the counter by one (while it fits in an `int`), changing nothing else |
| Executor.SymbolInjective | src/main/java/io/warp10/ext/flows/antlr/FLoWSExecutor.java:1016-1018 | two counters give the same symbol exactly when they are equal |
| Executor.GenSymbolsCount | src/main/java/io/warp10/ext/flows/antlr/FLoWSExecutor.java:1016-1018 | `k` consecutive calls give the symbols of `varidx`, `varidx+1`, … in order |
| Executor.GenSymbolsDistinct | src/main/java/io/warp10/ext/flows/antlr/FLoWSExecutor.java:1016-1018 | consecutive calls never hand out the same symbol twice |
| Executor.Route | src/main/java/io/warp10/ext/flows/antlr/FLoWSExecutor.java:1089-1105 | `push`/`apply` count one operation and append to the innermost macro under construction, or to the live stack when none is open, leaving the outer macros alone |
| Executor.RouteAllAppend | src/main/java/io/warp10/ext/flows/antlr/FLoWSExecutor.java:1089-1105 | routing two lists one after the other is routing their concatenation |
| Executor.TrimTrailingSpaces | src/main/java/io/warp10/ext/flows/antlr/FLoWSExecutor.java:1061-1074 | the loop in `LF()` removes exactly the trailing spaces: it leaves the longest prefix that does not end with a space and drops only spaces |
| Executor.Newline | src/main/java/io/warp10/ext/flows/antlr/FLoWSExecutor.java:1061-1080 | after `LF()` the buffer is the trimmed text ending with one line feed, added only when the trimmed text lacks one, and the next write is indented |
| Executor.NewlineIdempotent | src/main/java/io/warp10/ext/flows/antlr/FLoWSExecutor.java:1061-1080 | a second `LF()` changes nothing |
| Executor.IndentDeindentInverse | src/main/java/io/warp10/ext/flows/antlr/FLoWSExecutor.java:1020-1030 | `deindent()` undoes `indent()` and the reverse |
| Executor.IndentationLoop | src/main/java/io/warp10/ext/flows/antlr/FLoWSExecutor.java:1038-1052 | cutting `INDENTATION` into blocks yields exactly `curindent` spaces, or nothing when `curindent` is not positive |
| Executor.Indentation | src/main/java/io/warp10/ext/flows/antlr/FLoWSExecutor.java:1032-1053 | at the start of a line, the indentation is `curindent` spaces; otherwise it is empty; afterwards the line no longer needs indenting |
| Executor.IndentationOncePerLine | src/main/java/io/warp10/ext/flows/antlr/FLoWSExecutor.java:1032-1037 | indentation is emitted at most once per line and comes back after the next `LF()` |
| Executor.SaveStack | src/main/java/io/warp10/ext/flows/antlr/FLoWSExecutor.java:932-943 | eval mode applies the same instructions that text mode writes on one line |
| Executor.RenderSave | src/main/java/io/warp10/ext/flows/antlr/FLoWSExecutor.java:939 | the text-mode line is `NULL HIDE '<sym>' STORE` |
| Executor.RestoreStack | src/main/java/io/warp10/ext/flows/antlr/FLoWSExecutor.java:945-968 | both modes do the same restore. It is the in-macro form exactly when a macro is being built, and otherwise the form that also forgets the variable |
| Executor.ForgetsOnlyAtTopLevel | src/main/java/io/warp10/ext/flows/antlr/FLoWSExecutor.java:947-958 | the restore forgets the snapshot variable exactly when no macro is being built |
| Executor.AssertDepth | src/main/java/io/warp10/ext/flows/antlr/FLoWSExecutor.java:970-984 | eval mode applies the `<count> FLOWS.ASSERTDEPTH` that text mode writes |
| Executor.GenParams | src/main/java/io/warp10/ext/flows/antlr/FLoWSExecutor.java:312-356 | a parameterless macro checks for an empty stack; a parameter list checks its own length and then stores the names, the same in both modes |
| Executor.ParseResults | src/main/java/io/warp10/ext/flows/antlr/FLoWSExecutor.java:399 | the declared result count is read exactly when it parses as a decimal `long` |
| Executor.CheckedResults | src/main/java/io/warp10/ext/flows/antlr/FLoWSExecutor.java:415 | as written, the count checked is the `int` congruent to the declared one modulo 2^32 (the declared count itself when it fits); corrected, it is the declared count |
| Executor.MacroHead | src/main/java/io/warp10/ext/flows/antlr/FLoWSExecutor.java:362-412 | a negative declared count is refused. Otherwise a builder is opened, and in eval mode the new macro starts with the context save, the parameter check and, when a result count is declared, the snapshot `NULL HIDE '<stacksym>' STORE` under the frame's stack symbol |
| Executor.CloseMacro | src/main/java/io/warp10/ext/flows/antlr/FLoWSExecutor.java:414-445 | eval mode pops the builder and pushes the finished macro, named after its position, onto the enclosing target; text mode writes the closing `%>` and, as written, keeps the builder |
| Executor.AnonMacro | src/main/java/io/warp10/ext/flows/antlr/FLoWSExecutor.java:362-446 | succeeds exactly on well-formed definitions. Eval mode adds exactly one macro to the target, built as entry code + body + exit code. The entry code is the context save, the parameter check and, when a result count is declared, the stack snapshot under the second generated symbol. Text mode ends with `%>` and, as written, leaves a builder open |
| Executor.GenBlock | src/main/java/io/warp10/ext/flows/antlr/FLoWSExecutor.java:521-532 | succeeds exactly when the block is well formed and no statement follows a return; a statement after a return is the "extraneous statement" error |
| Executor.GenStmt | src/main/java/io/warp10/ext/flows/antlr/FLoWSExecutor.java:550-564 | a statement keeps the mode and the indentation. In eval mode it only appends; in text mode it leaves the live stack and the operation count alone |
| Executor.TextMacroLeavesBuilder | src/main/java/io/warp10/ext/flows/antlr/FLoWSExecutor.java:366 | as written, after a text-mode lambda at top level, the next restore takes the in-macro form, which never forgets the variable |
| Executor.TextMacroKeepsTopLevel | src/main/java/io/warp10/ext/flows/antlr/FLoWSExecutor.java:432-445 | with the builder popped, the same restore keeps the top-level form |
| Executor.DeclaredCountTruncated | src/main/java/io/warp10/ext/flows/antlr/FLoWSExecutor.java:415 | as written, a declared count of 4294967296 is checked as 0 |
| Executor.DeclaredCountKept | src/main/java/io/warp10/ext/flows/antlr/FLoWSExecutor.java:415 | corrected, the count checked is the declared one |
| Units.SaturatingExpiry | src/main/java/io/warp10/ext/flows/FLoWSMacroRepositoryResolver.java:311-319 | the expiry is `now + ttl` when that fits in a `long`, and `Long.MAX_VALUE - 1` otherwise |
| Units.SaturatingExpiryInFuture | src/main/java/io/warp10/ext/flows/FLoWSMacroRepositoryResolver.java:311-319 | a positive TTL puts the expiry strictly after `now` |
| Units.PopLast | src/main/java/io/warp10/ext/flows/FLoWSMacroRepositoryResolver.java:341 | removing the last in-flight name succeeds exactly on a non-empty list, and the list is the result plus that name |
| Units.Source | src/main/java/io/warp10/ext/flows/FLoWSMacroRepositoryResolver.java:275-277 | the compiled text is the file's text between one leading space and one trailing newline |
| Units.ChainTextListsChain | src/main/java/io/warp10/ext/flows/FLoWSMacroRepositoryResolver.java:229-237 | the loop's text is `@a >>> @b >>> …`, the in-flight names from first to last |
| Units.CycleMessageListsChain | src/main/java/io/warp10/ext/flows/FLoWSMacroRepositoryResolver.java:238 | the cycle message lists the whole in-flight chain in loading order |
| Cache.Get | src/main/java/io/warp10/ext/flows/FLoWSMacroRepositoryResolver.java:150 | `get` gives nothing exactly when the key is absent, and otherwise the value stored under it |
| Cache.Remove | src/main/java/io/warp10/ext/flows/FLoWSWarpFleetResolver.java:201 | `remove` keeps the keys unique and the key is then absent |
| Cache.PutValid | src/main/java/io/warp10/ext/flows/FLoWSMacroRepositoryResolver.java:119-126 | `put` keeps the keys unique and the size within `maxcachesize` |
| Cache.PutGet | src/main/java/io/warp10/ext/flows/FLoWSMacroRepositoryResolver.java:119-126 | after `put`, the key maps to the new value (unless a bound of 0 or less evicts it at once). Every other key keeps its value, except the eldest entry when a new key overflows the bound |
| Cache.PutOrder | src/main/java/io/warp10/ext/flows/FLoWSMacroRepositoryResolver.java:119-126 | insertion order: a new key becomes the youngest entry; replacing a present key keeps its place |
| Cache.RemoveGet | src/main/java/io/warp10/ext/flows/FLoWSWarpFleetResolver.java:200-203 | `remove` takes out exactly the one key |
| Text.AcceptedNameHasNoDotComponent | src/main/java/io/warp10/ext/flows/FLoWSMacroRepositoryResolver.java:208-211 | a name that passes the relative-path check, followed by the extension, has no `.` or `..` path component |
| Repository.FilePathUnderRoot | src/main/java/io/warp10/ext/flows/FLoWSMacroRepositoryResolver.java:188-200 | the file of any name, its path folded as `java.io.File` folds it, lies under the absolute root directory, so the `startsWith(rootdir)` refusal never fires |
| Repository.FilePathFoldsSeparators | src/main/java/io/warp10/ext/flows/FLoWSMacroRepositoryResolver.java:193-197 | `a//b` and `a/b` are two spellings of one file: `new File(rootdir, name + ext)` folds repeated separators |
| Repository.FailUnit | src/main/java/io/warp10/ext/flows/FLoWSMacroRepositoryResolver.java:329-338 | the replacement for a failed load is not secure, has fingerprint 0 and expiry `now + failedTtl` (wrapping), and fails with `[now] Error while loading macro '<name>': <message>` |
| Repository.Complete | src/main/java/io/warp10/ext/flows/FLoWSMacroRepositoryResolver.java:295-328 | the result is secure exactly when the run left a single macro and a usable TTL. That macro then carries the file's hash and the name, and expires at the saturating `now + ttl`. Otherwise the fail macro gives the depth or not-a-macro message, or the run's exception |
| Repository.CompleteNotExpired | src/main/java/io/warp10/ext/flows/FLoWSMacroRepositoryResolver.java:311-319 | a freshly loaded macro with a positive TTL is not expired |
| Repository.Unwind | src/main/java/io/warp10/ext/flows/FLoWSMacroRepositoryResolver.java:339-342 | the `finally` removes the last in-flight name, and throws when the list is empty |
| Repository.FindMacro | src/main/java/io/warp10/ext/flows/FLoWSMacroRepositoryResolver.java:147-169 | an unexpired cached macro is returned without loading; a macro loaded on a miss is cached under its name. Corrected, the in-flight list is restored and nothing throws |
| Repository.Load | src/main/java/io/warp10/ext/flows/FLoWSMacroRepositoryResolver.java:178-245 | the result is `null` exactly for a refused name or a missing file. A name already in flight gives the cycle fail macro, listing the chain, without touching the cache. Only a load that starts with no stack left overflows |
| Repository.Attempt | src/main/java/io/warp10/ext/flows/FLoWSMacroRepositoryResolver.java:243-338 | a missing file gives `null` and changes nothing. A cached macro with the same fingerprint that has not expired is reused. A new secure macro carries the name and the hash. An attempt never overflows: what its run throws, a stack overflow included, becomes a fail macro |
| Repository.Pushed | src/main/java/io/warp10/ext/flows/FLoWSMacroRepositoryResolver.java:241-342 | the name is pushed before the `try` and popped in its `finally`, so, corrected, the stack of names in flight is the caller's again afterwards and no crash comes out. What the attempt throws, a stack overflow included, is caught inside, so this part never overflows, and the overflow record is never cleared |
| Repository.RunRefs | src/main/java/io/warp10/ext/flows/FLoWSMacroRepositoryResolver.java:288-289 | the nested loads a run makes keep the cache well formed, and, corrected, the in-flight list; a nested overflow stops the run like any other failure, and is recorded |
| Repository.SelfReferenceCrashes | src/main/java/io/warp10/ext/flows/FLoWSMacroRepositoryResolver.java:228-241 | as written, loading a macro whose source uses itself ends in an exception from the `finally` |
| Repository.SelfReferenceReported | src/main/java/io/warp10/ext/flows/FLoWSMacroRepositoryResolver.java:339-342 | corrected, the same load returns a fail macro and the in-flight list is empty again |
| Repository.InflightBound | src/main/java/io/warp10/ext/flows/FLoWSMacroRepositoryResolver.java:228-241 | the in-flight names are distinct, so they are never more than the names they are drawn from |
| Repository.LoadTerminates | src/main/java/io/warp10/ext/flows/FLoWSMacroRepositoryResolver.java:228-241 | corrected, once a load has room for as many frames as there are names it can meet (its own and every name a present source uses), the stack runs out in no load, however deeply nested, so no fail macro comes from a caught overflow. The bound counts names, not files, since two spellings of one file are two names to the cycle check |
| Repository.FindMacroTerminates | src/main/java/io/warp10/ext/flows/FLoWSMacroRepositoryResolver.java:147-169 | the same bound for a lookup through the cache |
| Repository.FreshLoadTerminates | src/main/java/io/warp10/ext/flows/FLoWSMacroRepositoryResolver.java:147-241 | a lookup from an empty in-flight list never runs out of stack, at any depth, given room for its own name plus every name the present sources use |
| Repository.NestedOverflowCaught | src/main/java/io/warp10/ext/flows/FLoWSMacroRepositoryResolver.java:288-338 | the stack running out in a nested load does not reach the caller: the enclosing load yields the fail macro carrying the caught error's message, and `findMacro` caches it |
| Fleet.Key | src/main/java/io/warp10/ext/flows/FLoWSWarpFleetResolver.java:192 | the cache key is the repository URL, a `/` unless the URL already ends with one, and the name |
| Fleet.Clamp | src/main/java/io/warp10/ext/flows/FLoWSWarpFleetResolver.java:288-293 | the TTL is raised to `minttl` and then lowered to `maxttl`; within the bounds it is kept |
| Fleet.Report | src/main/java/io/warp10/ext/flows/FLoWSWarpFleetResolver.java:337-347 | a report is seven items: the text, the expiry times the platform's time units per millisecond (wrapping), then `NOW`, `-`, `HUMANDURATION`, `+`, `MSGFAIL`; it expires at `now + ttl` (wrapping) |
| Fleet.ErrorReport | src/main/java/io/warp10/ext/flows/FLoWSWarpFleetResolver.java:335-347 | an error report fails and expires after `failedTtl` |
| Fleet.NotFoundReport | src/main/java/io/warp10/ext/flows/FLoWSWarpFleetResolver.java:357-369 | a not-found report fails and expires after `unknownTtl` |
| Fleet.NegativeEntry | src/main/java/io/warp10/ext/flows/FLoWSWarpFleetResolver.java:306-327 | a fetch failure caches an empty macro with fingerprint -1 that expires after `failedTtl` |
| Fleet.Lookup | src/main/java/io/warp10/ext/flows/FLoWSWarpFleetResolver.java:194-204 | a cached macro is found exactly when it is present and not expired; an expired one is removed, and no other key changes |
| Fleet.ScanRepos | src/main/java/io/warp10/ext/flows/FLoWSWarpFleetResolver.java:186-334 | a macro found is never a negative entry, and it comes from one of the repositories' keys where it is now cached. A raised error names one of those keys. Running past the last repository leaves a negative entry for the last key |
| Fleet.ScanHit | src/main/java/io/warp10/ext/flows/FLoWSWarpFleetResolver.java:194-213 | a live cached unit that is not a negative entry is returned at once for the first repository, with nothing fetched and the cache unchanged |
| Fleet.ScanFetches | src/main/java/io/warp10/ext/flows/FLoWSWarpFleetResolver.java:194-225 | with no live unit cached, the first repository's URL plus the extension is fetched and the source loaded, after an expired entry is removed |
| Fleet.ScanFetchFailed | src/main/java/io/warp10/ext/flows/FLoWSWarpFleetResolver.java:306-327 | a malformed URL or an I/O failure caches a negative entry under the URL and the loop goes on with the next repository |
| Fleet.Next | src/main/java/io/warp10/ext/flows/FLoWSWarpFleetResolver.java:215-218 | skipping a repository with a negative entry goes on with the rest and keeps the loop's guarantees |
| Fleet.FindMacro | src/main/java/io/warp10/ext/flows/FLoWSWarpFleetResolver.java:145-382 | a disabled stack or a refused name gives `null`. A negative entry is never returned. A cycle gives an error report that is not cached and, as written, drops the caller's in-flight name; otherwise the in-flight list is as the caller had it |
| Fleet.LookupAnswers | src/main/java/io/warp10/ext/flows/FLoWSWarpFleetResolver.java:184-382 | a name not in flight is answered by the loop and what follows it, with the in-flight list as the caller had it; no repositories gives the not-found report (or `null` when `unknownTtl` is not positive), and anything returned from a non-empty list is cached under one of the repositories' keys |
| Fleet.OnCycle | src/main/java/io/warp10/ext/flows/FLoWSWarpFleetResolver.java:171-180 | a name already in flight gives the cycle error report listing the chain and leaves the cache alone |
| Fleet.Resolve | src/main/java/io/warp10/ext/flows/FLoWSWarpFleetResolver.java:186-382 | a negative entry is never returned, the stack never overflows, no repositories gives the not-found report, and a returned macro is cached under one of the keys |
| Fleet.ResolveOutcome | src/main/java/io/warp10/ext/flows/FLoWSWarpFleetResolver.java:211-347 | a unit the loop finds is returned with the cache the loop left; a `WarpScriptException` becomes the error report carrying its message, cached under the URL being tried; a `ClassCastException` escapes; running past the last repository goes on as `AfterLoop` |
| Fleet.LoadSource | src/main/java/io/warp10/ext/flows/FLoWSWarpFleetResolver.java:257-305 | a run that throws raises its message, a stack of depth other than 1 raises the depth message, a non-macro raises "Execution did not return a macro.", each with the URL being tried and the cache unchanged; a caller TTL that is not a `Long` escapes; a macro found is cached under that URL and is not a negative entry |
| Fleet.LoadedUnit | src/main/java/io/warp10/ext/flows/FLoWSWarpFleetResolver.java:276-299 | a source that leaves one macro loads as that macro, named as asked, not secure, expiring at `now` plus the clamped caller TTL (or the default), within `minttl` and `maxttl` of `now` when those sums fit |
| Fleet.AfterLoop | src/main/java/io/warp10/ext/flows/FLoWSWarpFleetResolver.java:371-381 | a negative entry is put again under the last key and answered with `null` |
| Fleet.UnaskedFetchIrrelevant | src/main/java/io/warp10/ext/flows/FLoWSWarpFleetResolver.java:225 | the scan only fetches the URLs of its own repositories: any other URL may answer anything |
| Fleet.NegativeEntrySkipsRepository | src/main/java/io/warp10/ext/flows/FLoWSWarpFleetResolver.java:215-218 | a live negative entry means that repository is not fetched at all |
| Fleet.FetchedUnitTtl | src/main/java/io/warp10/ext/flows/FLoWSWarpFleetResolver.java:286-297 | a fetched macro expires at `now` plus the clamped caller TTL, or plus the default TTL when the caller sets none (wrapping) |
| Fleet.CycleDropsCaller | src/main/java/io/warp10/ext/flows/FLoWSWarpFleetResolver.java:348-350 | as written, a detected cycle removes the caller's own in-flight name |
| Fleet.CycleKeepsCaller | src/main/java/io/warp10/ext/flows/FLoWSWarpFleetResolver.java:171-184 | corrected, a cycle report leaves the state as it was |
| Library.CappedTtl | src/main/java/io/warp10/ext/flows/FLoWSMacroLibraryResolver.java:252-254 | `macroTtl` is the requested TTL capped at `hardTtl` |
| Library.LoadMacro | src/main/java/io/warp10/ext/flows/FLoWSMacroLibraryResolver.java:225-263 | succeeds exactly when the run left a single macro and a `Long` TTL (if any); the macro is secure and carries the name. As written it expires after the configured `ttl`; corrected, after the capped `macroTtl` |
| Library.AddEntries | src/main/java/io/warp10/ext/flows/FLoWSMacroLibraryResolver.java:140-171 | the loop stops at the first selected entry whose load fails and raises its error; the cache is then the reference `StoreAll` of the entries before it, which puts each selected entry's secure unit under its name in order; with no failure, all entries are stored. Only names of selected entries change |
| Library.AddJar | src/main/java/io/warp10/ext/flows/FLoWSMacroLibraryResolver.java:120-184 | a missing jar gives "File not found <path>", an unreadable one "Encountered error while loading <path>", and the cache is unchanged; otherwise entries are stored up to the first failure, as in `AddEntries` |
| Library.FirstFailure | src/main/java/io/warp10/ext/flows/FLoWSMacroLibraryResolver.java:140-163 | the index of the first selected entry whose load fails, and no selected entry before it fails |
| Library.StoreAllFirst | src/main/java/io/warp10/ext/flows/FLoWSMacroLibraryResolver.java:140-171 | storing a list of entries is storing the first, then the rest, which ties the reference to the loop's order |
| Library.StoreAllOk | src/main/java/io/warp10/ext/flows/FLoWSMacroLibraryResolver.java:168-170 | storing entries keeps the cache's keys unique and within `maxcachesize` |
| Library.StoreAllLast | src/main/java/io/warp10/ext/flows/FLoWSMacroLibraryResolver.java:168-170 | the last entry stored, when selected and loaded, is what its name maps to |
| Library.JarEntryName | src/main/java/io/warp10/ext/flows/FLoWSMacroLibraryResolver.java:153-157 | an entry selected for resource `name + ext` has macro name `name` |
| Library.FindMacro | src/main/java/io/warp10/ext/flows/FLoWSMacroLibraryResolver.java:276-324 | a refused name gives `null`, and an unexpired cached macro is returned. A resource that is gone, or not a jar or file URL, returns the cached value even if expired. Any new macro returned is secure, carries the name and is cached |
| Library.FindMacroLoads | src/main/java/io/warp10/ext/flows/FLoWSMacroLibraryResolver.java:288-321 | on a miss, an unopenable URL raises "Error while loading '<name>'"; a plain file is loaded, its unit returned and cached or its error raised; a jar is added and its error raised, or else the name's cached value returned, which is the cache with every selected entry stored when none fails |
| Library.AsWrittenExceedsHardTtl | src/main/java/io/warp10/ext/flows/FLoWSMacroLibraryResolver.java:259-263 | as written, a configured `ttl` above `hardTtl` gives an expiry beyond `now + hardTtl` |
| Library.CorrectedRespectsHardTtl | src/main/java/io/warp10/ext/flows/FLoWSMacroLibraryResolver.java:246-254 | corrected, the expiry never lies beyond `now + hardTtl` |

## Left out

- The ANTLR parse tree, `generate`'s dispatch and the statements other than macro definitions (assignments, calls, maps, lists, identifiers) are not modelled. A statement is either a list of instructions or a lambda.
- The semantics of the WarpScript functions the generator applies (`HIDE`, `SHOW`, `LOAD`, `STORE`, …) are not modelled. At top level, eval mode records the instructions applied to the live stack instead of executing them; `checkOps` and the operation limit are not modelled.
- `eval(code)`, string literals (`WarpURLDecoder`), `DOUBLE` and `BOOLEAN` literals, comments and `SECTION` lines in text mode are not modelled: they hold no property beyond the text itself. The `comments` flag is `true` and never reassigned (src/main/java/io/warp10/ext/flows/antlr/FLoWSExecutor.java:143), so the real text also has ` // END Macro definition #<index>` after each `%>` and a comment line before each parameter check. The text-mode contracts, such as the one ending in `%>` and a newline, describe the text with those comments left out.
- I/O (files, jars, URLs, HTTP headers and timeouts), the clock and SipHash are parameters. Running a FLoWS source is an opaque function of its text.
- Concurrency (`synchronized`, the thread-local in-flight list shared by threads), Sensision metrics and logging.
- Windows path separators: the model uses `/`, and folds paths as `java.io.File` does on such a file system (repeated separators merged, a trailing one dropped).
- Byte decoding: file contents are taken as already-decoded text (UTF-8).
- `ThrowableUtils.getErrorMessage(e, 1024)` (the cause chain and the 1024-character bound) is not modelled: all three resolvers use exception messages as raised, including the run's own message, the cycle, depth and not-a-macro messages. In the repository resolver, the texts of failures that come from outside the model (an unreadable file, a time to live that is not a `Long`, a nested reference that fails) come from a `describe` parameter.
- `Macro` comes from the Warp 10 core, which is not part of this model. A fresh macro is assumed to have fingerprint 0, expiry 0 and to be not secure. `isExpired` is assumed to hold when the expiry is positive and before `now`.
- `Constants.TIME_UNITS_PER_MS` comes from the Warp 10 core's configuration, which is not part of this model. The WarpFleet configuration instead names the platform's time unit: milliseconds, microseconds (the default) or nanoseconds.
- `FLOWS_FILE_EXTENSION` is not part of this model: the extension is a parameter.
- `setNameRecursive` only names the top macro; the names of nested macros are not modelled.
- Fleet and library runs do not resolve the macros they use, and calls from one resolver into another are not modelled. Only the repository resolver loads nested macros.
- Repository.RunRefs: a nested fail macro stops the run as soon as it is resolved. The real run fails only when it executes that macro.
- The repository resolver's `loadMacro(null, file)` entry point (a name derived from a file) is not modelled, since `findMacro` never calls it that way.
- Fingerprint reuse in the repository resolver only happens when the cached macro has not expired. `findMacro` only loads on a miss or an expired entry, so a sequential model never reaches it; the branch is modelled anyway.
- Executor.GenSymbolsDistinct: proved only while the counter does not wrap past `Integer.MAX_VALUE`, because the wrapped case would need 2^32 symbols.
- Executor.GenSymbol: the counter's increment is stated only while it fits in an `int`, for the same reason.
- The `fuel` bound of the repository resolver stands for the JVM stack. A `StackOverflowError` in a nested load unwinds to the enclosing run, where `FLOWS` catches every `Throwable` (src/main/java/io/warp10/ext/flows/FLOWS.java:111-112) and rethrows it as an exception. The enclosing load's `catch (Exception)` then makes it a fail macro, which `findMacro` caches. Only a load that starts with no stack left answers `Overflow`. Where in the nested frames the stack runs out is not modelled: it runs out at the call of the next load.
- The `IOException` that `jar.getInputStream` can raise for a single entry is not modelled; a jar is either unreadable as a whole or readable.

## Findings

| source | as written | input that shows it | evidently intended | confidence | as-written member | corrected member |
|---|---|---|---|---|---|---|
| src/main/java/io/warp10/ext/flows/FLoWSMacroRepositoryResolver.java:228-241 | the cycle check throws before the name is pushed, but the `finally` at 339-342 pops anyway, removing a caller's name; the outermost `finally` then removes from an empty list and throws | a macro `lib/self` whose source uses `@lib/self`, loaded with nothing in flight | pop only when the name was pushed, so the cycle is reported as a fail macro | not executed | Repository.SelfReferenceCrashes | Repository.SelfReferenceReported |
| src/main/java/io/warp10/ext/flows/FLoWSWarpFleetResolver.java:171-184 | the same pattern: a cycle throws before line 184 pushes, and the `finally` at 348-350 pops the caller's name | any name already in the in-flight list | leave the list as the caller had it | not executed | Fleet.CycleDropsCaller | Fleet.CycleKeepsCaller |
| src/main/java/io/warp10/ext/flows/FLoWSMacroLibraryResolver.java:246-263 | `macroTtl` is computed and capped at `hardTtl` but never used: the expiry adds the configured `ttl` | configured `ttl` above `hardTtl`, or a stack TTL attribute set by the source | the expiry uses the capped `macroTtl` | not executed | Library.AsWrittenExceedsHardTtl | Library.CorrectedRespectsHardTtl |
| src/main/java/io/warp10/ext/flows/antlr/FLoWSExecutor.java:366 | text mode adds a builder to `macros` for every lambda and never removes it (only the eval branch at 428 does), so every later `restoreStack` believes it is inside a macro and omits `FORGET` | a text-mode program with a lambda followed by an expression that saves and restores the stack | remove the builder in text mode too | not executed | Executor.TextMacroLeavesBuilder | Executor.TextMacroKeepsTopLevel |
| src/main/java/io/warp10/ext/flows/antlr/FLoWSExecutor.java:415 | `nresults.intValue()` truncates the declared `long` count to its low 32 bits | a macro declaring 4294967296 results gets a check for 0 | check the declared count | not executed | Executor.DeclaredCountTruncated | Executor.DeclaredCountKept |

=== FILE: cache.dfy ===
/** The resolvers' macro caches: a `LinkedHashMap` in insertion order
    whose `removeEldestEntry` drops the eldest entry once the size exceeds
    `maxcachesize`. `get` does not reorder entries (insertion order, not
    access order), and replacing the value of a present key keeps its
    place. */
module Cache {
  import opened Results

  datatype Entry<V> = Entry(key: string, value: V)

  /** The entries, eldest first, and the configured bound. */
  datatype Cache<V> = Cache(entries: seq<Entry<V>>, max: int)

  /** Keys are unique. */
  predicate Valid<V>(c: Cache<V>) {
    forall i, j :: 0 <= i < j < |c.entries| ==> c.entries[i].key != c.entries[j].key
  }

  /** What every resolver's cache keeps: unique keys, and no more entries
      than the bound. */
  predicate CacheOk<V>(c: Cache<V>) {
    Valid(c) && |c.entries| <= Bound(c)
  }

  /** The size the eviction rule keeps the cache within. */
  function Bound<V>(c: Cache<V>): nat {
    if c.max < 0 then 0 else c.max
  }

  predicate HasKeyAt<V>(c: Cache<V>, k: string, i: int) {
    0 <= i < |c.entries| && c.entries[i].key == k
  }

  predicate HasKey<V>(c: Cache<V>, k: string) {
    exists i :: 0 <= i < |c.entries| && HasKeyAt(c, k, i)
  }

  /** Where `k` sits, searching from the eldest entry. */
  function IndexOf<V>(entries: seq<Entry<V>>, k: string): (r: Option<nat>)
    ensures r.Some? ==> r.value < |entries| && entries[r.value].key == k
    ensures r.Some? ==> forall i :: 0 <= i < r.value ==> entries[i].key != k
    ensures r.None? ==> forall i :: 0 <= i < |entries| ==> entries[i].key != k
    decreases |entries|
  {
    if |entries| == 0 then None
    else if entries[0].key == k then Some(0)
    else match IndexOf(entries[1..], k)
      case None => None
      case Some(i) => Some(i + 1)
  }

  /** `get`. */
  function Get<V>(c: Cache<V>, k: string): (r: Option<V>)
    ensures r.None? <==> !HasKey(c, k)
    ensures forall i :: HasKeyAt(c, k, i) && Valid(c) ==> r == Some(c.entries[i].value)
  {
    match IndexOf(c.entries, k)
    case None => None
    case Some(i) =>
      assert HasKeyAt(c, k, i);
      Some(c.entries[i].value)
  }

  /** `remove`. */
  function Remove<V>(c: Cache<V>, k: string): (r: Cache<V>)
    ensures r.max == c.max
    ensures Valid(c) ==> Valid(r) && forall i :: 0 <= i < |r.entries| ==> r.entries[i].key != k
    ensures |r.entries| <= |c.entries|
  {
    match IndexOf(c.entries, k)
    case None => c
    case Some(i) =>
      var r := Cache(c.entries[..i] + c.entries[i + 1..], c.max);
      assert forall j :: 0 <= j < |r.entries| ==> r.entries[j] == if j < i then c.entries[j] else c.entries[j + 1];
      if Valid(c) then
        assert forall j :: 0 <= j < |r.entries| ==> r.entries[j].key != k;
        r
      else r
  }

  /** `put`: a present key gets its new value in place; a new key goes
      last, and if the cache then holds more than `max` entries the eldest
      one goes. */
  function Put<V>(c: Cache<V>, k: string, v: V): (r: Cache<V>)
    ensures r.max == c.max
  {
    match IndexOf(c.entries, k)
    case Some(i) => Cache(c.entries[i := Entry(k, v)], c.max)
    case None =>
      var grown := c.entries + [Entry(k, v)];
      if |grown| > c.max then Cache(grown[1..], c.max) else Cache(grown, c.max)
  }

  /** Putting keeps keys unique and the size within the bound. */
  lemma PutValid<V>(c: Cache<V>, k: string, v: V)
    requires Valid(c) && |c.entries| <= Bound(c)
    ensures Valid(Put(c, k, v)) && |Put(c, k, v).entries| <= Bound(c)
  {
    var r := Put(c, k, v);
    match IndexOf(c.entries, k)
    case Some(i) =>
      assert forall j :: 0 <= j < |r.entries| ==> r.entries[j].key == c.entries[j].key;
    case None =>
      var grown := c.entries + [Entry(k, v)];
      assert forall j :: 0 <= j < |grown| - 1 ==> grown[j] == c.entries[j];
  }

  /** What a put does to lookups: the key put maps to the new value unless
      a new key was itself evicted at once (an empty cache with bound 0 or
      less), and every other key keeps its value unless it was the eldest
      entry, evicted to make room. */
  lemma PutGet<V>(c: Cache<V>, k: string, v: V, j: string)
    requires Valid(c) && |c.entries| <= Bound(c)
    ensures Get(Put(c, k, v), k) == (if c.max <= 0 && !HasKey(c, k) then None else Some(v))
    ensures j != k && !Evicts(c, k, j) ==> Get(Put(c, k, v), j) == Get(c, j)
    ensures j != k && Evicts(c, k, j) ==> Get(Put(c, k, v), j) == None
  {
    PutValid(c, k, v);
    var r := Put(c, k, v);
    match IndexOf(c.entries, k)
    case Some(i) =>
      assert r.entries == c.entries[i := Entry(k, v)];
      assert HasKeyAt(c, k, i) && HasKeyAt(r, k, i);
      if HasKey(c, j) && j != k {
        var t :| 0 <= t < |c.entries| && HasKeyAt(c, j, t);
        assert t != i && r.entries[t] == c.entries[t];
        assert HasKeyAt(r, j, t);
      }
      if HasKey(r, j) && j != k {
        var t :| 0 <= t < |r.entries| && HasKeyAt(r, j, t);
        assert t != i && r.entries[t] == c.entries[t];
        assert HasKeyAt(c, j, t);
      }
    case None =>
      var grown := c.entries + [Entry(k, v)];
      if |grown| > c.max {
        assert |c.entries| == Bound(c);
        if |c.entries| > 0 {
          assert HasKeyAt(r, k, |r.entries| - 1);
        }
        if HasKey(c, j) && j != k && !Evicts(c, k, j) {
          var t :| 0 <= t < |c.entries| && HasKeyAt(c, j, t);
          assert t > 0;
          assert HasKeyAt(r, j, t - 1);
        }
        if HasKey(r, j) && j != k {
          var t :| 0 <= t < |r.entries| && HasKeyAt(r, j, t);
          assert HasKeyAt(c, j, t + 1);
        }
      } else {
        assert r.entries == grown;
        assert HasKeyAt(r, k, |r.entries| - 1);
        if HasKey(c, j) && j != k {
          var t :| 0 <= t < |c.entries| && HasKeyAt(c, j, t);
          assert grown[t] == c.entries[t];
          assert HasKeyAt(r, j, t);
        }
        if HasKey(r, j) && j != k {
          var t :| 0 <= t < |r.entries| && HasKeyAt(r, j, t);
          assert t < |c.entries| && grown[t] == c.entries[t];
          assert HasKeyAt(c, j, t);
        }
      }
  }

  /** Putting new key `k` pushes `j` out: the cache is full and `j` is its
      eldest entry. */
  predicate Evicts<V>(c: Cache<V>, k: string, j: string) {
    && !HasKey(c, k)
    && |c.entries| + 1 > c.max
    && |c.entries| > 0
    && c.entries[0].key == j
  }

  /** Insertion order: a new key becomes the youngest entry; a present key
      keeps its place. */
  lemma PutOrder<V>(c: Cache<V>, k: string, v: V)
    requires Valid(c) && |c.entries| <= Bound(c) && c.max > 0
    ensures !HasKey(c, k) ==> Put(c, k, v).entries[|Put(c, k, v).entries| - 1] == Entry(k, v)
    ensures forall i :: HasKeyAt(c, k, i) ==> Put(c, k, v).entries == c.entries[i := Entry(k, v)]
  {
    match IndexOf(c.entries, k)
    case Some(i) =>
      assert HasKeyAt(c, k, i);
    case None =>
      assert !HasKey(c, k);
  }

  /** `remove` takes exactly the one key out. */
  lemma RemoveGet<V>(c: Cache<V>, k: string, j: string)
    requires Valid(c)
    ensures Get(Remove(c, k), k) == None
    ensures j != k ==> Get(Remove(c, k), j) == Get(c, j)
  {
    var r := Remove(c, k);
    match IndexOf(c.entries, k)
    case None =>
    case Some(i) =>
      assert forall t :: 0 <= t < |r.entries| ==> r.entries[t] == if t < i then c.entries[t] else c.entries[t + 1];
      if HasKey(c, j) && j != k {
        var t :| 0 <= t < |c.entries| && HasKeyAt(c, j, t);
        assert HasKeyAt(r, j, if t < i then t else t - 1);
      }
      if HasKey(r, j) && j != k {
        var t :| 0 <= t < |r.entries| && HasKeyAt(r, j, t);
        assert HasKeyAt(c, j, if t < i then t else t + 1);
      }
  }
}

=== FILE: depth.dfy ===
/** The two arity primitives the generated WarpScript calls: `FLOWS.ENSUREDEPTH`
    forces the stack to hold exactly a given number of values, and
    `FLOWS.ASSERTDEPTH` fails unless it already does. Both take the count
    from the top of the stack. */
module Depth {
  import opened Results
  import opened Numbers

  /** What a stack slot can hold, as far as these primitives care: the
      `null` that padding pushes, a `Long`, or anything else. */
  datatype Value = Null | Long(v: int) | Other(tag: string)

  /** A WarpScript stack; the top is the LAST element. */
  type Stack = seq<Value>

  /** The depth fits in an `int` and every `Long` on the stack fits in 64
      bits. */
  predicate ValidStack(s: Stack) {
    && |s| < -INT_MIN
    && forall k :: 0 <= k < |s| ==> (s[k].Long? ==> IsLong(s[k].v))
  }

  datatype DepthError =
    | EmptyStack                          // nothing to pop the count from
    | NotALong                            // the count is not a `Long`
    | BadCount(n: int)                    // `popn` refused the `int`-cast count
    | Mismatch(expected: int, found: int) // ASSERTDEPTH: count differs from depth

  /** The top of `s` is the count `c`. */
  predicate CountOnTop(s: Stack, c: int) {
    |s| > 0 && s[|s| - 1] == Long(c)
  }

  /** `n` copies of `null`. */
  function Nulls(n: nat): (r: Stack)
    ensures |r| == n
    ensures forall k :: 0 <= k < n ==> r[k] == Null
  {
    if n == 0 then [] else Nulls(n - 1) + [Null]
  }

  /** Pops the count: the stack must be non-empty and hold a `Long` on top. */
  function PopCount(s: Stack): (r: Result<(int, Stack), DepthError>)
    ensures |s| == 0 ==> r == Failure(EmptyStack)
    ensures |s| > 0 && !s[|s| - 1].Long? ==> r == Failure(NotALong)
    ensures forall c :: CountOnTop(s, c) ==> r == Success((c, s[..|s| - 1]))
  {
    if |s| == 0 then Failure(EmptyStack)
    else if !s[|s| - 1].Long? then Failure(NotALong)
    else Success((s[|s| - 1].v, s[..|s| - 1]))
  }

  /** FLOWS.ENSUREDEPTH once the count is popped off. The difference
      between the depth and the count is a `long` (so it wraps), and the
      count handed to `popn` is cast to `int` (so it truncates). A
      non-negative count always succeeds and leaves exactly that many
      values: missing ones become `null` at the top, extra ones are dropped
      from the bottom, and the values kept stay in order. A negative `int`
      count is refused by `popn`. */
  function EnsureCount(rest: Stack, count: int): (r: Result<Stack, DepthError>)
    requires |rest| < -INT_MIN && IsLong(count)
    ensures 0 <= count ==> r.Success? && |r.value| == count
    ensures |rest| <= count ==> r.Success? && r.value[..|rest|] == rest
    ensures |rest| <= count ==> r.Success? && forall k :: |rest| <= k < |r.value| ==> r.value[k] == Null
    ensures 0 <= count <= |rest| ==> r == Success(rest[|rest| - count..])
    ensures INT_MIN <= count < 0 ==> r == Failure(BadCount(count))
  {
    var delta := Wrap64(|rest| - count);
    if delta < 0 then Success(rest + Nulls(-delta))
    else if delta > 0 then
      var n := Wrap32(count);
      if n < 0 || n > |rest| then Failure(BadCount(n))
      else Success(rest[|rest| - n..])
    else Success(rest)
  }

  /** FLOWS.ENSUREDEPTH: pops the count, then `EnsureCount`. */
  function EnsureDepth(s: Stack): (r: Result<Stack, DepthError>)
    requires ValidStack(s)
    ensures |s| == 0 ==> r == Failure(EmptyStack)
    ensures |s| > 0 && !s[|s| - 1].Long? ==> r == Failure(NotALong)
    ensures forall c :: CountOnTop(s, c) ==> IsLong(c) && r == EnsureCount(s[..|s| - 1], c)
  {
    match PopCount(s)
    case Failure(e) => Failure(e)
    case Success((count, rest)) => EnsureCount(rest, count)
  }

  /** FLOWS.ASSERTDEPTH: succeeds, leaving the stack below the count as it
      was, exactly when the count equals the remaining depth; otherwise the
      error reports both. */
  function AssertDepth(s: Stack): (r: Result<Stack, DepthError>)
    ensures |s| == 0 ==> r == Failure(EmptyStack)
    ensures |s| > 0 && !s[|s| - 1].Long? ==> r == Failure(NotALong)
    ensures forall c :: CountOnTop(s, c) ==> (r.Success? <==> c == |s| - 1)
    ensures r.Success? ==> r.value == s[..|s| - 1]
    ensures forall c :: CountOnTop(s, c) && c != |s| - 1 ==> r == Failure(Mismatch(c, |s| - 1))
  {
    match PopCount(s)
    case Failure(e) => Failure(e)
    case Success((count, rest)) =>
      if count != |rest| then Failure(Mismatch(count, |rest|)) else Success(rest)
  }

  /** The text of the ASSERTDEPTH failure. */
  function MismatchMessage(expected: int, found: int): string {
    "Invalid number of values, expected " + (IntToString(expected) + " but found " + IntToString(found))
  }

  /** The message names both numbers unambiguously: two mismatches with the
      same text are the same mismatch. */
  lemma MismatchMessageDeterminesCounts(a: int, b: int, c: int, d: int)
    requires MismatchMessage(a, b) == MismatchMessage(c, d)
    ensures a == c && b == d
  {
    var P := "Invalid number of values, expected ";
    var Q := " but found ";
    var A, B, C, D := IntToString(a), IntToString(b), IntToString(c), IntToString(d);
    assert A + Q + B == C + Q + D by {
      assert (P + (A + Q + B))[|P|..] == A + Q + B;
      assert (P + (C + Q + D))[|P|..] == C + Q + D;
    }
    IntToStringHasNoSpace(a);
    IntToStringHasNoSpace(c);
    SplitAtSeparator(A, B, C, D, Q);
    IntToStringInjective(a, c);
    IntToStringInjective(b, d);
  }

  /** Two words free of the separator's first character, each followed by
      the separator and a tail, split the same way. */
  lemma SplitAtSeparator(A: string, B: string, C: string, D: string, Q: string)
    requires |Q| > 0
    requires forall i :: 0 <= i < |A| ==> A[i] != Q[0]
    requires forall i :: 0 <= i < |C| ==> C[i] != Q[0]
    requires A + Q + B == C + Q + D
    ensures A == C && B == D
  {
    var l := A + Q + B;
    assert forall i :: 0 <= i < |A| ==> l[i] != Q[0];
    assert forall i :: 0 <= i < |C| ==> l[i] != Q[0];
    assert |A| < |l| && l[|A|] == Q[0];
    assert |C| < |l| && l[|C|] == Q[0];
    assert A == l[..|A|];
    assert C == l[..|C|];
    assert B == l[|A| + |Q|..];
    assert D == l[|C| + |Q|..];
  }

  /** ENSUREDEPTH with a count that is not a valid `int` but whose low 32
      bits are: the cast makes it behave like the low bits. */
  lemma TruncatedCountKeepsLowBits(s: Stack, c: int, low: nat)
    requires ValidStack(s) && CountOnTop(s, c)
    requires low <= |s| - 1 && c == low - TWO_32
    ensures EnsureDepth(s) == Success(s[|s| - 1 - low..|s| - 1])
  {
    Wrap32Unique(c, low);
  }

  /** ENSUREDEPTH with `Long.MIN_VALUE`: the difference overflows to a
      negative `long`, and the stack is padded up to 2^63 values. */
  lemma MinCountPads(s: Stack)
    requires ValidStack(s) && CountOnTop(s, LONG_MIN)
    ensures EnsureDepth(s).Success?
    ensures |EnsureDepth(s).value| == LONG_MAX + 1
  {
    Wrap64Unique(|s| - 1 - LONG_MIN, |s| - 1 - LONG_MIN - TWO_64);
  }

  /** ENSUREDEPTH is idempotent: ensuring the same non-negative count again
      changes nothing. */
  lemma EnsureDepthIdempotent(s: Stack, c: nat, r: Stack)
    requires ValidStack(s) && CountOnTop(s, c) && c < -INT_MIN - 1
    requires EnsureDepth(s) == Success(r)
    ensures ValidStack(r + [Long(c)])
    ensures EnsureDepth(r + [Long(c)]) == Success(r)
  {
    var t := r + [Long(c)];
    assert t[..|t| - 1] == r;
    forall k | 0 <= k < |r| && r[k].Long? ensures IsLong(r[k].v) {
      if |s| - 1 <= c {
        assert r[..|s| - 1] == s[..|s| - 1];
        if k < |s| - 1 {
          assert r[k] == s[k];
        }
      } else {
        assert r[k] == s[|s| - 1 - c + k];
      }
    }
  }

  /** ENSUREDEPTH followed by ASSERTDEPTH of the same count never fails: the
      code the generator emits before a macro call is always satisfied. */
  lemma EnsureThenAssert(s: Stack, c: nat, r: Stack)
    requires ValidStack(s) && CountOnTop(s, c)
    requires EnsureDepth(s) == Success(r)
    ensures AssertDepth(r + [Long(c)]) == Success(r)
  {
    var t := r + [Long(c)];
    assert t[..|t| - 1] == r;
  }
}

=== FILE: executor.dfy ===
/** The bookkeeping of the FLoWS code generator. The generator walks a
    parsed FLoWS program once, either in eval mode, where each instruction
    goes straight to a live WarpScript stack or into the macro under
    construction, or in text mode, where the equivalent WarpScript source is
    appended to a text buffer. This module models the state both modes
    share (symbol counter, builder stack, indentation, buffer) and the
    helpers that act on it; the parse tree is reduced to the statements and
    macro definitions those helpers need. */
module Executor {
  import opened Results
  import opened Numbers
  import opened Text

  /** WarpScript words the generator emits. */
  const HIDE := "HIDE"
  const SHOW := "SHOW"
  const STORE := "STORE"
  const LOAD := "LOAD"
  const DUP := "DUP"
  const FORGET := "FORGET"
  const SAVE := "SAVE"
  const RESTORE := "RESTORE"
  const ASSERTDEPTH := "FLOWS.ASSERTDEPTH"

  /** Prefix of generated variable names. */
  const PREFIX := "#"

  /** Columns added by one `indent()`. */
  const INDENT_STEP := 2

  /** `n` spaces. */
  function Spaces(n: nat): (r: string)
    ensures |r| == n
    ensures forall k :: 0 <= k < n ==> r[k] == ' '
  {
    seq(n, _ => ' ')
  }

  /** The block of blanks indentation is cut from. */
  const INDENTATION: string := Spaces(42)

  /** What the generator feeds the stack: a value to push or a function to
      apply. */
  datatype Instr =
    | PushNull
    | PushLong(n: int)
    | PushSym(s: string)
    | PushNames(names: seq<string>)
    | PushMacro(body: seq<Instr>, name: string)
    | Op(name: string)

  /** Where pushes and applications go (eval mode). `builders` lists the
      macros under construction, innermost last (text mode pushes onto it
      too); `live` is what reached the live stack, in order; `ops` counts
      pushes and applications. */
  datatype Routing = Routing(builders: seq<seq<Instr>>, live: seq<Instr>, ops: nat)

  /** The text buffer (text mode) with its indentation state. */
  datatype Buffer = Buffer(sb: string, needIndent: bool, curindent: int)

  /** The generator: its mode, the symbol and macro counters, and the
      state above. */
  datatype Gen = Gen(eval: bool, varidx: int, macroidx: int, buf: Buffer, rt: Routing)

  // ---------------------------------------------------------------------
  // Fresh symbols
  // ---------------------------------------------------------------------

  /** The variable name generated for counter value `k`. */
  function Symbol(k: int): string {
    PREFIX + " " + IntToString(k)
  }

  lemma SymbolInjective(i: int, j: int)
    ensures Symbol(i) == Symbol(j) <==> i == j
  {
    if Symbol(i) == Symbol(j) {
      assert IntToString(i) == Symbol(i)[2..] == Symbol(j)[2..] == IntToString(j);
      IntToStringInjective(i, j);
    }
  }

  /** `genSymbol`: the name for the current counter value; the counter is a
      Java `int` and is post-incremented. */
  function GenSymbol(g: Gen): (r: (string, Gen))
    ensures r.0 == Symbol(g.varidx)
    ensures INT_MIN <= g.varidx < -INT_MIN - 1 ==> r.1.varidx == g.varidx + 1
    ensures r.1 == g.(varidx := r.1.varidx)
  {
    (Symbol(g.varidx), g.(varidx := Wrap32(g.varidx + 1)))
  }

  /** `k` successive `genSymbol` calls. */
  function GenSymbols(g: Gen, k: nat): (r: (seq<string>, Gen))
    ensures |r.0| == k
    decreases k
  {
    if k == 0 then ([], g)
    else
      var first := GenSymbol(g);
      var rest := GenSymbols(first.1, k - 1);
      ([first.0] + rest.0, rest.1)
  }

  /** As long as it does not wrap, the counter advances by one per symbol. */
  lemma {:induction false} GenSymbolsCounter(g: Gen, k: nat)
    requires 0 <= g.varidx && g.varidx + k < -INT_MIN
    ensures GenSymbols(g, k).1.varidx == g.varidx + k
    decreases k
  {
    if k > 0 {
      GenSymbolsCounter(GenSymbol(g).1, k - 1);
    }
  }

  /** `f` at `k` consecutive values from `start`. */
  function Range<T>(f: int -> T, start: int, k: nat): (r: seq<T>)
    ensures |r| == k
    decreases k
  {
    if k == 0 then [] else [f(start)] + Range(f, start + 1, k - 1)
  }

  lemma {:induction false} RangeAt<T>(f: int -> T, start: int, k: nat, i: nat)
    requires i < k
    ensures Range(f, start, k)[i] == f(start + i)
    decreases i
  {
    if i > 0 {
      RangeAt(f, start + 1, k - 1, i - 1);
    }
  }

  /** As long as the counter does not wrap, `k` successive symbols are
      those of `k` consecutive counter values. */
  lemma {:induction false} GenSymbolsRange(g: Gen, k: nat)
    requires 0 <= g.varidx && g.varidx + k < -INT_MIN
    ensures GenSymbols(g, k).0 == Range(Symbol, g.varidx, k)
    decreases k
  {
    if k > 0 {
      var g1 := GenSymbol(g).1;
      assert g1.varidx == g.varidx + 1;
      GenSymbolsRange(g1, k - 1);
    }
  }

  /** The `i`-th of `k` successive symbols is the one for the counter plus
      `i`. */
  lemma GenSymbolsCount(g: Gen, k: nat)
    requires 0 <= g.varidx && g.varidx + k < -INT_MIN
    ensures forall i :: 0 <= i < k ==> GenSymbols(g, k).0[i] == Symbol(g.varidx + i)
  {
    GenSymbolsRange(g, k);
    forall i | 0 <= i < k ensures GenSymbols(g, k).0[i] == Symbol(g.varidx + i) {
      RangeAt(Symbol, g.varidx, k, i);
    }
  }

  /** No two symbols of one generator are equal, as long as the counter
      does not wrap. */
  lemma GenSymbolsDistinct(g: Gen, k: nat)
    requires 0 <= g.varidx && g.varidx + k < -INT_MIN
    ensures forall i, j :: 0 <= i < j < k ==> GenSymbols(g, k).0[i] != GenSymbols(g, k).0[j]
  {
    GenSymbolsCount(g, k);
    forall i, j | 0 <= i < j < k ensures GenSymbols(g, k).0[i] != GenSymbols(g, k).0[j] {
      SymbolInjective(g.varidx + i, g.varidx + j);
    }
  }

  // ---------------------------------------------------------------------
  // Routing of pushes and applications
  // ---------------------------------------------------------------------

  /** Where the next instruction goes: the innermost macro under
      construction, or the live stack when there is none. */
  function Target(rt: Routing): seq<Instr> {
    if |rt.builders| == 0 then rt.live else rt.builders[|rt.builders| - 1]
  }

  /** `a` is a prefix of `b`. */
  predicate IsPrefix<T(==)>(a: seq<T>, b: seq<T>) {
    |a| <= |b| && b[..|a|] == a
  }

  /** `push` and `apply` (eval mode): count one operation and append the
      value or function to the innermost builder, or hand it to the live
      stack when no macro is being built. */
  function Route(rt: Routing, x: Instr): (r: Routing)
    ensures r.ops == rt.ops + 1
    ensures Target(r) == Target(rt) + [x]
    ensures |rt.builders| == 0 ==> r.builders == [] && r.live == rt.live + [x]
    ensures |rt.builders| > 0 ==> r.live == rt.live && |r.builders| == |rt.builders|
    ensures |rt.builders| > 0 ==> r.builders[..|rt.builders| - 1] == rt.builders[..|rt.builders| - 1]
  {
    if |rt.builders| == 0 then Routing(rt.builders, rt.live + [x], rt.ops + 1)
    else
      var n := |rt.builders|;
      Routing(rt.builders[n - 1 := rt.builders[n - 1] + [x]], rt.live, rt.ops + 1)
  }

  /** `b` differs from `a` only by instructions appended to `a`'s target:
      the builder stack keeps its height, the builders below the innermost
      one are untouched, and the live stack only grows when no macro is
      being built. */
  predicate Grows(a: Routing, b: Routing) {
    && |b.builders| == |a.builders|
    && (|a.builders| > 0 ==> b.live == a.live)
    && (|a.builders| > 0 ==> b.builders[..|a.builders| - 1] == a.builders[..|a.builders| - 1])
    && IsPrefix(Target(a), Target(b))
  }

  lemma GrowsTransitive(a: Routing, b: Routing, c: Routing)
    requires Grows(a, b) && Grows(b, c)
    ensures Grows(a, c)
  {
    if |a.builders| > 0 {
      assert a.builders[..|a.builders| - 1] == b.builders[..|a.builders| - 1];
    }
  }

  /** A run of pushes and applications, in order. */
  function RouteAll(rt: Routing, xs: seq<Instr>): (r: Routing)
    ensures r.ops == rt.ops + |xs|
    ensures Target(r) == Target(rt) + xs
    ensures Grows(rt, r)
    decreases |xs|
  {
    if |xs| == 0 then rt
    else
      var r := RouteAll(Route(rt, xs[0]), xs[1..]);
      assert xs == [xs[0]] + xs[1..];
      r
  }

  lemma RouteAllCons(rt: Routing, x: Instr, xs: seq<Instr>)
    ensures RouteAll(rt, [x] + xs) == RouteAll(Route(rt, x), xs)
  {
    assert ([x] + xs)[1..] == xs;
  }

  lemma ConsAppend<T>(xs: seq<T>, ys: seq<T>)
    requires |xs| > 0
    ensures xs + ys == [xs[0]] + (xs[1..] + ys)
  {
  }

  lemma {:induction false} RouteAllAppend(rt: Routing, xs: seq<Instr>, ys: seq<Instr>)
    ensures RouteAll(RouteAll(rt, xs), ys) == RouteAll(rt, xs + ys)
    decreases |xs|
  {
    if |xs| > 0 {
      RouteAllAppend(Route(rt, xs[0]), xs[1..], ys);
      ConsAppend(xs, ys);
      RouteAllCons(rt, xs[0], xs[1..] + ys);
    } else {
      assert xs + ys == ys;
    }
  }

  // ---------------------------------------------------------------------
  // The text buffer
  // ---------------------------------------------------------------------

  /** `t` is `s` with its trailing spaces removed. */
  predicate Trimmed(s: string, t: string) {
    && IsPrefix(t, s)
    && (forall k :: |t| <= k < |s| ==> s[k] == ' ')
    && (|t| == 0 || t[|t| - 1] != ' ')
  }

  function TrimSpaces(s: string): (t: string)
    ensures Trimmed(s, t)
    decreases |s|
  {
    if |s| > 0 && s[|s| - 1] == ' ' then
      var t := TrimSpaces(s[..|s| - 1]);
      assert s[..|s| - 1][..|t|] == s[..|t|];
      t
    else s
  }

  /** There is only one way to trim. */
  lemma TrimmedUnique(s: string, t1: string, t2: string)
    requires Trimmed(s, t1) && Trimmed(s, t2)
    ensures t1 == t2
  {
    assert |t1| > 0 ==> s[|t1| - 1] != ' ';
    assert |t2| > 0 ==> s[|t2| - 1] != ' ';
  }

  /** The trailing-space loop of `LF()`, as written: walk back over spaces. */
  method TrimTrailingSpaces(s: string) returns (t: string)
    ensures Trimmed(s, t)
    ensures t == TrimSpaces(s)
  {
    var len := |s|;
    while len > 0
      invariant 0 <= len <= |s|
      invariant forall k :: len <= k < |s| ==> s[k] == ' '
      decreases len
    {
      if s[len - 1] == ' ' {
        len := len - 1;
      } else {
        break;
      }
    }
    t := s[..len];
    TrimmedUnique(s, t, TrimSpaces(s));
  }

  /** `sb.append(LF())`: trailing spaces are removed from the buffer, a
      line feed is added unless the buffer then already ends with one, and
      the next write is indented. */
  function Newline(b: Buffer): (r: Buffer)
    ensures r.needIndent && r.curindent == b.curindent
    ensures EndsWith(r.sb, "\n")
    ensures r.sb == TrimSpaces(b.sb) + "\n" || r.sb == TrimSpaces(b.sb)
    ensures r.sb == TrimSpaces(b.sb) <==> EndsWith(TrimSpaces(b.sb), "\n")
  {
    var t := TrimSpaces(b.sb);
    Buffer(t + (if |t| >= 1 && t[|t| - 1] == '\n' then "" else "\n"), true, b.curindent)
  }

  /** Appending `LF()` twice leaves the same buffer as appending it once. */
  lemma NewlineIdempotent(b: Buffer)
    ensures Newline(Newline(b)) == Newline(b)
  {
    NewlineAtLineStart(Newline(b));
  }

  /** A buffer that already ends a line, and indents its next write, is
      left alone by `LF()`. */
  lemma NewlineAtLineStart(b: Buffer)
    requires b.needIndent && EndsWith(b.sb, "\n")
    ensures Newline(b) == b
  {
    EndsWithNewline(b.sb);
    assert TrimSpaces(b.sb) == b.sb;
    assert b.sb + "" == b.sb;
  }

  lemma EndsWithNewline(s: string)
    requires EndsWith(s, "\n")
    ensures |s| > 0 && s[|s| - 1] == '\n'
  {
    assert s[|s| - 1] == s[|s| - 1..][0];
  }

  /** `indent()` and `deindent()`. */
  function Indent(g: Gen): (r: Gen)
    ensures r.buf.curindent > g.buf.curindent
  {
    g.(buf := g.buf.(curindent := g.buf.curindent + INDENT_STEP))
  }

  function Deindent(g: Gen): (r: Gen)
    ensures r.buf.curindent < g.buf.curindent
  {
    g.(buf := g.buf.(curindent := g.buf.curindent - INDENT_STEP))
  }

  lemma IndentDeindentInverse(g: Gen)
    ensures Deindent(Indent(g)) == g
    ensures Indent(Deindent(g)) == g
  {
  }

  /** The first `len` columns of indentation, cut from `INDENTATION` one
      block at a time. */
  function Chunked(len: int): (r: string)
    ensures len <= 0 ==> r == ""
    ensures len > 0 ==> r == Spaces(len)
    decreases len
  {
    if len <= 0 then ""
    else if len > |INDENTATION| then INDENTATION + Chunked(len - |INDENTATION|)
    else INDENTATION[..len]
  }

  /** The loop of `indentation()`, as written. */
  method IndentationLoop(curindent: int) returns (s: string)
    ensures curindent <= 0 ==> s == ""
    ensures curindent > 0 ==> s == Spaces(curindent)
  {
    s := "";
    if curindent != 0 {
      var len := curindent;
      while len > 0
        invariant len <= 0 ==> |s| == if curindent > 0 then curindent else 0
        invariant len > 0 ==> |s| == curindent - len
        invariant forall k :: 0 <= k < |s| ==> s[k] == ' '
        decreases len
      {
        if len > |INDENTATION| {
          s := s + INDENTATION;
          len := len - |INDENTATION|;
        } else {
          s := s + INDENTATION[..len];
          len := 0;
        }
      }
    }
  }

  /** `indentation()`: the blanks for the current column when a new line is
      starting, `""` otherwise; either way the line no longer needs
      indenting. */
  function Indentation(b: Buffer): (r: (string, Buffer))
    ensures b.needIndent ==> r.0 == Spaces(if b.curindent > 0 then b.curindent else 0)
    ensures !b.needIndent ==> r.0 == ""
    ensures r.1 == b.(needIndent := false)
  {
    if !b.needIndent then ("", b)
    else if b.curindent == 0 then ("", b.(needIndent := false))
    else (Chunked(b.curindent), b.(needIndent := false))
  }

  /** Indentation is produced at most once per line: after it, nothing
      more until the next `LF()`, which brings it back. */
  lemma IndentationOncePerLine(b: Buffer)
    ensures Indentation(Indentation(b).1).0 == ""
    ensures b.needIndent ==> Indentation(Newline(Indentation(b).1)).0 == Indentation(b).0
  {
  }

  /** `sb.append(indentation() + text); sb.append(LF());` */
  function EmitLine(b: Buffer, text: string): (r: Buffer)
    ensures r.needIndent && r.curindent == b.curindent && EndsWith(r.sb, "\n")
  {
    var (ind, b1) := Indentation(b);
    Newline(b1.(sb := b1.sb + ind + text))
  }

  // ---------------------------------------------------------------------
  // Tokens shared by both modes
  // ---------------------------------------------------------------------

  /** `'a' 'b' ` for names `a`, `b`. */
  function QuotedEach(names: seq<string>): string
    decreases |names|
  {
    if |names| == 0 then "" else "'" + names[0] + "' " + QuotedEach(names[1..])
  }

  /** The WarpScript text of one instruction. */
  function TokenText(x: Instr): string
    decreases x, 1
  {
    match x
    case PushNull => "NULL"
    case PushLong(n) => IntToString(n)
    case PushSym(s) => "'" + s + "'"
    case PushNames(names) => "[ " + QuotedEach(names) + "]"
    case PushMacro(body, _) => "<% " + Render(body) + " %>"
    case Op(name) => name
  }

  /** Instructions as one line of WarpScript, separated by spaces. */
  function Render(xs: seq<Instr>): string
    decreases xs, 0
  {
    if |xs| == 0 then ""
    else if |xs| == 1 then TokenText(xs[0])
    else TokenText(xs[0]) + " " + Render(xs[1..])
  }

  lemma RenderCons(x: Instr, xs: seq<Instr>)
    ensures Render([x] + xs) == if |xs| == 0 then TokenText(x) else TokenText(x) + " " + Render(xs)
  {
    assert ([x] + xs)[1..] == xs;
  }

  /** Doing `xs` in the generator's mode: apply them in eval mode, write
      them as one line in text mode. */
  function Perform(g: Gen, xs: seq<Instr>): Gen {
    if g.eval then g.(rt := RouteAll(g.rt, xs)) else g.(buf := EmitLine(g.buf, Render(xs)))
  }

  function SaveTokens(sym: string): seq<Instr> {
    [PushNull, Op(HIDE), PushSym(sym), Op(STORE)]
  }

  /** Inside a macro the snapshot variable is left defined; at top level it
      is forgotten once restored. */
  function RestoreTokens(sym: string, inMacro: bool): seq<Instr> {
    if inMacro then [PushSym(sym), Op(LOAD), Op(SHOW)]
    else [PushSym(sym), Op(DUP), Op(LOAD), Op(SHOW), Op(FORGET)]
  }

  function AssertTokens(n: int): seq<Instr> {
    [PushLong(n), Op(ASSERTDEPTH)]
  }

  /** Words separated by single spaces. */
  function Words(ws: seq<string>): string
    decreases |ws|
  {
    if |ws| == 0 then "" else if |ws| == 1 then ws[0] else ws[0] + " " + Words(ws[1..])
  }

  /** Rendering instructions writes their tokens as words. */
  lemma {:induction false} RenderWords(xs: seq<Instr>)
    ensures Render(xs) == Words(seq(|xs|, i requires 0 <= i < |xs| => TokenText(xs[i])))
    decreases |xs|
  {
    var ws := seq(|xs|, i requires 0 <= i < |xs| => TokenText(xs[i]));
    if |xs| > 1 {
      RenderWords(xs[1..]);
      assert ws[1..] == seq(|xs[1..]|, i requires 0 <= i < |xs[1..]| => TokenText(xs[1..][i]));
    }
  }

  lemma RenderSave(sym: string)
    ensures Render(SaveTokens(sym)) == Words(["NULL", HIDE, "'" + sym + "'", STORE])
  {
    RenderWords(SaveTokens(sym));
    assert seq(4, i requires 0 <= i < 4 => TokenText(SaveTokens(sym)[i])) == ["NULL", HIDE, "'" + sym + "'", STORE];
  }

  lemma RouteSave(rt: Routing, sym: string)
    ensures RouteAll(rt, SaveTokens(sym)) ==
      Route(Route(Route(Route(rt, PushNull), Op(HIDE)), PushSym(sym)), Op(STORE))
  {
    var r1 := Route(rt, PushNull);
    var r2 := Route(r1, Op(HIDE));
    var r3 := Route(r2, PushSym(sym));
    RouteAllCons(rt, PushNull, [Op(HIDE), PushSym(sym), Op(STORE)]);
    RouteAllCons(r1, Op(HIDE), [PushSym(sym), Op(STORE)]);
    RouteAllCons(r2, PushSym(sym), [Op(STORE)]);
    assert SaveTokens(sym) == [PushNull] + [Op(HIDE), PushSym(sym), Op(STORE)];
    assert [Op(HIDE), PushSym(sym), Op(STORE)] == [Op(HIDE)] + [PushSym(sym), Op(STORE)];
    assert [PushSym(sym), Op(STORE)] == [PushSym(sym)] + [Op(STORE)];
  }

  /** `saveStack`: hide the whole stack and keep it under `sym`. The eval
      branch applies exactly the tokens the text branch writes. */
  function SaveStack(g: Gen, sym: string): (r: Gen)
    ensures r == Perform(g, SaveTokens(sym))
  {
    if g.eval then
      RouteSave(g.rt, sym);
      g.(rt := Route(Route(Route(Route(g.rt, PushNull), Op(HIDE)), PushSym(sym)), Op(STORE)))
    else
      RenderSave(sym);
      g.(buf := EmitLine(g.buf, Words(["NULL", HIDE, "'" + sym + "'", STORE])))
  }

  lemma RenderRestoreInMacro(sym: string)
    ensures Render(RestoreTokens(sym, true)) == Words(["'" + sym + "'", LOAD, SHOW])
  {
    RenderWords(RestoreTokens(sym, true));
    assert seq(3, i requires 0 <= i < 3 => TokenText(RestoreTokens(sym, true)[i])) == ["'" + sym + "'", LOAD, SHOW];
  }

  lemma RenderRestoreTopLevel(sym: string)
    ensures Render(RestoreTokens(sym, false)) == Words(["'" + sym + "'", DUP, LOAD, SHOW, FORGET])
  {
    RenderWords(RestoreTokens(sym, false));
    assert seq(5, i requires 0 <= i < 5 => TokenText(RestoreTokens(sym, false)[i])) == ["'" + sym + "'", DUP, LOAD, SHOW, FORGET];
  }

  lemma RouteRestoreInMacro(rt: Routing, sym: string)
    ensures RouteAll(rt, RestoreTokens(sym, true)) ==
      Route(Route(Route(rt, PushSym(sym)), Op(LOAD)), Op(SHOW))
  {
    var r1 := Route(rt, PushSym(sym));
    var r2 := Route(r1, Op(LOAD));
    RouteAllCons(rt, PushSym(sym), [Op(LOAD), Op(SHOW)]);
    RouteAllCons(r1, Op(LOAD), [Op(SHOW)]);
    assert RestoreTokens(sym, true) == [PushSym(sym)] + [Op(LOAD), Op(SHOW)];
    assert [Op(LOAD), Op(SHOW)] == [Op(LOAD)] + [Op(SHOW)];
  }

  lemma RouteRestoreTopLevel(rt: Routing, sym: string)
    ensures RouteAll(rt, RestoreTokens(sym, false)) ==
      Route(Route(Route(Route(Route(rt, PushSym(sym)), Op(DUP)), Op(LOAD)), Op(SHOW)), Op(FORGET))
  {
    var r1 := Route(rt, PushSym(sym));
    var r2 := Route(r1, Op(DUP));
    var r3 := Route(r2, Op(LOAD));
    var r4 := Route(r3, Op(SHOW));
    RouteAllCons(rt, PushSym(sym), [Op(DUP), Op(LOAD), Op(SHOW), Op(FORGET)]);
    RouteAllCons(r1, Op(DUP), [Op(LOAD), Op(SHOW), Op(FORGET)]);
    RouteAllCons(r2, Op(LOAD), [Op(SHOW), Op(FORGET)]);
    RouteAllCons(r3, Op(SHOW), [Op(FORGET)]);
    assert RestoreTokens(sym, false) == [PushSym(sym)] + [Op(DUP), Op(LOAD), Op(SHOW), Op(FORGET)];
    assert [Op(DUP), Op(LOAD), Op(SHOW), Op(FORGET)] == [Op(DUP)] + [Op(LOAD), Op(SHOW), Op(FORGET)];
    assert [Op(LOAD), Op(SHOW), Op(FORGET)] == [Op(LOAD)] + [Op(SHOW), Op(FORGET)];
    assert [Op(SHOW), Op(FORGET)] == [Op(SHOW)] + [Op(FORGET)];
  }

  /** `restoreStack`: bring the hidden values back; the variable is
      forgotten only when no macro is being built. The eval branch applies
      exactly the tokens the text branch writes. */
  function RestoreStack(g: Gen, sym: string): (r: Gen)
    ensures r == Perform(g, RestoreTokens(sym, |g.rt.builders| > 0))
  {
    if g.eval then
      if |g.rt.builders| > 0 then
        RouteRestoreInMacro(g.rt, sym);
        g.(rt := Route(Route(Route(g.rt, PushSym(sym)), Op(LOAD)), Op(SHOW)))
      else
        RouteRestoreTopLevel(g.rt, sym);
        g.(rt := Route(Route(Route(Route(Route(g.rt, PushSym(sym)), Op(DUP)), Op(LOAD)), Op(SHOW)), Op(FORGET)))
    else if |g.rt.builders| > 0 then
      RenderRestoreInMacro(sym);
      g.(buf := EmitLine(g.buf, Words(["'" + sym + "'", LOAD, SHOW])))
    else
      RenderRestoreTopLevel(sym);
      g.(buf := EmitLine(g.buf, Words(["'" + sym + "'", DUP, LOAD, SHOW, FORGET])))
  }

  lemma AssertTokensSteps(rt: Routing, n: int)
    ensures Render(AssertTokens(n)) == IntToString(n) + " " + ASSERTDEPTH
    ensures RouteAll(rt, AssertTokens(n)) == Route(Route(rt, PushLong(n)), Op(ASSERTDEPTH))
  {
    RenderCons(PushLong(n), [Op(ASSERTDEPTH)]);
    RouteAllCons(rt, PushLong(n), [Op(ASSERTDEPTH)]);
    assert AssertTokens(n) == [PushLong(n)] + [Op(ASSERTDEPTH)];
  }

  /** `assertDepth`: check that exactly `n` values are on the stack. The
      eval branch applies exactly the tokens the text branch writes. */
  function AssertDepth(g: Gen, n: int): (r: Gen)
    ensures r == Perform(g, AssertTokens(n))
  {
    AssertTokensSteps(g.rt, n);
    if g.eval then g.(rt := Route(Route(g.rt, PushLong(n)), Op(ASSERTDEPTH)))
    else g.(buf := EmitLine(g.buf, IntToString(n) + " " + ASSERTDEPTH))
  }

  // ---------------------------------------------------------------------
  // Anonymous macros and blocks
  // ---------------------------------------------------------------------

  /** An anonymous macro: whether it saves the caller's context (`->`), its
      parameter list if it has one, the text of its declared result count
      if it has one, its statements, and its source position. */
  datatype MacroDef = MacroDef(
    arrow: bool, params: Option<seq<string>>, nresults: Option<string>, body: seq<Stmt>, loc: string)

  /** A block statement: either a run of instructions the rest of the
      generator produced for it, or an anonymous macro; either may be the
      block's return statement. */
  datatype Stmt = Plain(code: seq<Instr>, isReturn: bool) | Lambda(def: MacroDef, isReturn: bool)

  datatype GenError = ExtraneousStatement | NegativeResults | BadNumber(text: string)

  /** Only the last statement of a block may be a return. */
  predicate ReturnIsLast(stmts: seq<Stmt>) {
    forall i :: 0 <= i < |stmts| - 1 ==> !stmts[i].isReturn
  }

  /** A declared result count is a decimal `long` that is not negative. */
  predicate ResultsOk(nresults: Option<string>) {
    nresults.Some? ==> ParseLong(nresults.value, 10).Some? && ParseLong(nresults.value, 10).value >= 0
  }

  /** The programs the generator accepts, at every nesting level. */
  predicate WellFormedBlock(stmts: seq<Stmt>)
    decreases stmts, 2
  {
    ReturnIsLast(stmts) && forall i :: 0 <= i < |stmts| ==> WellFormedStmt(stmts[i])
  }

  predicate WellFormedStmt(st: Stmt)
    decreases st, 1
  {
    st.Lambda? ==> WellFormedDef(st.def)
  }

  predicate WellFormedDef(m: MacroDef)
    decreases m, 0
  {
    ResultsOk(m.nresults) && WellFormedBlock(m.body)
  }

  lemma WellFormedBlockCons(stmts: seq<Stmt>)
    requires |stmts| > 0
    ensures WellFormedBlock(stmts) <==>
      WellFormedStmt(stmts[0]) && !(stmts[0].isReturn && |stmts| > 1) && WellFormedBlock(stmts[1..])
  {
    var rest := stmts[1..];
    assert forall i :: 0 <= i < |rest| ==> rest[i] == stmts[i + 1];
    if WellFormedStmt(stmts[0]) && !(stmts[0].isReturn && |stmts| > 1) && WellFormedBlock(rest) {
      forall i | 0 < i < |stmts| ensures WellFormedStmt(stmts[i]) && (i < |stmts| - 1 ==> !stmts[i].isReturn) {
        assert stmts[i] == rest[i - 1];
      }
    }
  }

  /** What generating well-formed code does to the state: the mode and the
      indentation are kept; eval mode writes no text and only appends to
      the current target; text mode touches neither the live stack nor the
      operation count and at most adds builders, none when `fixed`. */
  predicate Step(a: Gen, b: Gen, fixed: bool) {
    && b.eval == a.eval
    && b.buf.curindent == a.buf.curindent
    && (a.eval ==> b.buf == a.buf && Grows(a.rt, b.rt))
    && (!a.eval ==> b.rt.live == a.rt.live && b.rt.ops == a.rt.ops && IsPrefix(a.rt.builders, b.rt.builders))
    && (!a.eval && fixed ==> b.rt == a.rt)
  }

  lemma StepTransitive(a: Gen, b: Gen, c: Gen, fixed: bool)
    requires Step(a, b, fixed) && Step(b, c, fixed)
    ensures Step(a, c, fixed)
  {
    if a.eval {
      GrowsTransitive(a.rt, b.rt, c.rt);
    } else {
      assert c.rt.builders[..|a.rt.builders|] == b.rt.builders[..|b.rt.builders|][..|a.rt.builders|];
    }
  }

  lemma PerformSteps(g: Gen, xs: seq<Instr>, fixed: bool)
    ensures Step(g, Perform(g, xs), fixed)
  {
    assert g.rt.builders[..|g.rt.builders|] == g.rt.builders;
  }

  /** The instructions that check a macro's arguments and bind its
      parameters; a macro without a parameter list demands an empty stack. */
  function ParamTokens(params: Option<seq<string>>): seq<Instr> {
    match params
    case None => AssertTokens(0)
    case Some(ids) => AssertTokens(|ids|) + [PushNames(ids), Op(STORE)]
  }

  function ContextSaveTokens(sym: string): seq<Instr> {
    [Op(SAVE), PushSym(sym), Op(STORE)]
  }

  function ContextRestoreTokens(sym: string): seq<Instr> {
    [PushSym(sym), Op(LOAD), Op(RESTORE)]
  }

  /** What every compiled macro begins with. */
  function EntryTokens(arrow: bool, params: Option<seq<string>>, sym: string): seq<Instr> {
    (if arrow then ContextSaveTokens(sym) else []) + ParamTokens(params)
  }

  /** What every compiled macro begins with, then the stack snapshot
      under `stacksym` when a result count is declared. */
  function EntryCode(arrow: bool, params: Option<seq<string>>, sym: string, stacksym: string, counted: bool): seq<Instr> {
    EntryTokens(arrow, params, sym) + (if counted then SaveTokens(stacksym) else [])
  }

  /** What every compiled macro ends with: the result check and the stack
      restore when a result count is declared, then the context restore. */
  function ExitTokens(arrow: bool, count: Option<int>, sym: string, stacksym: string): seq<Instr> {
    (if count.Some? then AssertTokens(count.value) + RestoreTokens(stacksym, true) else [])
      + (if arrow then ContextRestoreTokens(sym) else [])
  }

  lemma EmitLineEnds(b: Buffer, text: string)
    requires |text| > 0 && text[|text| - 1] != ' ' && text[|text| - 1] != '\n'
    ensures EndsWith(EmitLine(b, text).sb, text + "\n")
  {
    var (ind, b1) := Indentation(b);
    var p := b1.sb + ind;
    var s := p + text;
    assert s[|s| - 1] == text[|text| - 1];
    assert TrimSpaces(s) == s;
    assert EmitLine(b, text).sb == s + "\n";
    assert s + "\n" == p + (text + "\n");
    EndsWithSuffix(p, text + "\n");
  }

  lemma EndsWithSuffix(p: string, t: string)
    ensures EndsWith(p + t, t)
  {
    assert (p + t)[|p|..] == t;
  }

  /** A line just written ends the buffer with a line feed, so the extra
      `LF()` the parameter code appends adds no blank line. */
  lemma NewlineAfterLine(b: Buffer, text: string)
    ensures Newline(EmitLine(b, text)) == EmitLine(b, text)
  {
    var (ind, b1) := Indentation(b);
    NewlineIdempotent(b1.(sb := b1.sb + ind + text));
  }

  /** `genMacroParameters`. */
  function GenParams(g: Gen, params: Option<seq<string>>): (r: Gen)
    ensures g.eval ==> r == g.(rt := RouteAll(g.rt, ParamTokens(params)))
    ensures !g.eval && params.None? ==> r == Perform(g, ParamTokens(params))
    ensures !g.eval && params.Some? ==>
      r == Perform(AssertDepth(g, |params.value|), [PushNames(params.value), Op(STORE)])
  {
    match params
    case None =>
      AssertTokensSteps(g.rt, 0);
      if g.eval then g.(rt := Route(Route(g.rt, PushLong(0)), Op(ASSERTDEPTH)))
      else g.(buf := EmitLine(g.buf, "0" + " " + ASSERTDEPTH))
    case Some(ids) =>
      var g1 := AssertDepth(g, |ids|);
      if g.eval then
        ParamRoutes(g.rt, ids);
        g1.(rt := Route(Route(g1.rt, PushNames(ids)), Op(STORE)))
      else
        NewlineAfterLine(g.buf, Render(AssertTokens(|ids|)));
        RenderNames(ids);
        g1.(buf := EmitLine(Newline(g1.buf), "[" + " " + QuotedEach(ids) + "]" + " " + STORE))
  }

  lemma RenderNames(ids: seq<string>)
    ensures Render([PushNames(ids), Op(STORE)]) == "[" + " " + QuotedEach(ids) + "]" + " " + STORE
  {
    RenderCons(PushNames(ids), [Op(STORE)]);
    assert [PushNames(ids), Op(STORE)] == [PushNames(ids)] + [Op(STORE)];
    assert Render([Op(STORE)]) == STORE;
    var q := QuotedEach(ids);
    assert TokenText(PushNames(ids)) == "[ " + q + "]";
    assert "[ " + q + "]" == "[" + " " + q + "]";
  }

  lemma ParamRoutes(rt: Routing, ids: seq<string>)
    ensures RouteAll(rt, ParamTokens(Some(ids))) ==
      Route(Route(RouteAll(rt, AssertTokens(|ids|)), PushNames(ids)), Op(STORE))
  {
    var r1 := RouteAll(rt, AssertTokens(|ids|));
    RouteAllAppend(rt, AssertTokens(|ids|), [PushNames(ids), Op(STORE)]);
    RouteAllCons(r1, PushNames(ids), [Op(STORE)]);
    RouteAllCons(Route(r1, PushNames(ids)), Op(STORE), []);
    assert [PushNames(ids), Op(STORE)] == [PushNames(ids)] + [Op(STORE)];
    assert [Op(STORE)] == [Op(STORE)] + [];
  }

  /** `Long.parseLong` of the declared result count. */
  function ParseResults(nresults: Option<string>): (r: Result<Option<int>, GenError>)
    ensures r.Success? <==> nresults.None? || ParseLong(nresults.value, 10).Some?
    ensures r.Success? ==> (r.value.Some? <==> nresults.Some?)
    ensures r.Success? && nresults.Some? ==> r.value.value == ParseLong(nresults.value, 10).value
  {
    match nresults
    case None => Success(None)
    case Some(text) =>
      match ParseLong(text, 10)
      case None => Failure(BadNumber(text))
      case Some(n) => Success(Some(n))
  }

  /** The count the generated check demands: as written,
      `nresults.intValue()` keeps the low 32 bits of the declared `long`;
      `fixed` keeps the declared count. */
  function CheckedResults(n: int, fixed: bool): (r: int)
    ensures fixed || INT_MIN <= n < -INT_MIN ==> r == n
    ensures !fixed ==> INT_MIN <= r < -INT_MIN && (n - r) % TWO_32 == 0
  {
    if fixed then n else Wrap32(n)
  }

  /** The state a macro's code is generated in, and the names and count its
      closing code needs. */
  datatype Frame = Frame(sym: string, stacksym: string, count: Option<int>)

  /** `macros.add(new Macro())`: start building a new macro. */
  function Open(rt: Routing, xs: seq<Instr>): (r: Routing)
    ensures Target(r) == xs && |r.builders| == |rt.builders| + 1
  {
    Routing(rt.builders + [xs], rt.live, rt.ops + |xs|)
  }

  /** Two routings with the same builders below the innermost one, the
      same innermost target, live stack and count are equal. */
  lemma RoutingExt(a: Routing, b: Routing)
    requires |a.builders| == |b.builders| > 0
    requires a.builders[..|a.builders| - 1] == b.builders[..|b.builders| - 1]
    requires Target(a) == Target(b) && a.live == b.live && a.ops == b.ops
    ensures a == b
  {
    var n := |a.builders|;
    assert a.builders == a.builders[..n - 1] + [Target(a)];
    assert b.builders == b.builders[..n - 1] + [Target(b)];
  }

  /** Routing into a macro just opened builds that macro. */
  lemma OpenRoutes(rt: Routing, xs: seq<Instr>)
    ensures RouteAll(Open(rt, []), xs) == Open(rt, xs)
  {
    var o := Open(rt, []);
    assert o.builders[..|o.builders| - 1] == rt.builders;
    assert Open(rt, xs).builders[..|rt.builders|] == rt.builders;
    RoutingExt(RouteAll(o, xs), Open(rt, xs));
  }

  /** The start of `genAnonMacro`, up to the context save. */
  function OpenMacro(g: Gen, arrow: bool): (r: (string, Gen))
    ensures r.0 == Symbol(g.varidx)
    ensures r.1.eval == g.eval && r.1.varidx == GenSymbol(g).1.varidx
    ensures g.eval ==> r.1.buf == g.buf && r.1.rt == Open(g.rt, if arrow then ContextSaveTokens(r.0) else [])
    ensures !g.eval ==> r.1.rt == Open(g.rt, [])
    ensures !g.eval ==> r.1.buf.curindent == g.buf.curindent + (if arrow then 2 * INDENT_STEP else INDENT_STEP)
  {
    var sym := Symbol(g.varidx);
    var g1 := GenSymbol(g.(macroidx := Wrap32(g.macroidx + 1))).1;
    var g2 := g1.(rt := Open(g1.rt, []));
    if g.eval then
      if arrow then
        OpenRoutes(g.rt, ContextSaveTokens(sym));
        (sym, g2.(rt := RouteAll(g2.rt, ContextSaveTokens(sym))))
      else (sym, g2)
    else (sym, OpenText(g2, sym, arrow))
  }

  /** The text-mode lines that open a macro: `<%`, then the context save
      when there is an arrow, each followed by one more indentation step. */
  function OpenText(g: Gen, sym: string, arrow: bool): (r: Gen)
    ensures r == g.(buf := r.buf)
    ensures r.buf.curindent == g.buf.curindent + (if arrow then 2 * INDENT_STEP else INDENT_STEP)
  {
    var g3 := Indent(g.(buf := EmitLine(g.buf, "<%")));
    if arrow then Indent(g3.(buf := EmitLine(g3.buf, SAVE + " '" + sym + "' " + STORE)))
    else g3
  }

  /** `genAnonMacro` from its start to the macro body: open the macro, bind
      the parameters, read the result count and, when there is one,
      snapshot the stack. */
  function MacroHead(g: Gen, m: MacroDef, fixed: bool): (r: Result<(Gen, Frame), GenError>)
    ensures r.Success? <==> ResultsOk(m.nresults)
    ensures r.Success? ==> r.value.0.eval == g.eval
    ensures r.Success? ==> r.value.1.sym == Symbol(g.varidx)
    ensures r.Success? ==> r.value.1.stacksym == Symbol(GenSymbol(g).1.varidx)
    ensures r.Success? ==> (r.value.1.count.Some? <==> m.nresults.Some?)
    ensures r.Success? && m.nresults.Some? ==>
      r.value.1.count.value == CheckedResults(ParseLong(m.nresults.value, 10).value, fixed)
    ensures r.Success? && g.eval ==> r.value.0.buf == g.buf.(curindent := r.value.0.buf.curindent)
    ensures r.Success? && g.eval ==> r.value.0.rt.ops >= g.rt.ops
    ensures r.Success? && g.eval ==> r.value.0.rt == Open(g.rt, Target(r.value.0.rt))
    ensures r.Success? && g.eval ==>
      IsPrefix(EntryCode(m.arrow, m.params, r.value.1.sym, r.value.1.stacksym, m.nresults.Some?), Target(r.value.0.rt))
    ensures r.Success? && !g.eval ==> r.value.0.rt == Open(g.rt, [])
    ensures r.Success? ==> r.value.0.buf.curindent == g.buf.curindent + HeadIndent(m.arrow, m.nresults.Some?, g.eval)
  {
    var (sym, g1) := OpenMacro(g, m.arrow);
    match ParseResults(m.nresults)
    case Failure(e) => Failure(e)
    case Success(nres) => HeadAfterParams(g, m, fixed, sym, g1, nres)
  }

  /** The rest of the head once the result count is read: refuse a
      negative count, otherwise snapshot the stack when there is one. */
  function HeadAfterParams(g: Gen, m: MacroDef, fixed: bool, sym: string, g1: Gen, nres: Option<int>): (r: Result<(Gen, Frame), GenError>)
    requires g1 == OpenMacro(g, m.arrow).1 && sym == Symbol(g.varidx)
    requires ParseResults(m.nresults) == Success(nres)
    ensures r.Success? <==> !(nres.Some? && nres.value < 0)
    ensures r.Success? ==> r.value.0.eval == g.eval
    ensures r.Success? ==> r.value.1.sym == sym
    ensures r.Success? ==> r.value.1.stacksym == Symbol(GenSymbol(g).1.varidx)
    ensures r.Success? ==> (r.value.1.count.Some? <==> nres.Some?)
    ensures r.Success? && nres.Some? ==> r.value.1.count.value == CheckedResults(nres.value, fixed)
    ensures r.Success? && g.eval ==> r.value.0.buf == g.buf.(curindent := r.value.0.buf.curindent)
    ensures r.Success? && g.eval ==> r.value.0.rt.ops >= g.rt.ops
    ensures r.Success? && g.eval ==> r.value.0.rt == Open(g.rt, Target(r.value.0.rt))
    ensures r.Success? && g.eval ==>
      IsPrefix(EntryCode(m.arrow, m.params, sym, r.value.1.stacksym, nres.Some?), Target(r.value.0.rt))
    ensures r.Success? && !g.eval ==> r.value.0.rt == Open(g.rt, [])
    ensures r.Success? ==> r.value.0.buf.curindent == g.buf.curindent + HeadIndent(m.arrow, nres.Some?, g.eval)
  {
    var g2 := GenParams(g1, m.params);
    var (stacksym, g3) := GenSymbol(g2);
    if nres.Some? && nres.value < 0 then Failure(NegativeResults)
    else if nres.Some? then
      var g4 := Indent(SaveStack(g3, stacksym));
      HeadPrefix(g, g1, g4, m, sym, SaveTokens(stacksym));
      Success((g4, Frame(sym, stacksym, Some(CheckedResults(nres.value, fixed)))))
    else
      HeadPrefix(g, g1, g3, m, sym, []);
      Success((g3, Frame(sym, stacksym, None)))
  }

  /** How far the macro body is indented past the macro itself. */
  function HeadIndent(arrow: bool, counted: bool, eval: bool): int {
    (if eval then 0 else INDENT_STEP + (if arrow then INDENT_STEP else 0))
      + (if counted then INDENT_STEP else 0)
  }

  lemma HeadPrefix(g: Gen, g1: Gen, h: Gen, m: MacroDef, sym: string, snapshot: seq<Instr>)
    requires g1 == OpenMacro(g, m.arrow).1 && sym == Symbol(g.varidx)
    requires g.eval ==> h.rt == RouteAll(GenParams(g1, m.params).rt, snapshot)
    ensures g.eval ==> h.rt == Open(g.rt, Target(h.rt))
    ensures g.eval ==> h.rt.ops >= g.rt.ops
    ensures g.eval ==> IsPrefix(EntryTokens(m.arrow, m.params, sym) + snapshot, Target(h.rt))
  {
    if g.eval {
      HeadPrefixEval(g, g1, h, m, sym, snapshot);
    }
  }

  lemma HeadPrefixEval(g: Gen, g1: Gen, h: Gen, m: MacroDef, sym: string, snapshot: seq<Instr>)
    requires g.eval && g1 == OpenMacro(g, m.arrow).1 && sym == Symbol(g.varidx)
    requires h.rt == RouteAll(GenParams(g1, m.params).rt, snapshot)
    ensures h.rt == Open(g.rt, Target(h.rt))
    ensures h.rt.ops >= g.rt.ops
    ensures IsPrefix(EntryTokens(m.arrow, m.params, sym) + snapshot, Target(h.rt))
  {
    var ctx := if m.arrow then ContextSaveTokens(sym) else [];
    var p := GenParams(g1, m.params).rt;
    assert g1.rt == Open(g.rt, ctx);
    assert Target(p) == ctx + ParamTokens(m.params);
    assert EntryTokens(m.arrow, m.params, sym) == ctx + ParamTokens(m.params);
    assert Target(h.rt) == ctx + ParamTokens(m.params) + snapshot;
    PrefixSelf(EntryTokens(m.arrow, m.params, sym) + snapshot, Target(h.rt));
    GrowsTransitive(g1.rt, p, h.rt);
    var n := |g.rt.builders|;
    assert h.rt.builders[..n] == g1.rt.builders[..n] == g.rt.builders;
    assert h.rt.ops == g.rt.ops + |Target(h.rt)|;
    RoutingExt(h.rt, Open(g.rt, Target(h.rt)));
  }

  lemma PrefixSelf<T>(a: seq<T>, b: seq<T>)
    requires a == b
    ensures IsPrefix(a, b)
  {
  }

  /** `macros.remove(macros.size() - 1)`. */
  function Pop(rt: Routing): (r: Routing)
    requires |rt.builders| > 0
    ensures |r.builders| == |rt.builders| - 1
  {
    rt.(builders := rt.builders[..|rt.builders| - 1])
  }

  /** The tokens that check a declared result count and bring back the
      caller's stack. */
  function CountTokens(fr: Frame): seq<Instr> {
    if fr.count.Some? then AssertTokens(fr.count.value) + RestoreTokens(fr.stacksym, true) else []
  }

  /** The result check after the body: assert the count, deindent and
      restore the stack; nothing when no count is declared. */
  function CloseResults(g: Gen, fr: Frame): (r: Gen)
    requires |g.rt.builders| > 0
    ensures r.eval == g.eval
    ensures r.buf.curindent == g.buf.curindent - (if fr.count.Some? then INDENT_STEP else 0)
    ensures g.eval ==> r.buf == g.buf.(curindent := r.buf.curindent) && r.rt == RouteAll(g.rt, CountTokens(fr))
    ensures !g.eval ==> r.rt == g.rt
  {
    if fr.count.Some? then
      var a := AssertDepth(g, fr.count.value);
      RouteAllAppend(g.rt, AssertTokens(fr.count.value), RestoreTokens(fr.stacksym, true));
      assert |Deindent(a).rt.builders| > 0;
      RestoreStack(Deindent(a), fr.stacksym)
    else g
  }

  /** The end of `genAnonMacro` in eval mode: restore the context, take the
      finished macro off the builder stack and hand it to the enclosing
      target. */
  function CloseEval(g: Gen, m: MacroDef, fr: Frame): (r: Gen)
    requires g.eval && |g.rt.builders| > 0
    ensures r.eval && r.buf == g.buf
    ensures Grows(Pop(g.rt), r.rt)
    ensures Target(r.rt) == Target(Pop(g.rt)) +
      [PushMacro(Target(g.rt) + (if m.arrow then ContextRestoreTokens(fr.sym) else []), "FLoWS " + m.loc)]
  {
    var rt := if m.arrow then RouteAll(g.rt, ContextRestoreTokens(fr.sym)) else g.rt;
    var n := |g.rt.builders|;
    assert rt.builders[..n - 1] == g.rt.builders[..n - 1] && rt.live == g.rt.live;
    assert Target(Pop(rt)) == Target(Pop(g.rt));
    assert Target(rt) == Target(g.rt) + (if m.arrow then ContextRestoreTokens(fr.sym) else []);
    g.(rt := Route(Pop(rt), PushMacro(Target(rt), "FLoWS " + m.loc)))
  }

  /** The end of `genAnonMacro` in text mode: the context restore line and
      `%>`. As written the builder opened for the macro stays in place;
      `fixed` removes it. */
  function CloseText(g: Gen, m: MacroDef, fr: Frame, fixed: bool): (r: Gen)
    requires !g.eval && |g.rt.builders| > 0
    ensures !r.eval
    ensures r.buf.curindent == g.buf.curindent - (if m.arrow then 2 * INDENT_STEP else INDENT_STEP)
    ensures r.rt == if fixed then Pop(g.rt) else g.rt
    ensures EndsWith(r.buf.sb, "%>\n")
  {
    var g1 := if m.arrow then RestoreContextLine(g, fr.sym) else g;
    g1.(buf := EndMacroLine(g1), rt := if fixed then Pop(g1.rt) else g1.rt)
  }

  /** One level out, the line restoring the context saved under `sym`. */
  function RestoreContextLine(g: Gen, sym: string): (r: Gen)
    ensures r == g.(buf := r.buf)
    ensures r.buf.curindent == g.buf.curindent - INDENT_STEP
  {
    var d := Deindent(g);
    d.(buf := EmitLine(d.buf, "'" + sym + "' " + LOAD + " " + RESTORE))
  }

  /** One level out, the line closing the macro. */
  function EndMacroLine(g: Gen): (r: Buffer)
    ensures r.curindent == g.buf.curindent - INDENT_STEP
    ensures EndsWith(r.sb, "%>\n")
  {
    var b := Deindent(g).buf;
    EmitLineEnds(b, "%>");
    EmitLine(b, "%>")
  }

  /** `genAnonMacro` after the macro body. */
  function CloseMacro(g: Gen, m: MacroDef, fr: Frame, fixed: bool): (r: Gen)
    requires |g.rt.builders| > 0
    ensures r.eval == g.eval
    ensures r.buf.curindent == g.buf.curindent - HeadIndent(m.arrow, fr.count.Some?, g.eval)
    ensures g.eval ==> r.buf == g.buf.(curindent := r.buf.curindent) && Grows(Pop(g.rt), r.rt)
    ensures g.eval ==> (Target(r.rt) == Target(Pop(g.rt)) +
      [PushMacro(Target(g.rt) + ExitTokens(m.arrow, fr.count, fr.sym, fr.stacksym), "FLoWS " + m.loc)])
    ensures !g.eval ==> r.rt == if fixed then Pop(g.rt) else g.rt
    ensures !g.eval ==> EndsWith(r.buf.sb, "%>\n")
  {
    var g1 := CloseResults(g, fr);
    if g.eval then
      var r := CloseEval(g1, m, fr);
      CloseSteps(g, g1, r, m, fr);
      r
    else CloseText(g1, m, fr, fixed)
  }

  lemma CloseSteps(g: Gen, g1: Gen, r: Gen, m: MacroDef, fr: Frame)
    requires g.eval && |g.rt.builders| > 0
    requires g1 == CloseResults(g, fr) && r == CloseEval(g1, m, fr)
    ensures Grows(Pop(g.rt), r.rt)
    ensures Target(r.rt) == Target(Pop(g.rt)) +
      [PushMacro(Target(g.rt) + ExitTokens(m.arrow, fr.count, fr.sym, fr.stacksym), "FLoWS " + m.loc)]
  {
    var n := |g.rt.builders|;
    assert g1.rt.builders[..n - 1] == g.rt.builders[..n - 1] && g1.rt.live == g.rt.live;
    assert Target(Pop(g1.rt)) == Target(Pop(g.rt));
    var ctx := if m.arrow then ContextRestoreTokens(fr.sym) else [];
    assert ExitTokens(m.arrow, fr.count, fr.sym, fr.stacksym) == CountTokens(fr) + ctx;
    assert Target(g1.rt) == Target(g.rt) + CountTokens(fr);
    assert Target(g1.rt) + ctx == Target(g.rt) + (CountTokens(fr) + ctx);
    assert Grows(Pop(g.rt), Pop(g1.rt));
    GrowsTransitive(Pop(g.rt), Pop(g1.rt), r.rt);
  }

  /** A finished macro pushed by eval-mode generation: it carries the
      macro's position in its name, begins with the entry code and ends
      with the exit code. */
  predicate MacroShaped(x: Instr, m: MacroDef, entry: seq<Instr>, exit: seq<Instr>) {
    && x.PushMacro?
    && x.name == "FLoWS " + m.loc
    && IsPrefix(entry, x.body)
    && |entry| + |exit| <= |x.body|
    && x.body[|x.body| - |exit|..] == exit
  }

  /** `genAnonMacro`. */
  function AnonMacro(g: Gen, m: MacroDef, fixed: bool): (r: Result<Gen, GenError>)
    ensures r.Success? <==> WellFormedDef(m)
    ensures r.Success? ==> Step(g, r.value, fixed)
    ensures r.Success? && g.eval ==> |Target(r.value.rt)| == |Target(g.rt)| + 1
    ensures r.Success? && g.eval ==>
      MacroShaped(Target(r.value.rt)[|Target(g.rt)|], m,
        EntryCode(m.arrow, m.params, Symbol(g.varidx), Symbol(GenSymbol(g).1.varidx), m.nresults.Some?),
        ExitTokens(m.arrow, ResultsCount(m.nresults, fixed), Symbol(g.varidx), Symbol(GenSymbol(g).1.varidx)))
    ensures r.Success? && !g.eval && !fixed ==> |r.value.rt.builders| > |g.rt.builders|
    ensures r.Success? && !g.eval ==> EndsWith(r.value.buf.sb, "%>\n")
    decreases m, 0
  {
    match MacroHead(g, m, fixed)
    case Failure(e) => Failure(e)
    case Success(hf) =>
      var (h, fr) := hf;
      match GenBlock(h, m.body, false, fixed)
      case Failure(e) => Failure(e)
      case Success(h2) =>
        var r := CloseMacro(h2, m, fr, fixed);
        HeadFactsHold(g, m, fixed);
        AnonMacroSteps(g, h, h2, r, m, fr, fixed);
        Success(r)
  }

  /** The count a macro's exit code checks, when it declares one. */
  function ResultsCount(nresults: Option<string>, fixed: bool): Option<int>
    requires ResultsOk(nresults)
  {
    if nresults.None? then None else Some(CheckedResults(ParseLong(nresults.value, 10).value, fixed))
  }

  /** What `MacroHead` promises about its result, as one fact. */
  predicate HeadFacts(g: Gen, m: MacroDef, fixed: bool, h: Gen, fr: Frame) {
    && ResultsOk(m.nresults)
    && h.eval == g.eval
    && fr.sym == Symbol(g.varidx)
    && fr.stacksym == Symbol(GenSymbol(g).1.varidx)
    && fr.count == ResultsCount(m.nresults, fixed)
    && h.buf.curindent == g.buf.curindent + HeadIndent(m.arrow, m.nresults.Some?, g.eval)
    && (g.eval ==> h.buf == g.buf.(curindent := h.buf.curindent))
    && (g.eval ==> h.rt == Open(g.rt, Target(h.rt)))
    && (g.eval ==> IsPrefix(EntryCode(m.arrow, m.params, fr.sym, fr.stacksym, m.nresults.Some?), Target(h.rt)))
    && (!g.eval ==> h.rt == Open(g.rt, []))
  }

  lemma HeadFactsHold(g: Gen, m: MacroDef, fixed: bool)
    ensures MacroHead(g, m, fixed).Success? ==>
      HeadFacts(g, m, fixed, MacroHead(g, m, fixed).value.0, MacroHead(g, m, fixed).value.1)
  {
    var r := MacroHead(g, m, fixed);
    if r.Success? {
      assert r.value.1.count == ResultsCount(m.nresults, fixed);
    }
  }

  lemma AnonMacroSteps(g: Gen, h: Gen, h2: Gen, r: Gen, m: MacroDef, fr: Frame, fixed: bool)
    requires HeadFacts(g, m, fixed, h, fr)
    requires Step(h, h2, fixed) && |h2.rt.builders| > 0
    requires r == CloseMacro(h2, m, fr, fixed)
    ensures Step(g, r, fixed)
    ensures g.eval ==> |Target(r.rt)| == |Target(g.rt)| + 1
    ensures g.eval ==>
      MacroShaped(Target(r.rt)[|Target(g.rt)|], m,
        EntryCode(m.arrow, m.params, Symbol(g.varidx), Symbol(GenSymbol(g).1.varidx), m.nresults.Some?),
        ExitTokens(m.arrow, ResultsCount(m.nresults, fixed), Symbol(g.varidx), Symbol(GenSymbol(g).1.varidx)))
    ensures !g.eval && !fixed ==> |r.rt.builders| > |g.rt.builders|
  {
    assert r.buf.curindent == g.buf.curindent;
    if g.eval {
      assert r.buf == g.buf;
      EvalMacroSteps(g, h, h2, r, m, fr, fixed);
    } else {
      TextMacroSteps(g, h, h2, r, m, fr, fixed);
    }
  }

  lemma EvalMacroSteps(g: Gen, h: Gen, h2: Gen, r: Gen, m: MacroDef, fr: Frame, fixed: bool)
    requires g.eval && h.eval && h.rt == Open(g.rt, Target(h.rt))
    requires IsPrefix(EntryCode(m.arrow, m.params, fr.sym, fr.stacksym, m.nresults.Some?), Target(h.rt))
    requires Step(h, h2, fixed) && |h2.rt.builders| > 0
    requires r.eval && Grows(Pop(h2.rt), r.rt)
    requires Target(r.rt) == Target(Pop(h2.rt)) +
      [PushMacro(Target(h2.rt) + ExitTokens(m.arrow, fr.count, fr.sym, fr.stacksym), "FLoWS " + m.loc)]
    ensures Grows(g.rt, r.rt)
    ensures |Target(r.rt)| == |Target(g.rt)| + 1
    ensures MacroShaped(Target(r.rt)[|Target(g.rt)|], m,
      EntryCode(m.arrow, m.params, fr.sym, fr.stacksym, m.nresults.Some?), ExitTokens(m.arrow, fr.count, fr.sym, fr.stacksym))
  {
    var n := |g.rt.builders|;
    var p := Pop(h2.rt);
    assert h2.rt.builders[..n] == h.rt.builders[..n];
    assert h.rt.builders[..n] == g.rt.builders;
    assert p.builders == g.rt.builders && p.live == g.rt.live;
    GrowsTransitive(g.rt, p, r.rt);
    var entry := EntryCode(m.arrow, m.params, fr.sym, fr.stacksym, m.nresults.Some?);
    var body := Target(h2.rt) + ExitTokens(m.arrow, fr.count, fr.sym, fr.stacksym);
    assert Target(r.rt)[|Target(g.rt)|] == PushMacro(body, "FLoWS " + m.loc);
    assert body[..|entry|] == Target(h2.rt)[..|entry|] == Target(h.rt)[..|entry|];
  }

  lemma TextMacroSteps(g: Gen, h: Gen, h2: Gen, r: Gen, m: MacroDef, fr: Frame, fixed: bool)
    requires !g.eval && !h.eval && h.rt == Open(g.rt, [])
    requires Step(h, h2, fixed) && |h2.rt.builders| > 0
    requires r.rt == if fixed then Pop(h2.rt) else h2.rt
    ensures r.rt.live == g.rt.live && r.rt.ops == g.rt.ops && IsPrefix(g.rt.builders, r.rt.builders)
    ensures fixed ==> r.rt == g.rt
    ensures !fixed ==> |r.rt.builders| > |g.rt.builders|
  {
    var n := |g.rt.builders|;
    assert h2.rt.builders[..n] == h.rt.builders[..n];
    assert h.rt.builders[..n] == g.rt.builders;
    if fixed {
      assert r.rt.builders == g.rt.builders;
    } else {
      assert r.rt.builders[..n] == g.rt.builders;
    }
  }

  /** `genBlockStatements`: generate the statements in order, refusing any
      statement that follows a return. `returned` says whether the
      statement before `stmts` was a return. */
  function GenBlock(g: Gen, stmts: seq<Stmt>, returned: bool, fixed: bool): (r: Result<Gen, GenError>)
    ensures r.Success? <==> WellFormedBlock(stmts) && !(returned && |stmts| > 0)
    ensures returned && |stmts| > 0 ==> r == Failure(ExtraneousStatement)
    ensures r.Success? ==> Step(g, r.value, fixed)
    decreases stmts, 2
  {
    if |stmts| == 0 then
      PerformSteps(g, [], fixed);
      assert g.rt.builders[..|g.rt.builders|] == g.rt.builders;
      Success(g)
    else if returned then Failure(ExtraneousStatement)
    else
      WellFormedBlockCons(stmts);
      match GenStmt(g, stmts[0], fixed)
      case Failure(e) => Failure(e)
      case Success(g1) =>
        var r := GenBlock(g1, stmts[1..], stmts[0].isReturn, fixed);
        if r.Success? then
          StepTransitive(g, g1, r.value, fixed);
          r
        else r
  }

  /** One block statement. */
  function GenStmt(g: Gen, st: Stmt, fixed: bool): (r: Result<Gen, GenError>)
    ensures r.Success? <==> WellFormedStmt(st)
    ensures r.Success? ==> Step(g, r.value, fixed)
    decreases st, 1
  {
    match st
    case Plain(code, _) =>
      PerformSteps(g, code, fixed);
      Success(Perform(g, code))
    case Lambda(def, _) => AnonMacro(g, def, fixed)
  }
  /** Only the top-level restore forgets the snapshot variable. */
  lemma ForgetsOnlyAtTopLevel(sym: string, inMacro: bool)
    ensures Op(FORGET) in RestoreTokens(sym, inMacro) <==> !inMacro
  {
    assert |LOAD| != |FORGET| && |SHOW| != |FORGET|;
    if !inMacro {
      assert RestoreTokens(sym, inMacro)[4] == Op(FORGET);
    }
  }

  /** As written, a lambda generated in text mode leaves its builder pushed,
      so a restore written after it at top level takes the in-macro form
      and never forgets the snapshot variable. */
  lemma TextMacroLeavesBuilder(g: Gen, m: MacroDef, sym: string)
    requires !g.eval && |g.rt.builders| == 0 && WellFormedDef(m)
    ensures AnonMacro(g, m, false).Success?
    ensures RestoreStack(AnonMacro(g, m, false).value, sym)
         == Perform(AnonMacro(g, m, false).value, RestoreTokens(sym, true))
  {
    var r := AnonMacro(g, m, false);
    assert |r.value.rt.builders| > 0;
    var x := RestoreStack(r.value, sym);
  }

  /** With the builder popped, the same restore keeps its top-level form
      and forgets the snapshot variable. */
  lemma TextMacroKeepsTopLevel(g: Gen, m: MacroDef, sym: string)
    requires !g.eval && |g.rt.builders| == 0 && WellFormedDef(m)
    ensures AnonMacro(g, m, true).Success?
    ensures RestoreStack(AnonMacro(g, m, true).value, sym)
         == Perform(AnonMacro(g, m, true).value, RestoreTokens(sym, false))
  {
    var r := AnonMacro(g, m, true);
    assert r.value.rt == g.rt;
    var x := RestoreStack(r.value, sym);
  }

  /** As written, a macro declaring 4294967296 results has its exit code
      check for none. */
  lemma DeclaredCountTruncated(text: string)
    requires text == IntToString(TWO_32)
    ensures ResultsOk(Some(text))
    ensures ResultsCount(Some(text), false) == Some(0)
  {
    ParseIntToString(TWO_32);
    Wrap32Unique(TWO_32, 0);
  }

  /** Keeping the declared `long`, the exit code checks exactly the count
      the macro declares. */
  lemma DeclaredCountKept(text: string)
    requires ResultsOk(Some(text))
    ensures ResultsCount(Some(text), true) == ParseLong(text, 10)
  {
  }
}

=== FILE: fleet.dfy ===
/** `FLoWSWarpFleetResolver`: FLoWS sources fetched from the WarpFleet
    repositories listed on the calling stack, tried in order, compiled,
    and cached under their URL. A repository that could not serve a
    source gets a negative entry (fingerprint -1) so it is not asked again
    until that entry expires.

    As in the repository resolver, `fixed` selects between the code as
    written, whose `finally` clause pops the in-flight list even when the
    cycle check fired before the push, and the corrected code. */
module Fleet {
  import opened Results
  import opened Numbers
  import opened Text
  import opened Units
  import opened Cache

  /** The fixed parts of the report texts. */
  const CACHED_TEXT := ", result cached for "
  const NOT_FOUND_TEXT := "' was not found in any of the WarpFleet repositories" + CACHED_TEXT

  /** The fingerprint marking a negative entry. */
  const FINGERPRINT_UNKNOWN: int := -1

  /** The file extension, the default time to live, the bounds a requested
      time to live is clamped to, the time to live of failure reports and
      of not-found reports, and the platform's time unit. */
  datatype Config = Config(ext: string, ttl: Int64, minTtl: Int64, maxTtl: Int64, failedTtl: Int64, unknownTtl: Int64, units: TimeUnit)

  /** The configuration used when none is given. */
  const DEFAULTS: Config := Config(".flows", 600000, 60000, 24 * 3600 * 1000, 10000, 0, Micros)

  /** The time units a Warp 10 platform may be configured with. */
  datatype TimeUnit = Millis | Micros | Nanos

  /** How many platform time units make one millisecond. */
  function UnitsPerMs(u: TimeUnit): int {
    match u
    case Millis => 1
    case Micros => 1000
    case Nanos => 1000000
  }

  /** A millisecond timestamp in platform time units, before the 64-bit
      wrap of the product. */
  function ToUnits(ms: int, u: TimeUnit): (r: int)
    ensures r == ms * UnitsPerMs(u)
  {
    match u
    case Millis => ms
    case Micros => ms * 1000
    case Nanos => ms * 1000000
  }

  /** Fetching a URL: its content, or the two failures the resolver
      recovers from (a malformed URL, an I/O error). */
  datatype Fetch = Fetched(data: string) | Malformed | IoFailed

  /** What one lookup sees: whether the calling stack disables WarpFleet,
      its repositories, its `ATTRIBUTE_MACRO_TTL`, what fetching a URL
      gives, what running a source gives, and the clock. */
  datatype Env = Env(disabled: bool, repos: seq<string>, callerTtl: Option<Attr>, fetch: string -> Fetch, run: string -> Execution, now: Int64)

  /** The cache of units by URL, and the names being loaded on this
      thread. */
  datatype State = State(cache: Cache<Unit>, inflight: seq<string>)

  /** The URL of macro `name` in repository `repo`, without extension. */
  function Key(repo: string, name: string): (k: string)
    ensures StartsWith(k, repo) && EndsWith(k, "/" + name)
    ensures |k| == |repo| + |name| + (if EndsWith(repo, "/") then 0 else 1)
  {
    var k := repo + (if EndsWith(repo, "/") then "" else "/") + name;
    assert k[..|repo|] == repo;
    assert EndsWith(repo, "/") ==> k[|k| - |name| - 1..] == repo[|repo| - 1..] + name;
    assert !EndsWith(repo, "/") ==> k[|k| - |name| - 1..] == "/" + name;
    k
  }

  /** `if macrottl < minttl … if macrottl > maxttl …`, in that order. */
  function Clamp(t: Int64, lo: Int64, hi: Int64): (r: Int64)
    ensures lo <= hi ==> lo <= r <= hi
    ensures lo <= t <= hi ==> r == t
    ensures lo > hi ==> r == hi
    ensures t < lo <= hi ==> r == lo
    ensures lo <= hi < t ==> r == hi
  {
    var raised := if t < lo then lo else t;
    if raised > hi then hi else raised
  }

  /** The time to live a fetched unit gets: the default, or the calling
      stack's request clamped; `None` when the attribute is not a `Long`
      (the cast throws). */
  function CallerTtl(c: Config, attr: Option<Attr>): Option<Int64> {
    match attr
    case None => Some(c.ttl)
    case Some(LongAttr(t)) => Some(Clamp(t, c.minTtl, c.maxTtl))
    case Some(OtherAttr) => None
  }

  /** A report that fails when run: the text, then code that appends how
      long the report stays cached (`expiry - NOW`, as a human duration),
      then `MSGFAIL`. It expires `ttl` after `now`. */
  function Report(c: Config, e: Env, text: string, ttl: Int64): (u: Unit)
    ensures IsFailUnit(u) && !u.secure && u.fingerprint == 0 && |u.body| == 7
    ensures u.body[0] == Str(text) && u.expiry == Wrap64(e.now + ttl)
    ensures u.body[1] == Num(Wrap64(ToUnits(u.expiry, c.units)))
    ensures u.body[2..] == [Fn("NOW"), Fn("-"), Fn("HUMANDURATION"), Fn("+"), Fn(MSGFAIL)]
  {
    var expiryTs := Wrap64(e.now + ttl);
    NewUnit([Str(text), Num(Wrap64(ToUnits(expiryTs, c.units))), Fn("NOW"), Fn("-"), Fn("HUMANDURATION"), Fn("+"), Fn(MSGFAIL)])
      .(expiry := expiryTs)
  }

  /** The report of a `WarpScriptException` raised while loading. */
  function ErrorReport(c: Config, e: Env, name: string, message: string): (u: Unit)
    ensures IsFailUnit(u) && u.fingerprint != FINGERPRINT_UNKNOWN
    ensures u.expiry == Wrap64(e.now + c.failedTtl)
  {
    Report(c, e, "[" + IntToString(e.now) + ERROR_TEXT + name + "': " + message + CACHED_TEXT, c.failedTtl)
  }

  /** The report that no repository has the macro. */
  function NotFoundReport(c: Config, e: Env, name: string): (u: Unit)
    ensures IsFailUnit(u) && u.fingerprint != FINGERPRINT_UNKNOWN
    ensures u.expiry == Wrap64(e.now + c.unknownTtl)
  {
    Report(c, e, "[" + IntToString(e.now) + "] Macro '" + name + NOT_FOUND_TEXT, c.unknownTtl)
  }

  /** The empty unit recording that a repository could not serve a URL. */
  function NegativeEntry(c: Config, e: Env): (u: Unit)
    ensures u.body == [] && u.fingerprint == FINGERPRINT_UNKNOWN && u.expiry == Wrap64(e.now + c.failedTtl)
  {
    NewUnit([]).(fingerprint := FINGERPRINT_UNKNOWN, expiry := Wrap64(e.now + c.failedTtl))
  }

  /** The cache lookup of one URL: an expired entry is removed and counts
      as absent. */
  function Lookup(cache: Cache<Unit>, url: string, now: int): (r: (Option<Unit>, Cache<Unit>))
    requires CacheOk(cache)
    ensures CacheOk(r.1) && r.1.max == cache.max
    ensures r.0.Some? <==> Get(cache, url).Some? && !Expired(Get(cache, url).value, now)
    ensures r.0.Some? ==> r.0 == Get(cache, url) && r.1 == cache
    ensures r.0.None? ==> Get(r.1, url).None?
    ensures forall k :: k != url ==> Get(r.1, k) == Get(cache, k)
  {
    var cached := Get(cache, url);
    if cached.Some? && Expired(cached.value, now) then
      var smaller := Remove(cache, url);
      forall k ensures Get(smaller, k) == (if k == url then None else Get(cache, k)) {
        RemoveGet(cache, url, k);
      }
      (None, smaller)
    else (cached, cache)
  }

  /** Where the loop stands: the unit in hand and the URL it was looked up
      under, both `null` before the first repository. */
  datatype Scan = Scan(macro: Option<Unit>, url: Option<string>, cache: Cache<Unit>)

  /** How the loop over the repositories ends: a unit returned from inside
      it, a `WarpScriptException` (caught after the loop), an exception the
      resolver does not catch, or the end of the list. */
  datatype ScanEnd =
    | Found(u: Unit, url: string, cache: Cache<Unit>)
    | Raised(message: string, url: string, cache: Cache<Unit>)
    | Escaped(cache: Cache<Unit>)
    | Exhausted(last: Scan)

  function EndCache(r: ScanEnd): Cache<Unit> {
    match r
    case Found(_, _, cache) => cache
    case Raised(_, _, cache) => cache
    case Escaped(cache) => cache
    case Exhausted(s) => s.cache
  }

  /** The repository URLs of `name`. */
  predicate IsKeyOf(repos: seq<string>, name: string, url: string) {
    exists i :: 0 <= i < |repos| && Key(repos[i], name) == url
  }

  /** The loop over the repositories. A live cached unit is returned; a
      live negative entry moves on to the next repository; otherwise the
      source is fetched: a failed fetch leaves a negative entry and moves
      on, a source that runs to a single macro is cached and returned with
      its time to live, and a run that fails ends the loop. The loop only
      ever returns units that are not negative entries, and a unit it
      loaded stays cached under its URL. */
  function ScanRepos(c: Config, e: Env, name: string, repos: seq<string>, s: Scan): (r: ScanEnd)
    requires CacheOk(s.cache)
    ensures CacheOk(EndCache(r)) && EndCache(r).max == s.cache.max
    ensures r.Found? ==> r.u.fingerprint != FINGERPRINT_UNKNOWN && IsKeyOf(repos, name, r.url)
    ensures r.Found? && s.cache.max > 0 ==> Get(r.cache, r.url) == Some(r.u)
    ensures r.Raised? ==> IsKeyOf(repos, name, r.url)
    ensures r.Exhausted? && |repos| > 0 ==> r.last.macro.Some? && r.last.macro.value.fingerprint == FINGERPRINT_UNKNOWN
    ensures r.Exhausted? && |repos| > 0 ==> r.last.url == Some(Key(repos[|repos| - 1], name))
    ensures r.Exhausted? && |repos| == 0 ==> r.last == s
    decreases |repos|, 1
  {
    if |repos| == 0 then Exhausted(s)
    else
      var url := Key(repos[0], name);
      var (cached, cache1) := Lookup(s.cache, url, e.now);
      if cached.Some? && cached.value.fingerprint != FINGERPRINT_UNKNOWN then Found(cached.value, url, cache1)
      else if cached.Some? then Next(c, e, name, repos, Scan(cached, Some(url), cache1))
      else match e.fetch(url + c.ext)
        case Fetched(data) => LoadSource(c, e, name, url, data, cache1)
        case _ =>
          var u := NegativeEntry(c, e);
          PutValid(cache1, url, u);
          Next(c, e, name, repos, Scan(Some(u), Some(url), Put(cache1, url, u)))
  }

  /** Running a fetched source: a run that fails, or leaves anything but
      a single macro, raises; a macro is cached under its URL and returned
      with the calling stack's time to live. */
  function LoadSource(c: Config, e: Env, name: string, url: string, data: string, cache: Cache<Unit>): (r: ScanEnd)
    requires CacheOk(cache)
    ensures !r.Exhausted? && CacheOk(EndCache(r)) && EndCache(r).max == cache.max
    ensures r.Found? ==> r.url == url && r.u.fingerprint != FINGERPRINT_UNKNOWN
    ensures r.Found? && cache.max > 0 ==> Get(r.cache, r.url) == Some(r.u)
    ensures r.Raised? ==> r.url == url
    ensures var ex := e.run(Source(data)); ex.Threw? ==> r == Raised(ex.message, url, cache)
    ensures var ex := e.run(Source(data)); ex.Ran? && |ex.stack| != 1 ==> r == Raised(DepthMessage(|ex.stack|), url, cache)
    ensures var ex := e.run(Source(data)); ex.Ran? && |ex.stack| == 1 && !ex.stack[0].MacroValue? ==> r == Raised(NOT_A_MACRO, url, cache)
    ensures var ex := e.run(Source(data)); ex.Ran? && SingleMacro(ex.stack) && e.callerTtl == Some(OtherAttr) ==> r == Escaped(cache)
  {
    match e.run(Source(data))
    case Threw(m) => Raised(m, url, cache)
    case Ran(stack, _) =>
      if |stack| != 1 then Raised(DepthMessage(|stack|), url, cache)
      else if !stack[0].MacroValue? then Raised(NOT_A_MACRO, url, cache)
      else match CallerTtl(c, e.callerTtl)
        case None => Escaped(cache)
        case Some(t) =>
          var u := NewUnit(stack[0].body).(name := name, expiry := Wrap64(e.now + t));
          PutValid(cache, url, u);
          PutGet(cache, url, u, url);
          Found(u, url, Put(cache, url, u))
  }

  /** Loading a source does not look at the fetch function. */
  lemma LoadIgnoresFetch(c: Config, e: Env, f: string -> Fetch, name: string, url: string, data: string, cache: Cache<Unit>)
    requires CacheOk(cache)
    ensures LoadSource(c, e, name, url, data, cache) == LoadSource(c, e.(fetch := f), name, url, data, cache)
  {
  }

  /** A live unit cached for the first repository, other than a negative
      entry, is returned at once: nothing is fetched and the cache stays as
      it is. */
  lemma ScanHit(c: Config, e: Env, name: string, repos: seq<string>, s: Scan)
    requires CacheOk(s.cache) && |repos| > 0
    requires var cached := Get(s.cache, Key(repos[0], name));
      cached.Some? && !Expired(cached.value, e.now) && cached.value.fingerprint != FINGERPRINT_UNKNOWN
    ensures ScanRepos(c, e, name, repos, s) == Found(Get(s.cache, Key(repos[0], name)).value, Key(repos[0], name), s.cache)
  {
  }

  /** With no live unit cached for the first repository, its URL is
      fetched and a fetched source is loaded. */
  lemma ScanFetches(c: Config, e: Env, name: string, repos: seq<string>, s: Scan)
    requires CacheOk(s.cache) && |repos| > 0
    requires var cached := Get(s.cache, Key(repos[0], name)); cached.None? || Expired(cached.value, e.now)
    requires e.fetch(Key(repos[0], name) + c.ext).Fetched?
    ensures var url := Key(repos[0], name);
      ScanRepos(c, e, name, repos, s) == LoadSource(c, e, name, url, e.fetch(url + c.ext).data, Lookup(s.cache, url, e.now).1)
  {
    var url := Key(repos[0], name);
    var (cached, cache1) := Lookup(s.cache, url, e.now);
    assert cached.None?;
  }

  /** A fetch that fails puts a negative entry under the URL, and the loop
      goes on with the next repository. */
  lemma ScanFetchFailed(c: Config, e: Env, name: string, repos: seq<string>, s: Scan)
    requires CacheOk(s.cache) && |repos| > 0
    requires var cached := Get(s.cache, Key(repos[0], name)); cached.None? || Expired(cached.value, e.now)
    requires !e.fetch(Key(repos[0], name) + c.ext).Fetched?
    ensures var url := Key(repos[0], name);
      var cache1 := Put(Lookup(s.cache, url, e.now).1, url, NegativeEntry(c, e));
      && CacheOk(cache1)
      && ScanRepos(c, e, name, repos, s) == ScanRepos(c, e, name, repos[1..], Scan(Some(NegativeEntry(c, e)), Some(url), cache1))
  {
    var url := Key(repos[0], name);
    var (cached, cache1) := Lookup(s.cache, url, e.now);
    assert cached.None?;
    PutValid(cache1, url, NegativeEntry(c, e));
  }

  /** Moves on to the repositories after the first. */
  function Next(c: Config, e: Env, name: string, repos: seq<string>, s: Scan): (r: ScanEnd)
    requires |repos| > 0 && CacheOk(s.cache)
    requires s.macro.Some? && s.macro.value.fingerprint == FINGERPRINT_UNKNOWN && s.url == Some(Key(repos[0], name))
    ensures r == ScanRepos(c, e, name, repos[1..], s)
    ensures CacheOk(EndCache(r)) && EndCache(r).max == s.cache.max
    ensures r.Found? ==> IsKeyOf(repos, name, r.url)
    ensures r.Raised? ==> IsKeyOf(repos, name, r.url)
    ensures r.Exhausted? ==> r.last.macro.Some? && r.last.macro.value.fingerprint == FINGERPRINT_UNKNOWN
    ensures r.Exhausted? ==> r.last.url == Some(Key(repos[|repos| - 1], name))
    decreases |repos|, 0
  {
    KeyOfTail(repos, name);
    var rest := repos[1..];
    assert |rest| > 0 ==> rest[|rest| - 1] == repos[|repos| - 1];
    ScanRepos(c, e, name, rest, s)
  }

  lemma KeyOfTail(repos: seq<string>, name: string)
    requires |repos| > 0
    ensures forall url :: IsKeyOf(repos[1..], name, url) ==> IsKeyOf(repos, name, url)
  {
    forall url | IsKeyOf(repos[1..], name, url) ensures IsKeyOf(repos, name, url) {
      var i :| 0 <= i < |repos| - 1 && Key(repos[1..][i], name) == url;
      assert repos[i + 1] == repos[1..][i];
    }
  }

  /** The lookup is for a name already being loaded on this thread. */
  predicate Cycle(e: Env, st: State, name: string) {
    !e.disabled && !TraversalShape(name) && name in st.inflight
  }

  /** `findMacro`. Disabled stacks and traversal shapes get `null`; a
      cycle gets an error report that is returned but not cached; a
      lookup with no repositories at all gets a not-found report (also not
      cached) when not-found reports have a positive time to live. Neither
      a negative entry nor a crash ever reaches the caller as a unit, and
      any other unit returned is cached under one of the macro's URLs. */
  function FindMacro(c: Config, e: Env, st: State, name: string, fixed: bool): (r: (Outcome, State))
    requires CacheOk(st.cache)
    ensures CacheOk(r.1.cache) && r.1.cache.max == st.cache.max
    ensures e.disabled || TraversalShape(name) ==> r == (Declined, st)
    ensures r.0.Loaded? ==> r.0.u.fingerprint != FINGERPRINT_UNKNOWN
    ensures !r.0.Overflow?
    ensures Cycle(e, st, name) ==>
      && r.0 == Loaded(ErrorReport(c, e, name, CycleMessage(st.inflight)))
      && r.1.cache == st.cache
      && r.1.inflight == (if fixed then st.inflight else st.inflight[..|st.inflight| - 1])
    ensures !Cycle(e, st, name) ==> r.1.inflight == st.inflight
  {
    if e.disabled || TraversalShape(name) then (Declined, st)
    else if name in st.inflight then OnCycle(c, e, st, name, fixed)
    else
      // The name is pushed here and popped again in `finally`.
      var (o, cache) := Resolve(c, e, st.cache, name);
      (o, State(cache, st.inflight))
  }

  /** A lookup that gets past the checks is the loop and what follows it,
      with the in-flight list as the caller had it: with no repositories at
      all it is answered by the not-found report (not cached) when
      not-found reports have a positive time to live, and otherwise
      anything it returns is cached under one of the macro's URLs. */
  lemma LookupAnswers(c: Config, e: Env, st: State, name: string, fixed: bool)
    requires CacheOk(st.cache) && !e.disabled && !TraversalShape(name) && name !in st.inflight
    ensures var r := FindMacro(c, e, st, name, fixed);
      && (|e.repos| == 0 ==> r == (if c.unknownTtl > 0 then Loaded(NotFoundReport(c, e, name)) else Declined, st))
      && (r.0.Loaded? && |e.repos| > 0 && st.cache.max > 0 ==> CachedAtKey(r.1.cache, e.repos, name, r.0.u))
      && r == (Resolve(c, e, st.cache, name).0, State(Resolve(c, e, st.cache, name).1, st.inflight))
  {
    var (o, cache) := Resolve(c, e, st.cache, name);
    assert FindMacro(c, e, st, name, fixed) == (o, State(cache, st.inflight));
  }

  /** A name already in flight: an error report, not cached since
      `macroURL` is still `null`; as written the `finally` clause pops the
      caller's entry. */
  function OnCycle(c: Config, e: Env, st: State, name: string, fixed: bool): (r: (Outcome, State))
    requires name in st.inflight
    ensures r.0 == Loaded(ErrorReport(c, e, name, CycleMessage(st.inflight)))
    ensures r.1.cache == st.cache
    ensures r.1.inflight == (if fixed then st.inflight else st.inflight[..|st.inflight| - 1])
  {
    var u := ErrorReport(c, e, name, CycleMessage(st.inflight));
    (Loaded(u), st.(inflight := if fixed then st.inflight else st.inflight[..|st.inflight| - 1]))
  }

  /** The loop over the repositories and what follows it, once the name is
      in flight: a unit found is returned, a `WarpScriptException` becomes
      an error report cached under the URL being tried, and the end of the
      list goes to `AfterLoop`. */
  function Resolve(c: Config, e: Env, cache: Cache<Unit>, name: string): (r: (Outcome, Cache<Unit>))
    requires CacheOk(cache)
    ensures CacheOk(r.1) && r.1.max == cache.max
    ensures r.0.Loaded? ==> r.0.u.fingerprint != FINGERPRINT_UNKNOWN
    ensures !r.0.Overflow?
    ensures |e.repos| == 0 ==> r == (if c.unknownTtl > 0 then Loaded(NotFoundReport(c, e, name)) else Declined, cache)
    ensures r.0.Loaded? && |e.repos| > 0 && cache.max > 0 ==> CachedAtKey(r.1, e.repos, name, r.0.u)
  {
    // With no repository the loop body never runs.
    if |e.repos| == 0 then AfterLoop(c, e, name, Scan(None, None, cache))
    else match ScanRepos(c, e, name, e.repos, Scan(None, None, cache))
    case Found(u, url, cache1) =>
      if cache.max > 0 then KeyCached(cache1, e.repos, name, url, u); (Loaded(u), cache1)
      else (Loaded(u), cache1)
    case Escaped(cache1) =>
      (Crashed, cache1)
    case Raised(m, url, cache1) =>
      var cache2 := CacheReport(cache1, url, ErrorReport(c, e, name, m));
      if cache.max > 0 then
        KeyCached(cache2, e.repos, name, url, ErrorReport(c, e, name, m));
        (Loaded(ErrorReport(c, e, name, m)), cache2)
      else (Loaded(ErrorReport(c, e, name, m)), cache2)
    case Exhausted(last) =>
      AfterLoop(c, e, name, last)
  }

  /** The `put` of an error report under the URL being tried. */
  function CacheReport(cache: Cache<Unit>, url: string, u: Unit): (r: Cache<Unit>)
    requires CacheOk(cache)
    ensures CacheOk(r) && r.max == cache.max
    ensures cache.max > 0 ==> Get(r, url) == Some(u)
  {
    PutValid(cache, url, u);
    PutGet(cache, url, u, url);
    Put(cache, url, u)
  }

  /** What the loop's end becomes: a unit found is returned as cached; a
      `WarpScriptException` becomes the error report, cached under the URL
      being tried; the `ClassCastException` of a caller's time to live
      that is not a `Long` escapes; running past the last repository goes
      to `AfterLoop`. */
  lemma ResolveOutcome(c: Config, e: Env, cache: Cache<Unit>, name: string)
    requires CacheOk(cache) && |e.repos| > 0
    ensures var end := ScanRepos(c, e, name, e.repos, Scan(None, None, cache));
      var r := Resolve(c, e, cache, name);
      && (end.Found? ==> r == (Loaded(end.u), end.cache))
      && (end.Raised? ==> r.0 == Loaded(ErrorReport(c, e, name, end.message)))
      && (end.Raised? && cache.max > 0 ==> Get(r.1, end.url) == Some(ErrorReport(c, e, name, end.message)))
      && (end.Escaped? ==> r == (Crashed, end.cache))
      && (end.Exhausted? ==> r == AfterLoop(c, e, name, end.last))
  {
  }

  /** After the loop: with no unit in hand (no repository at all) a
      not-found report stands in when its time to live is positive; the
      unit in hand is cached under the last URL tried, and returned unless
      it is a negative entry. */
  function AfterLoop(c: Config, e: Env, name: string, last: Scan): (r: (Outcome, Cache<Unit>))
    requires CacheOk(last.cache)
    requires last.macro.Some? ==> last.macro.value.fingerprint == FINGERPRINT_UNKNOWN && last.url.Some?
    ensures CacheOk(r.1) && r.1.max == last.cache.max
    ensures r.0.Declined? || (r.0.Loaded? && r.0.u.fingerprint != FINGERPRINT_UNKNOWN)
    ensures last.macro.Some? ==> r.0 == Declined
    ensures last.macro.Some? && r.1.max > 0 ==> Get(r.1, last.url.value) == last.macro
    ensures last.macro.None? && last.url.None? ==> r == (if c.unknownTtl > 0 then Loaded(NotFoundReport(c, e, name)) else Declined, last.cache)
  {
    var found := if last.macro.None? && c.unknownTtl > 0 then Some(NotFoundReport(c, e, name)) else last.macro;
    if found.Some? && last.url.Some? then
      var cache := CacheReport(last.cache, last.url.value, found.value);
      if found.value.fingerprint == FINGERPRINT_UNKNOWN then (Declined, cache) else (Loaded(found.value), cache)
    else if found.None? || found.value.fingerprint == FINGERPRINT_UNKNOWN then (Declined, last.cache)
    else (Loaded(found.value), last.cache)
  }

  /** `u` is cached under one of the URLs of `name`. */
  predicate CachedAtKey(cache: Cache<Unit>, repos: seq<string>, name: string, u: Unit) {
    exists i :: 0 <= i < |repos| && Get(cache, Key(repos[i], name)) == Some(u)
  }

  lemma KeyCached(cache: Cache<Unit>, repos: seq<string>, name: string, url: string, u: Unit)
    requires IsKeyOf(repos, name, url) && Get(cache, url) == Some(u)
    ensures CachedAtKey(cache, repos, name, u)
  {
    var i :| 0 <= i < |repos| && Key(repos[i], name) == url;
  }

  lemma ExtensionInjective(a: string, b: string, ext: string)
    requires a + ext == b + ext
    ensures a == b
  {
    assert a == (a + ext)[..|a|];
    assert b == (b + ext)[..|b|];
  }

  /** What fetching a URL other than `x` gives does not change a loop that
      never asks for `x`. */
  lemma {:induction false} UnaskedFetchIrrelevant(c: Config, e: Env, f: string -> Fetch, x: string, name: string, repos: seq<string>, s: Scan)
    requires CacheOk(s.cache)
    requires forall y :: y != x ==> f(y) == e.fetch(y)
    requires forall i :: 0 <= i < |repos| ==> Key(repos[i], name) + c.ext != x
    ensures ScanRepos(c, e, name, repos, s) == ScanRepos(c, e.(fetch := f), name, repos, s)
    decreases |repos|
  {
    var e' := e.(fetch := f);
    if |repos| > 0 {
      var url := Key(repos[0], name);
      assert url + c.ext != x;
      var (cached, cache1) := Lookup(s.cache, url, e.now);
      if cached.Some? && cached.value.fingerprint == FINGERPRINT_UNKNOWN {
        UnaskedFetchIrrelevant(c, e, f, x, name, repos[1..], Scan(cached, Some(url), cache1));
        assert Next(c, e, name, repos, Scan(cached, Some(url), cache1)) == Next(c, e', name, repos, Scan(cached, Some(url), cache1));
      } else if cached.None? {
        assert e'.fetch(url + c.ext) == e.fetch(url + c.ext);
        if e.fetch(url + c.ext).Fetched? {
          LoadIgnoresFetch(c, e, f, name, url, e.fetch(url + c.ext).data, cache1);
        } else {
          var u := NegativeEntry(c, e);
          assert NegativeEntry(c, e') == u;
          PutValid(cache1, url, u);
          var s1 := Scan(Some(u), Some(url), Put(cache1, url, u));
          UnaskedFetchIrrelevant(c, e, f, x, name, repos[1..], s1);
          assert Next(c, e, name, repos, s1) == Next(c, e', name, repos, s1);
        }
      }
    }
  }

  /** Negative caching: while a repository's negative entry for the macro
      is live, the loop does not ask that repository again, so what the
      repository would now answer does not matter. */
  lemma NegativeEntrySkipsRepository(c: Config, e: Env, f: string -> Fetch, name: string, repos: seq<string>, s: Scan)
    requires CacheOk(s.cache) && |repos| > 0
    requires var cached := Get(s.cache, Key(repos[0], name));
      cached.Some? && cached.value.fingerprint == FINGERPRINT_UNKNOWN && !Expired(cached.value, e.now)
    requires forall i :: 1 <= i < |repos| ==> Key(repos[i], name) != Key(repos[0], name)
    requires forall y :: y != Key(repos[0], name) + c.ext ==> f(y) == e.fetch(y)
    ensures ScanRepos(c, e, name, repos, s) == ScanRepos(c, e.(fetch := f), name, repos, s)
  {
    var url := Key(repos[0], name);
    var rest := repos[1..];
    forall i | 0 <= i < |rest| ensures Key(rest[i], name) + c.ext != url + c.ext {
      assert rest[i] == repos[i + 1];
      if Key(rest[i], name) + c.ext == url + c.ext {
        ExtensionInjective(Key(rest[i], name), url, c.ext);
      }
    }
    UnaskedFetchIrrelevant(c, e, f, url + c.ext, name, rest, Scan(Get(s.cache, url), Some(url), s.cache));
  }

  /** A macro fetched and run is cached and returned under the name it was
      requested by, expiring after the calling stack's time to live clamped
      to the configured bounds, or after the default. */
  lemma FetchedUnitTtl(c: Config, e: Env, name: string, repos: seq<string>, s: Scan)
    requires CacheOk(s.cache) && |repos| > 0
    requires var cached := Get(s.cache, Key(repos[0], name)); cached.None? || Expired(cached.value, e.now)
    requires e.fetch(Key(repos[0], name) + c.ext).Fetched?
    requires var ex := e.run(Source(e.fetch(Key(repos[0], name) + c.ext).data)); ex.Ran? && SingleMacro(ex.stack)
    requires e.callerTtl != Some(OtherAttr)
    ensures var r := ScanRepos(c, e, name, repos, s);
      && r.Found? && r.url == Key(repos[0], name) && r.u.name == name && !r.u.secure
      && r.u.body == e.run(Source(e.fetch(r.url + c.ext).data)).stack[0].body
      && r.u.expiry == Wrap64(e.now + (if e.callerTtl.None? then c.ttl else Clamp(e.callerTtl.value.v, c.minTtl, c.maxTtl)))
    ensures var r := ScanRepos(c, e, name, repos, s);
      e.callerTtl.Some? && c.minTtl <= c.maxTtl && IsLong(e.now + c.minTtl) && IsLong(e.now + c.maxTtl) ==>
        e.now + c.minTtl <= r.u.expiry <= e.now + c.maxTtl
  {
    var url := Key(repos[0], name);
    ScanFetches(c, e, name, repos, s);
    LoadedUnit(c, e, name, url, e.fetch(url + c.ext).data, Lookup(s.cache, url, e.now).1);
  }

  /** A source that leaves a single macro loads as that macro, named as
      asked, expiring the caller's clamped time to live after now. */
  lemma LoadedUnit(c: Config, e: Env, name: string, url: string, data: string, cache: Cache<Unit>)
    requires CacheOk(cache)
    requires var ex := e.run(Source(data)); ex.Ran? && SingleMacro(ex.stack)
    requires e.callerTtl != Some(OtherAttr)
    ensures var r := LoadSource(c, e, name, url, data, cache);
      && r.Found? && r.u.name == name && !r.u.secure
      && r.u.body == e.run(Source(data)).stack[0].body
      && r.u.expiry == Wrap64(e.now + (if e.callerTtl.None? then c.ttl else Clamp(e.callerTtl.value.v, c.minTtl, c.maxTtl)))
    ensures var r := LoadSource(c, e, name, url, data, cache);
      e.callerTtl.Some? && c.minTtl <= c.maxTtl && IsLong(e.now + c.minTtl) && IsLong(e.now + c.maxTtl) ==>
        e.now + c.minTtl <= r.u.expiry <= e.now + c.maxTtl
  {
    var t := CallerTtl(c, e.callerTtl).value;
    assert IsLong(e.now + t) ==> Wrap64(e.now + t) == e.now + t;
  }

  /** As written, the `finally` that follows a detected cycle pops an entry
      this call never pushed: the caller's own name leaves the in-flight
      list while the caller is still loading. */
  lemma CycleDropsCaller(c: Config, e: Env, st: State, name: string)
    requires CacheOk(st.cache) && Cycle(e, st, name)
    ensures |FindMacro(c, e, st, name, false).1.inflight| == |st.inflight| - 1
    ensures FindMacro(c, e, st, name, false).1.inflight == st.inflight[..|st.inflight| - 1]
  {
  }

  /** Popping only what was pushed, a cycle report leaves the in-flight list
      as the caller had it. */
  lemma CycleKeepsCaller(c: Config, e: Env, st: State, name: string)
    requires CacheOk(st.cache) && Cycle(e, st, name)
    ensures FindMacro(c, e, st, name, true).1 == st
  {
  }
}

=== FILE: library.dfy ===
/** `FLoWSMacroLibraryResolver`: FLoWS sources found on the class path,
    either inside a jar (every source of the jar with the requested name is
    loaded) or as a plain file, compiled into secure units and cached by
    name. Failures are not cached: they reach the caller as exceptions.

    `fixed` selects between the code as written (`false`), which computes
    the clamped time to live and then sets the expiry from the default
    one, and the corrected code (`true`), which uses the clamped value. */
module Library {
  import opened Results
  import opened Numbers
  import opened Text
  import opened Units
  import opened Cache

  /** The file extension, the default time to live, and the hard upper
      bound on a requested time to live. */
  datatype Config = Config(ext: string, ttl: Int64, hardTtl: Int64)

  /** `Long.MAX_VALUE >>> 2`, the default hard bound. */
  const DEFAULT_HARD_TTL: Int64 := LONG_MAX / 4

  const DEFAULTS: Config := Config(".flows", 600000, DEFAULT_HARD_TTL)

  /** One entry of a jar. */
  datatype JarEntry = JarEntry(name: string, directory: bool, data: string)

  /** A jar file: missing, unreadable, or its entries in order. */
  datatype JarContents = Missing | Unreadable | Entries(entries: seq<JarEntry>)

  datatype Jar = Jar(path: string, contents: JarContents)

  /** Where the class loader finds a resource: nowhere, in a jar, as a
      plain file, behind some other kind of URL (ignored), or behind a URL
      that cannot be opened. */
  datatype Resource = Absent | InJar(jar: Jar) | OnDisk(data: string) | OtherScheme | Unreachable

  /** The class path, what running a source gives, and the clock. */
  datatype Env = Env(classpath: string -> Resource, run: string -> Execution, now: Int64)

  /** An exception reaching the caller: a `WarpScriptException` with its
      message, or the `ClassCastException` of a time to live that is not a
      `Long`. */
  datatype LibError = Raised(message: string) | CastFailed

  /** The time to live a run asks for (the default when it sets none),
      or `None` when the attribute is not a `Long`. */
  function RequestedTtl(c: Config, attr: Option<Attr>): Option<Int64> {
    match attr
    case None => Some(c.ttl)
    case Some(LongAttr(t)) => Some(t)
    case Some(OtherAttr) => None
  }

  /** `macroTtl`: the requested time to live, capped at the hard bound. */
  function CappedTtl(c: Config, t: Int64): (r: Int64)
    ensures r <= c.hardTtl && (r == t || r == c.hardTtl)
    ensures t <= c.hardTtl ==> r == t
  {
    if t > c.hardTtl then c.hardTtl else t
  }

  /** `loadMacro`: run the source; a single macro becomes a secure unit
      named after the macro, any other result is an exception. */
  function LoadMacro(c: Config, e: Env, name: string, data: string, fixed: bool): (r: Result<Unit, LibError>)
    ensures r.Success? <==> var ex := e.run(Source(data)); ex.Ran? && SingleMacro(ex.stack) && RequestedTtl(c, ex.ttlAttr).Some?
    ensures r.Success? ==> && r.value.secure && r.value.name == name
                           && r.value.body == e.run(Source(data)).stack[0].body
    ensures r.Success? && !fixed ==> r.value.expiry == SaturatingExpiry(e.now, c.ttl)
    ensures r.Success? && fixed ==> r.value.expiry == SaturatingExpiry(e.now, CappedTtl(c, RequestedTtl(c, e.run(Source(data)).ttlAttr).value))
  {
    match e.run(Source(data))
    case Threw(m) => Failure(Raised(m))
    case Ran(stack, attr) =>
      if |stack| != 1 then Failure(Raised("Stack depth was not 1 after the code execution."))
      else if !stack[0].MacroValue? then Failure(Raised("No macro was found on top of the stack."))
      else match RequestedTtl(c, attr)
        case None => Failure(CastFailed)
        case Some(t) =>
          var macroTtl := CappedTtl(c, t);
          Success(Unit(stack[0].body, name, true, SaturatingExpiry(e.now, if fixed then macroTtl else c.ttl), 0))
  }

  /** The jar entries `addJar` loads: files with the extension, and only
      the requested one when a resource is given. */
  predicate Selected(c: Config, en: JarEntry, resource: Option<string>) {
    !en.directory && EndsWith(en.name, c.ext) && (resource.None? || resource.value == en.name)
  }

  /** The macro name of a selected entry: its name without the extension. */
  function MacroName(c: Config, en: JarEntry): string
    requires EndsWith(en.name, c.ext)
  {
    en.name[..|en.name| - |c.ext|]
  }

  /** A selected entry whose load fails. */
  predicate Fails(c: Config, e: Env, en: JarEntry, resource: Option<string>, fixed: bool) {
    Selected(c, en, resource) && LoadMacro(c, e, MacroName(c, en), en.data, fixed).Failure?
  }

  /** Where the first failing entry sits, if any entry fails. */
  function FirstFailure(c: Config, e: Env, es: seq<JarEntry>, resource: Option<string>, fixed: bool): (r: Option<nat>)
    ensures r.Some? ==> r.value < |es| && Fails(c, e, es[r.value], resource, fixed)
    ensures forall j :: 0 <= j < |es| && (r.None? || j < r.value) ==> !Fails(c, e, es[j], resource, fixed)
    decreases |es|
  {
    if |es| == 0 then None
    else if Fails(c, e, es[0], resource, fixed) then Some(0)
    else match FirstFailure(c, e, es[1..], resource, fixed)
      case None => None
      case Some(i) => Some(i + 1)
  }

  /** What one entry does to the cache when its load succeeds: a selected
      entry's unit goes under its macro name; anything else leaves the
      cache alone. */
  function Store(c: Config, e: Env, cache: Cache<Unit>, en: JarEntry, resource: Option<string>, fixed: bool): Cache<Unit> {
    if Selected(c, en, resource) then
      match LoadMacro(c, e, MacroName(c, en), en.data, fixed)
      case Success(u) => Put(cache, MacroName(c, en), u)
      case Failure(_) => cache
    else cache
  }

  /** The reference for the loop: the entries stored one after the other,
      the last one last. */
  function StoreAll(c: Config, e: Env, cache: Cache<Unit>, es: seq<JarEntry>, resource: Option<string>, fixed: bool): Cache<Unit>
    decreases |es|
  {
    if |es| == 0 then cache
    else Store(c, e, StoreAll(c, e, cache, es[..|es| - 1], resource, fixed), es[|es| - 1], resource, fixed)
  }

  /** Storing keeps the cache well formed. */
  lemma {:induction false} StoreAllOk(c: Config, e: Env, cache: Cache<Unit>, es: seq<JarEntry>, resource: Option<string>, fixed: bool)
    requires CacheOk(cache)
    ensures CacheOk(StoreAll(c, e, cache, es, resource, fixed)) && StoreAll(c, e, cache, es, resource, fixed).max == cache.max
    decreases |es|
  {
    if |es| > 0 {
      var prev := StoreAll(c, e, cache, es[..|es| - 1], resource, fixed);
      StoreAllOk(c, e, cache, es[..|es| - 1], resource, fixed);
      var en := es[|es| - 1];
      if Selected(c, en, resource) && LoadMacro(c, e, MacroName(c, en), en.data, fixed).Success? {
        PutValid(prev, MacroName(c, en), LoadMacro(c, e, MacroName(c, en), en.data, fixed).value);
      }
    }
  }

  /** The last entry stored wins: when it is selected and loads, its macro
      name maps to its unit (in a cache that can hold anything). */
  lemma StoreAllLast(c: Config, e: Env, cache: Cache<Unit>, es: seq<JarEntry>, resource: Option<string>, fixed: bool)
    requires CacheOk(cache) && cache.max > 0 && |es| > 0
    requires var en := es[|es| - 1]; Selected(c, en, resource) && LoadMacro(c, e, MacroName(c, en), en.data, fixed).Success?
    ensures var en := es[|es| - 1];
      Get(StoreAll(c, e, cache, es, resource, fixed), MacroName(c, en)) == Some(LoadMacro(c, e, MacroName(c, en), en.data, fixed).value)
  {
    var prev := StoreAll(c, e, cache, es[..|es| - 1], resource, fixed);
    StoreAllOk(c, e, cache, es[..|es| - 1], resource, fixed);
    var en := es[|es| - 1];
    PutGet(prev, MacroName(c, en), LoadMacro(c, e, MacroName(c, en), en.data, fixed).value, MacroName(c, en));
  }

  /** Storing a list is storing its first entry, then the rest. */
  lemma {:induction false} StoreAllFirst(c: Config, e: Env, cache: Cache<Unit>, es: seq<JarEntry>, resource: Option<string>, fixed: bool)
    requires |es| > 0
    ensures StoreAll(c, e, cache, es, resource, fixed) == StoreAll(c, e, Store(c, e, cache, es[0], resource, fixed), es[1..], resource, fixed)
    decreases |es|
  {
    if |es| > 1 {
      var init := es[..|es| - 1];
      StoreAllFirst(c, e, cache, init, resource, fixed);
      assert init[1..] == es[1..][..|es[1..]| - 1];
      assert es[|es| - 1] == es[1..][|es[1..]| - 1];
    } else {
      assert es[..0] == [] && es[1..] == [];
    }
  }

  /** What `addJar`'s loop leaves: the error of the first failing entry,
      if one fails, and the cache with every entry before it stored, in
      order. */
  predicate StoresUntilFailure(c: Config, e: Env, cache: Cache<Unit>, es: seq<JarEntry>, resource: Option<string>, fixed: bool, r: (Option<LibError>, Cache<Unit>)) {
    match FirstFailure(c, e, es, resource, fixed)
    case None => r == (None, StoreAll(c, e, cache, es, resource, fixed))
    case Some(i) =>
      r == (Some(LoadMacro(c, e, MacroName(c, es[i]), es[i].data, fixed).error), StoreAll(c, e, cache, es[..i], resource, fixed))
  }

  /** The cache now holds a unit for `k` that it did not hold before. */
  predicate Changed(before: Cache<Unit>, after: Cache<Unit>, k: string) {
    Get(after, k).Some? && Get(after, k) != Get(before, k)
  }

  /** The loop of `addJar` over the entries: each selected entry is loaded,
      made secure, and cached under its macro name; the first failure
      stops the loop, and what was cached before it stays cached. Only
      names of selected entries change, and every unit they now map to is
      secure. */
  function AddEntries(c: Config, e: Env, cache: Cache<Unit>, es: seq<JarEntry>, resource: Option<string>, fixed: bool): (r: (Option<LibError>, Cache<Unit>))
    requires CacheOk(cache)
    ensures CacheOk(r.1) && r.1.max == cache.max
    ensures forall k :: Changed(cache, r.1, k) ==>
      && Get(r.1, k).value.secure && Get(r.1, k).value.name == k
      && SelectsName(c, es, resource, k)
    ensures StoresUntilFailure(c, e, cache, es, resource, fixed, r)
    decreases |es|
  {
    if |es| == 0 then (None, cache)
    else
      var en := es[0];
      if !Selected(c, en, resource) then
        var r := AddEntries(c, e, cache, es[1..], resource, fixed);
        SelectsTail(c, es, resource);
        StoresFirst(c, e, cache, es, resource, fixed, r);
        r
      else
        match LoadMacro(c, e, MacroName(c, en), en.data, fixed)
        case Failure(err) =>
          assert es[..0] == [];
          (Some(err), cache)
        case Success(u) =>
          var cache1 := Put(cache, MacroName(c, en), u.(secure := true));
          PutValid(cache, MacroName(c, en), u.(secure := true));
          forall k ensures Changed(cache, cache1, k) ==>
            && k == MacroName(c, en) && Get(cache1, k).value.secure && Get(cache1, k).value.name == k
          {
            PutGet(cache, MacroName(c, en), u.(secure := true), k);
          }
          var r := AddEntries(c, e, cache1, es[1..], resource, fixed);
          SelectsTail(c, es, resource);
          assert SelectsName(c, es, resource, MacroName(c, en)) by {
            assert es[0] == en;
          }
          StoresFirst(c, e, cache, es, resource, fixed, r);
          r
  }

  /** When the first entry does not fail, the loop's end for the whole
      list is its end for the rest, started from the cache that entry
      leaves. */
  lemma StoresFirst(c: Config, e: Env, cache: Cache<Unit>, es: seq<JarEntry>, resource: Option<string>, fixed: bool, r: (Option<LibError>, Cache<Unit>))
    requires |es| > 0 && !Fails(c, e, es[0], resource, fixed)
    requires StoresUntilFailure(c, e, Store(c, e, cache, es[0], resource, fixed), es[1..], resource, fixed, r)
    ensures StoresUntilFailure(c, e, cache, es, resource, fixed, r)
  {
    var first := Store(c, e, cache, es[0], resource, fixed);
    match FirstFailure(c, e, es[1..], resource, fixed)
    case None =>
      StoreAllFirst(c, e, cache, es, resource, fixed);
    case Some(i) =>
      assert FirstFailure(c, e, es, resource, fixed) == Some(i + 1);
      assert es[i + 1] == es[1..][i];
      StoreAllFirst(c, e, cache, es[..i + 1], resource, fixed);
      assert es[..i + 1][1..] == es[1..][..i];
  }

  /** Some selected entry of `es` has macro name `k`. */
  predicate SelectsName(c: Config, es: seq<JarEntry>, resource: Option<string>, k: string) {
    exists i :: 0 <= i < |es| && Selected(c, es[i], resource) && MacroName(c, es[i]) == k
  }

  lemma SelectsTail(c: Config, es: seq<JarEntry>, resource: Option<string>)
    requires |es| > 0
    ensures forall k :: SelectsName(c, es[1..], resource, k) ==> SelectsName(c, es, resource, k)
  {
    forall k | SelectsName(c, es[1..], resource, k) ensures SelectsName(c, es, resource, k) {
      var i :| 0 <= i < |es| - 1 && Selected(c, es[1..][i], resource) && MacroName(c, es[1..][i]) == k;
      assert es[i + 1] == es[1..][i];
    }
  }

  /** `addJar(path, resource)`. */
  function AddJar(c: Config, e: Env, cache: Cache<Unit>, jar: Jar, resource: Option<string>, fixed: bool): (r: (Option<LibError>, Cache<Unit>))
    requires CacheOk(cache)
    ensures CacheOk(r.1) && r.1.max == cache.max
    ensures jar.contents.Missing? ==> r == (Some(Raised("File not found " + jar.path)), cache)
    ensures jar.contents.Unreadable? ==> r == (Some(Raised("Encountered error while loading " + jar.path)), cache)
    ensures jar.contents.Entries? ==> forall k :: Changed(cache, r.1, k) ==>
      && Get(r.1, k).value.secure && Get(r.1, k).value.name == k
      && SelectsName(c, jar.contents.entries, resource, k)
    ensures jar.contents.Entries? ==> StoresUntilFailure(c, e, cache, jar.contents.entries, resource, fixed, r)
  {
    match jar.contents
    case Missing => (Some(Raised("File not found " + jar.path)), cache)
    case Unreadable => (Some(Raised("Encountered error while loading " + jar.path)), cache)
    case Entries(es) => AddEntries(c, e, cache, es, resource, fixed)
  }

  /** `findMacro`: traversal shapes get `null`; a cached unit that has not
      expired is returned; otherwise the class path decides. When the
      resource has gone, or is behind a URL of another kind, the expired
      unit (or `null`) is returned as it stands. */
  function FindMacro(c: Config, e: Env, cache: Cache<Unit>, name: string, fixed: bool): (r: (Result<Option<Unit>, LibError>, Cache<Unit>))
    requires CacheOk(cache)
    ensures CacheOk(r.1) && r.1.max == cache.max
    ensures TraversalShape(name) ==> r == (Success(None), cache)
    ensures !TraversalShape(name) && Get(cache, name).Some? && !Expired(Get(cache, name).value, e.now) ==> r == (Success(Get(cache, name)), cache)
    ensures !TraversalShape(name) && e.classpath(name + c.ext) in {Absent, OtherScheme} ==> r == (Success(Get(cache, name)), cache)
    ensures r.0.Success? && r.0.value.Some? && r.0.value != Get(cache, name) ==> r.0.value.value.secure && r.0.value.value.name == name
    ensures r.0.Success? && r.0.value.Some? && r.0.value != Get(cache, name) && cache.max > 0 ==> Get(r.1, name) == r.0.value
  {
    if TraversalShape(name) then (Success(None), cache)
    else
      var cached := Get(cache, name);
      if cached.Some? && !Expired(cached.value, e.now) then (Success(cached), cache)
      else
        var rsc := name + c.ext;
        match e.classpath(rsc)
        case Absent => (Success(cached), cache)
        case OtherScheme => (Success(cached), cache)
        case Unreachable => (Failure(Raised("Error while loading '" + name + "'")), cache)
        case InJar(jar) =>
          var (err, cache1) := AddJar(c, e, cache, jar, Some(rsc), fixed);
          if err.Some? then (Failure(err.value), cache1)
          else
            assert Get(cache1, name) != cached ==> Changed(cache, cache1, name) || Get(cache1, name).None?;
            JarEntryName(c, jar, rsc, name);
            (Success(Get(cache1, name)), cache1)
        case OnDisk(data) =>
          match LoadMacro(c, e, name, data, fixed)
          case Failure(err) => (Failure(err), cache)
          case Success(u) =>
            PutValid(cache, name, u);
            PutGet(cache, name, u, name);
            (Success(Some(u)), Put(cache, name, u))
  }

  /** The class path decides a lookup that misses the cache. A resource
      behind a URL that cannot be opened raises; a plain file is loaded,
      and the unit returned and cached or the load's error raised; a jar
      is added, and its error raised or what the cache then holds for the
      name returned. When no selected entry of the jar fails, that is the
      cache with every selected entry stored. */
  lemma FindMacroLoads(c: Config, e: Env, cache: Cache<Unit>, name: string, fixed: bool)
    requires CacheOk(cache) && !TraversalShape(name)
    requires var cached := Get(cache, name); cached.None? || Expired(cached.value, e.now)
    ensures var rsc := name + c.ext; var r := FindMacro(c, e, cache, name, fixed);
      && (e.classpath(rsc).Unreachable? ==> r == (Failure(Raised("Error while loading '" + name + "'")), cache))
      && (e.classpath(rsc).OnDisk? && LoadMacro(c, e, name, e.classpath(rsc).data, fixed).Failure? ==>
            r == (Failure(LoadMacro(c, e, name, e.classpath(rsc).data, fixed).error), cache))
      && (e.classpath(rsc).OnDisk? && LoadMacro(c, e, name, e.classpath(rsc).data, fixed).Success? ==>
            var u := LoadMacro(c, e, name, e.classpath(rsc).data, fixed).value;
            r == (Success(Some(u)), Put(cache, name, u)))
      && (e.classpath(rsc).InJar? ==>
            var jr := AddJar(c, e, cache, e.classpath(rsc).jar, Some(rsc), fixed);
            r == (if jr.0.Some? then Failure(jr.0.value) else Success(Get(jr.1, name)), jr.1))
    ensures var rsc := name + c.ext; var r := FindMacro(c, e, cache, name, fixed);
      e.classpath(rsc).InJar? && e.classpath(rsc).jar.contents.Entries? ==>
        var es := e.classpath(rsc).jar.contents.entries;
        FirstFailure(c, e, es, Some(rsc), fixed).None? ==>
          var stored := StoreAll(c, e, cache, es, Some(rsc), fixed);
          r == (Success(Get(stored, name)), stored)
  {
  }

  /** An entry selected for resource `name + ext` carries macro name
      `name`. */
  lemma JarEntryName(c: Config, jar: Jar, rsc: string, name: string)
    requires rsc == name + c.ext
    ensures forall k :: jar.contents.Entries? && SelectsName(c, jar.contents.entries, Some(rsc), k) ==> k == name
  {
    forall k | jar.contents.Entries? && SelectsName(c, jar.contents.entries, Some(rsc), k) ensures k == name {
      var es := jar.contents.entries;
      var i :| 0 <= i < |es| && Selected(c, es[i], Some(rsc)) && MacroName(c, es[i]) == k;
      assert es[i].name == rsc;
      assert rsc[..|rsc| - |c.ext|] == name;
    }
  }

  /** As written, the hard bound does not hold: with a default time to
      live above it, a loaded unit expires later than the bound allows,
      whatever time to live the run asked for. */
  lemma AsWrittenExceedsHardTtl(c: Config, e: Env, name: string, data: string)
    requires LoadMacro(c, e, name, data, false).Success?
    requires c.ttl > c.hardTtl && IsLong(e.now + c.ttl)
    ensures LoadMacro(c, e, name, data, false).value.expiry == e.now + c.ttl > e.now + c.hardTtl
  {
  }

  /** Using the capped time to live, no unit loaded at a time after the
      epoch expires later than the hard bound allows. */
  lemma CorrectedRespectsHardTtl(c: Config, e: Env, name: string, data: string)
    requires LoadMacro(c, e, name, data, true).Success?
    requires e.now >= 0 && IsLong(e.now + c.hardTtl)
    ensures LoadMacro(c, e, name, data, true).value.expiry <= e.now + c.hardTtl
  {
    var t := CappedTtl(c, RequestedTtl(c, e.run(Source(data)).ttlAttr).value);
    assert IsLong(e.now + t);
  }
}

=== FILE: literals.dfy ===
/** The value eval mode pushes for a `LONG` literal of the FLoWS grammar:
    decimal literals go through `Long.parseLong`, `0x` literals through
    `Long.parseLong(…, 16)` when they are short enough to fit and through
    `BigInteger.longValue()` otherwise. */
module Literals {
  import opened Results
  import opened Numbers
  import opened Text

  /** The literal's value; `None` stands for the `NumberFormatException` a
      malformed literal raises. */
  function LongLiteral(node: string): (r: Option<int>)
    ensures r.Some? ==> IsLong(r.value)
  {
    if StartsWith(node, "0x") then
      if |node| < 18 then ParseLong(node[2..], 16)
      else
        match ParseBig(node[2..], 16)
        case Some(v) => Some(Wrap64(v))
        case None => None
    else ParseLong(node, 10)
  }

  lemma PowMonotone(b: nat, i: nat, j: nat)
    requires b > 0 && i <= j
    ensures Pow(b, i) <= Pow(b, j)
    decreases j
  {
    if i < j {
      PowMonotone(b, i, j - 1);
    }
  }

  lemma {:induction false} PowAdd(b: nat, i: nat, j: nat)
    ensures Pow(b, i + j) == Pow(b, i) * Pow(b, j)
    decreases j
  {
    if j > 0 {
      PowAdd(b, i, j - 1);
      var x, y := Pow(b, i), Pow(b, j - 1);
      assert Pow(b, i + j) == b * (x * y);
      MulSwap(b, x, y);
      assert Pow(b, j) == b * y;
    }
  }

  lemma MulSwap(a: int, x: int, y: int)
    ensures a * (x * y) == x * (a * y)
  {
  }

  /** The powers of sixteen the literal rules need. */
  lemma PowSixteen()
    ensures Pow(16, 15) == 0x1000_0000_0000_0000
    ensures Pow(16, 16) == TWO_64
  {
    assert Pow(16, 2) == 0x100;
    assert Pow(16, 3) == 0x1000;
    PowAdd(16, 3, 3);
    PowAdd(16, 6, 6);
    PowAdd(16, 12, 3);
    PowAdd(16, 12, 4);
    assert Pow(16, 4) == 16 * Pow(16, 3);
  }

  /** Fifteen hex digits always fit in a `long`. */
  lemma FifteenHexDigitsFit(s: string)
    requires |s| <= 15 && AllDigits(s, 16)
    ensures Magnitude(s, 16) < 0x1000_0000_0000_0000
  {
    PowMonotone(16, |s|, 15);
    PowSixteen();
  }

  /** A `0x` literal of fewer than 18 characters denotes its hex number
      itself. */
  lemma ShortHexLiteral(node: string)
    requires StartsWith(node, "0x") && 2 < |node| < 18 && AllDigits(node[2..], 16)
    ensures LongLiteral(node) == Some(Magnitude(node[2..], 16))
  {
    FifteenHexDigitsFit(node[2..]);
    assert node[2..][0] != '-' && node[2..][0] != '+' by {
      assert DigitOf(node[2..][0], 16) >= 0;
    }
  }

  /** A longer `0x` literal denotes the low 64 bits, in two's complement,
      of its hex number. */
  lemma LongHexLiteral(node: string)
    requires StartsWith(node, "0x") && |node| >= 18 && AllDigits(node[2..], 16)
    ensures LongLiteral(node) == Some(Wrap64(Magnitude(node[2..], 16)))
  {
    assert DigitOf(node[2..][0], 16) >= 0;
  }

  /** The unsigned hex text of a `long` (`Long.toHexString`). */
  function HexText(x: int): (s: string)
    requires IsLong(x)
    ensures |s| > 0 && AllDigits(s, 16) && |s| <= 16
    ensures Magnitude(s, 16) == x % TWO_64
  {
    var s := NatToDigits(x % TWO_64, 16);
    NatToDigitsFacts(x % TWO_64, 16);
    HexLength(s);
    s
  }

  /** No more than 16 digits are needed below 2^64. */
  lemma HexLength(s: string)
    requires |s| > 0 && AllDigits(s, 16) && (|s| > 1 ==> s[0] != '0')
    requires Magnitude(s, 16) < TWO_64
    ensures |s| <= 16
  {
    if |s| > 16 {
      LeadingDigitBound(s);
      PowMonotone(16, 16, |s| - 1);
      PowSixteen();
    }
  }

  /** A digit string without a leading zero is at least `radix` to the
      power of its length minus one. */
  lemma {:induction false} LeadingDigitBound(s: string)
    requires |s| > 1 && AllDigits(s, 16) && s[0] != '0'
    ensures Magnitude(s, 16) >= Pow(16, |s| - 1)
    decreases |s|
  {
    var prefix := s[..|s| - 1];
    assert AllDigits(prefix, 16) by {
      assert forall i :: 0 <= i < |prefix| ==> prefix[i] == s[i];
    }
    if |s| == 2 {
      assert DigitOf(s[0], 16) >= 1;
      assert Magnitude(prefix, 16) == DigitOf(s[0], 16) by {
        assert prefix[..0] == [];
      }
    } else {
      assert prefix[0] == s[0];
      LeadingDigitBound(prefix);
    }
  }

  /** The unsigned reading of a `long`'s 64 bits. */
  lemma UnsignedLong(x: int)
    requires IsLong(x)
    ensures x % TWO_64 == if x >= 0 then x else x + TWO_64
  {
    if x < 0 {
      assert 0 <= x + TWO_64 < TWO_64;
      assert x == TWO_64 * (-1) + (x + TWO_64);
    }
  }

  /** Writing a `long` as `0x` followed by its unsigned hex text and
      reading it back gives the same `long`, on both sides of the
      18-character boundary. */
  lemma HexRoundTrip(x: int)
    requires IsLong(x)
    ensures LongLiteral("0x" + HexText(x)) == Some(x)
  {
    var h := HexText(x);
    var node := "0x" + h;
    assert node[2..] == h;
    assert StartsWith(node, "0x");
    if |node| < 18 {
      ShortHexValue(x, node);
    } else {
      LongHexValue(x, node);
    }
  }

  /** A short `0x` literal spelling `x`'s low 64 bits is `x`. */
  lemma ShortHexValue(x: int, node: string)
    requires IsLong(x) && StartsWith(node, "0x") && 2 < |node| < 18 && AllDigits(node[2..], 16)
    requires Magnitude(node[2..], 16) == x % TWO_64
    ensures LongLiteral(node) == Some(x)
  {
    ShortHexLiteral(node);
    FifteenHexDigitsFit(node[2..]);
    UnsignedLong(x);
  }

  /** A long `0x` literal spelling `x`'s low 64 bits is `x`. */
  lemma LongHexValue(x: int, node: string)
    requires IsLong(x) && StartsWith(node, "0x") && |node| >= 18 && AllDigits(node[2..], 16)
    requires Magnitude(node[2..], 16) == x % TWO_64
    ensures LongLiteral(node) == Some(x)
  {
    LongHexLiteral(node);
    UnsignedLong(x);
    assert (x % TWO_64 - x) % TWO_64 == 0;
    Wrap64Unique(x % TWO_64, x);
  }

  /** A decimal `long` read back from its text is itself. */
  lemma DecimalRoundTrip(x: int)
    requires IsLong(x)
    ensures LongLiteral(IntToString(x)) == Some(x)
  {
    var s := IntToString(x);
    ParseIntToString(x);
    NotHexPrefixed(x);
    assert ParseBig(s, 10) == Some(x);
  }

  /** The decimal text of an integer never starts with `0x`. */
  lemma NotHexPrefixed(x: int)
    ensures !StartsWith(IntToString(x), "0x")
  {
    var s := IntToString(x);
    if x >= 0 {
      var d := NatToDigits(x, 10);
      NatToDigitsFacts(x, 10);
      assert s == d;
      assert |d| >= 2 ==> DigitOf(d[1], 10) >= 0;
    } else {
      assert s[0] == '-';
    }
  }
}

=== FILE: numbers.dfy ===
/** JVM integer arithmetic and the decimal/hexadecimal text of integers:
    two's-complement truncation (what a Java `long` or `int` keeps),
    `String.valueOf` of a number, and the parsers `Long.parseLong` and
    `new BigInteger(s, radix)` restricted to ASCII digits. */
module Numbers {
  import opened Results

  const TWO_32: int := 0x1_0000_0000
  const TWO_64: int := 0x1_0000_0000_0000_0000
  const INT_MIN: int := -0x8000_0000
  const LONG_MIN: int := -0x8000_0000_0000_0000
  const LONG_MAX: int := 0x7FFF_FFFF_FFFF_FFFF

  /** `x` is representable as a Java `long`. */
  predicate IsLong(x: int) {
    LONG_MIN <= x <= LONG_MAX
  }

  /** A Java `long`. */
  type Int64 = x: int | IsLong(x)

  /** The Java `long` holding the low 64 bits of `x` in two's complement:
      the result of an overflowing `long` addition or multiplication, and of
      `BigInteger.longValue()`. */
  function Wrap64(x: int): (r: int)
    ensures IsLong(r)
    ensures (x - r) % TWO_64 == 0
    ensures IsLong(x) ==> r == x
  {
    var q := (x - LONG_MIN) / TWO_64;
    assert x - LONG_MIN == q * TWO_64 + (x - LONG_MIN) % TWO_64;
    (x - LONG_MIN) % TWO_64 + LONG_MIN
  }

  /** The Java `int` holding the low 32 bits of `x` (`Long.intValue()`). */
  function Wrap32(x: int): (r: int)
    ensures INT_MIN <= r < -INT_MIN
    ensures (x - r) % TWO_32 == 0
    ensures INT_MIN <= x < -INT_MIN ==> r == x
  {
    var q := (x - INT_MIN) / TWO_32;
    assert x - INT_MIN == q * TWO_32 + (x - INT_MIN) % TWO_32;
    (x - INT_MIN) % TWO_32 + INT_MIN
  }

  /** The wrapped value is the only `long` congruent to `x`. */
  lemma Wrap64Unique(x: int, y: int)
    requires IsLong(y) && (x - y) % TWO_64 == 0
    ensures Wrap64(x) == y
  {
    var r := Wrap64(x);
    var q1, q2 := (x - r) / TWO_64, (x - y) / TWO_64;
    assert x - r == TWO_64 * q1;
    assert x - y == TWO_64 * q2;
    assert y - r == TWO_64 * (q1 - q2);
    assert q1 - q2 > 0 ==> TWO_64 * (q1 - q2) >= TWO_64;
    assert q1 - q2 < 0 ==> TWO_64 * (q1 - q2) <= -TWO_64;
  }

  /** The truncated value is the only `int` congruent to `x`. */
  lemma Wrap32Unique(x: int, y: int)
    requires INT_MIN <= y < -INT_MIN && (x - y) % TWO_32 == 0
    ensures Wrap32(x) == y
  {
    var r := Wrap32(x);
    var q1, q2 := (x - r) / TWO_32, (x - y) / TWO_32;
    assert x - r == TWO_32 * q1;
    assert x - y == TWO_32 * q2;
    assert y - r == TWO_32 * (q1 - q2);
    assert q1 - q2 > 0 ==> TWO_32 * (q1 - q2) >= TWO_32;
    assert q1 - q2 < 0 ==> TWO_32 * (q1 - q2) <= -TWO_32;
  }

  function Pow(b: nat, e: nat): (r: nat)
    ensures b > 0 ==> r > 0
  {
    if e == 0 then 1 else b * Pow(b, e - 1)
  }

  predicate IsRadix(radix: nat) {
    radix == 10 || radix == 16
  }

  /** The value of `c` as a digit in `radix`, or -1 when it is not one
      (`Character.digit` on ASCII characters). */
  function DigitOf(c: char, radix: nat): (d: int)
    requires IsRadix(radix)
    ensures -1 <= d < radix
  {
    if '0' <= c <= '9' then c as int - '0' as int
    else if radix == 16 && 'a' <= c <= 'f' then c as int - 'a' as int + 10
    else if radix == 16 && 'A' <= c <= 'F' then c as int - 'A' as int + 10
    else -1
  }

  predicate AllDigits(s: string, radix: nat)
    requires IsRadix(radix)
  {
    forall i :: 0 <= i < |s| ==> DigitOf(s[i], radix) >= 0
  }

  /** The number written by the digit string `s` in `radix`; it is below
      `radix` to the power of the number of digits. */
  function Magnitude(s: string, radix: nat): (v: nat)
    requires IsRadix(radix)
    requires AllDigits(s, radix)
    ensures v < Pow(radix, |s|)
    decreases |s|
  {
    if |s| == 0 then 0
    else
      var prefix := s[..|s| - 1];
      var d := DigitOf(s[|s| - 1], radix);
      var v := Magnitude(prefix, radix);
      assert v <= Pow(radix, |prefix|) - 1;
      assert v * radix <= (Pow(radix, |prefix|) - 1) * radix;
      v * radix + d
  }

  /** Lower-case digit characters, indexable by digit value. */
  const DIGITS: string := "0123456789abcdef"

  /** The digits of `n` in `radix`, most significant first, without leading
      zeros (`Long.toString(n, radix)` for a non-negative `n`). */
  function NatToDigits(n: nat, radix: nat): (s: string)
    requires IsRadix(radix)
    ensures |s| > 0
    decreases n
  {
    var last := [DIGITS[n % radix]];
    if n < radix then last else NatToDigits(n / radix, radix) + last
  }

  /** The digits are digits of `radix`, without a leading zero, sign or
      blank, and they spell `n`. */
  lemma NatToDigitsFacts(n: nat, radix: nat)
    requires IsRadix(radix)
    ensures var s := NatToDigits(n, radix);
      && AllDigits(s, radix) && Magnitude(s, radix) == n
      && (|s| > 1 ==> s[0] != '0')
      && forall i :: 0 <= i < |s| ==> s[i] != '-' && s[i] != ' ' && s[i] != '+'
  {
    NatToDigitsValue(n, radix);
    NatToDigitsShape(n, radix);
  }

  lemma NatToDigitsValue(n: nat, radix: nat)
    requires IsRadix(radix)
    ensures AllDigits(NatToDigits(n, radix), radix) && Magnitude(NatToDigits(n, radix), radix) == n
  {
    NatToDigitsAreDigits(n, radix);
    NatToDigitsMagnitude(n, radix);
  }

  lemma {:induction false} NatToDigitsAreDigits(n: nat, radix: nat)
    requires IsRadix(radix)
    ensures AllDigits(NatToDigits(n, radix), radix)
    decreases n
  {
    var s := NatToDigits(n, radix);
    var last := [DIGITS[n % radix]];
    DigitRoundTrip(n % radix, radix);
    if n >= radix {
      var prefix := NatToDigits(n / radix, radix);
      NatToDigitsAreDigits(n / radix, radix);
      assert s == prefix + last;
      forall i | 0 <= i < |s| ensures DigitOf(s[i], radix) >= 0 {
        if i < |prefix| {
          assert s[i] == prefix[i];
        }
      }
    }
  }

  /** Appending a digit shifts the number one place up. */
  lemma MagnitudeSnoc(prefix: string, c: char, radix: nat)
    requires IsRadix(radix) && AllDigits(prefix, radix) && DigitOf(c, radix) >= 0
    ensures AllDigits(prefix + [c], radix)
    ensures Magnitude(prefix + [c], radix) == Magnitude(prefix, radix) * radix + DigitOf(c, radix)
  {
    var s := prefix + [c];
    assert s[..|s| - 1] == prefix;
  }

  lemma {:induction false} NatToDigitsMagnitude(n: nat, radix: nat)
    requires IsRadix(radix)
    ensures AllDigits(NatToDigits(n, radix), radix) && Magnitude(NatToDigits(n, radix), radix) == n
    decreases n
  {
    NatToDigitsAreDigits(n, radix);
    if n >= radix {
      NatToDigitsMagnitude(n / radix, radix);
      MagnitudeShift(n, radix);
    } else {
      var s := NatToDigits(n, radix);
      assert s == [DIGITS[n]] && s[..0] == [];
      DigitRoundTrip(n, radix);
    }
  }

  /** The step of `NatToDigitsMagnitude`: the last digit is `n % radix`
      and the digits before it spell `n / radix`. */
  lemma MagnitudeShift(n: nat, radix: nat)
    requires IsRadix(radix) && n >= radix
    requires AllDigits(NatToDigits(n / radix, radix), radix)
    requires Magnitude(NatToDigits(n / radix, radix), radix) == n / radix
    ensures AllDigits(NatToDigits(n, radix), radix) && Magnitude(NatToDigits(n, radix), radix) == n
  {
    var q, r := n / radix, n % radix;
    var prefix := NatToDigits(q, radix);
    DigitRoundTrip(r, radix);
    MagnitudeSnoc(prefix, DIGITS[r], radix);
    assert NatToDigits(n, radix) == prefix + [DIGITS[r]];
    DivMod(n, radix);
  }

  /** Each digit character reads back as its value. */
  lemma DigitRoundTrip(d: nat, radix: nat)
    requires IsRadix(radix) && d < radix
    ensures DigitOf(DIGITS[d], radix) == d
  {
    if d < 10 {
      assert DIGITS[d] as int == '0' as int + d;
    } else {
      assert DIGITS[d] as int == 'a' as int + d - 10;
    }
  }

  lemma DivMod(n: nat, radix: nat)
    requires radix > 0
    ensures n == (n / radix) * radix + n % radix
  {
  }

  lemma NatToDigitsShape(n: nat, radix: nat)
    requires IsRadix(radix)
    ensures var s := NatToDigits(n, radix);
      && (|s| > 1 ==> s[0] != '0')
      && forall i :: 0 <= i < |s| ==> s[i] != '-' && s[i] != ' ' && s[i] != '+'
  {
    var s := NatToDigits(n, radix);
    NatToDigitsAreDigits(n, radix);
    NatToDigitsLead(n, radix);
    forall i | 0 <= i < |s| ensures s[i] != '-' && s[i] != ' ' && s[i] != '+' {
      assert DigitOf(s[i], radix) >= 0;
    }
  }

  lemma {:induction false} NatToDigitsLead(n: nat, radix: nat)
    requires IsRadix(radix)
    ensures |NatToDigits(n, radix)| > 1 ==> NatToDigits(n, radix)[0] != '0'
    decreases n
  {
    if n >= radix {
      var q := n / radix;
      var prefix := NatToDigits(q, radix);
      NatToDigitsLead(q, radix);
      assert NatToDigits(n, radix) == prefix + [DIGITS[n % radix]];
      assert NatToDigits(n, radix)[0] == prefix[0];
      if q < radix {
        assert prefix == [DIGITS[q]];
        DigitRoundTrip(q, radix);
        assert q > 0;
      } else {
        assert |prefix| > 1;
      }
    }
  }

  /** `String.valueOf(x)` for an integer `x`. */
  function IntToString(x: int): string {
    if x < 0 then "-" + NatToDigits(-x, 10) else NatToDigits(x, 10)
  }

  /** `new BigInteger(s, radix)`: an optional sign followed by at least one
      digit, of any length; `None` stands for NumberFormatException. */
  function ParseBig(s: string, radix: nat): (r: Option<int>)
    requires IsRadix(radix)
  {
    var signed := |s| > 0 && (s[0] == '-' || s[0] == '+');
    var body := if signed then s[1..] else s;
    if |body| == 0 || !AllDigits(body, radix) then None
    else
      var m: int := Magnitude(body, radix);
      Some(if signed && s[0] == '-' then -m else m)
  }

  /** `Long.parseLong(s, radix)`: like `ParseBig`, and the value must fit in
      a `long`. */
  function ParseLong(s: string, radix: nat): (r: Option<int>)
    requires IsRadix(radix)
    ensures r.Some? ==> IsLong(r.value)
    ensures r.Some? <==> ParseBig(s, radix).Some? && IsLong(ParseBig(s, radix).value)
  {
    match ParseBig(s, radix)
    case Some(v) => if IsLong(v) then Some(v) else None
    case None => None
  }

  /** Printing an integer and parsing it back gives the integer again, so
      two different integers never print the same. */
  lemma ParseIntToString(x: int)
    ensures ParseBig(IntToString(x), 10) == Some(x)
  {
    var s := IntToString(x);
    NatToDigitsFacts(if x < 0 then -x else x, 10);
    if x < 0 {
      assert s[1..] == NatToDigits(-x, 10);
    } else {
      assert s == NatToDigits(x, 10);
    }
  }

  /** The text of an integer is never empty and holds no space. */
  lemma IntToStringHasNoSpace(x: int)
    ensures |IntToString(x)| > 0
    ensures forall i :: 0 <= i < |IntToString(x)| ==> IntToString(x)[i] != ' '
  {
    NatToDigitsFacts(if x < 0 then -x else x, 10);
  }

  lemma IntToStringInjective(x: int, y: int)
    ensures IntToString(x) == IntToString(y) <==> x == y
  {
    ParseIntToString(x);
    ParseIntToString(y);
  }
}

=== FILE: repository.dfy ===
/** `FLoWSMacroRepositoryResolver`: FLoWS sources stored as files below a
    root directory, compiled on demand, cached by macro name, and guarded
    against loading cycles by a per-thread list of the names being loaded.

    Loading is recursive: running a source resolves the macros its
    top-level code names, through the same resolver. `fuel` stands for the
    JVM stack. When it runs out in a nested load, the `StackOverflowError`
    unwinds to the enclosing run, whose `FLOWS` call catches every
    `Throwable` and rethrows it as an exception; the enclosing load then
    catches that and yields a fail unit. Only a load that starts with no
    stack to spare ends in `Overflow`. `State.overflowed` records that the
    stack ran out somewhere, so that the depth bound can be stated.

    `fixed` selects between the code as written (`false`), whose `finally`
    clause also pops the in-flight list when the cycle check fired before
    anything was pushed, and the corrected code (`true`), which pops only
    what it pushed. */
module Repository {
  import opened Results
  import opened Numbers
  import opened Text
  import opened Units
  import opened Cache

  /** No two `/` in a row. */
  predicate SingleSlashes(s: string) {
    forall i :: 0 < i < |s| ==> !(s[i - 1] == '/' && s[i] == '/')
  }

  /** A path as `File.getAbsolutePath` gives it: not empty, no repeated
      separator, and no trailing one unless it is `/` itself. */
  predicate NormalPath(s: string) {
    |s| > 0 && SingleSlashes(s) && (s == "/" || s[|s| - 1] != '/')
  }

  type Root = s: string | NormalPath(s) witness "/"

  /** The root directory, the file extension, and the time to live of
      loaded units and of units recording a failed load. */
  datatype Config = Config(root: Root, ext: string, ttl: Int64, failedTtl: Int64)

  /** A file below the root: present but unreadable, or its content. */
  datatype FileState = Unreadable | Present(data: string)

  /** Running a source: the macro names its top-level code resolves, in
      order, then how the run ends once they have all resolved. */
  datatype Run = Run(refs: seq<string>, outcome: Execution)

  /** Failures whose message is written by code outside this model. */
  datatype Problem = ReadFailed | UnknownRef(ref: string) | FailingRef(ref: string) | BrokenRef(ref: string) | BadTtl | StackExhausted

  /** What a load consults besides the resolver's state: the files by
      absolute path, the palindromic SipHash of a content, the run of a
      source, the message of an exception raised outside the model, and
      the clock. */
  datatype World = World(files: map<string, FileState>, hash: string -> Int64, run: string -> Run, describe: Problem -> string, now: Int64)

  /** The cache of units by name, the names being loaded on this thread,
      outermost first, and whether a nested load has run out of stack (an
      observation: the resolver itself keeps no such flag). */
  datatype State = State(cache: Cache<Unit>, inflight: seq<string>, overflowed: bool)

  /** Runs of `/` folded into one. */
  function Collapse(s: string): string {
    if |s| < 2 then s
    else if s[|s| - 2] == '/' && s[|s| - 1] == '/' then Collapse(s[..|s| - 1])
    else Collapse(s[..|s| - 1]) + [s[|s| - 1]]
  }

  /** What `java.io.File` makes of a path on a `/`-separated file system:
      repeated separators folded, a trailing one dropped unless the path
      is `/`. */
  function Normalize(s: string): string {
    var t := Collapse(s);
    if |t| > 1 && t[|t| - 1] == '/' then t[..|t| - 1] else t
  }

  /** The file holding macro `name`: `new File(rootdir, name + ext)`. */
  function FilePath(c: Config, name: string): string {
    Normalize(c.root + "/" + name + c.ext)
  }

  /** One step of `Collapse`: the last character stays unless it repeats
      a separator. */
  lemma CollapseLast(s: string)
    requires |s| >= 2
    ensures Collapse(s) == Collapse(s[..|s| - 1]) + (if s[|s| - 2] == '/' && s[|s| - 1] == '/' then [] else [s[|s| - 1]])
  {
  }

  lemma StartsWithAppend(u: string, v: string, p: string)
    requires StartsWith(u, p)
    ensures StartsWith(u + v, p)
  {
    assert (u + v)[..|p|] == u[..|p|];
  }

  lemma StartsWithTrans(s: string, m: string, p: string)
    requires StartsWith(s, m) && StartsWith(m, p)
    ensures StartsWith(s, p)
  {
    assert s[..|p|] == s[..|m|][..|p|];
  }

  /** Folding keeps what comes first: the folded prefix of a string begins
      the folded string. */
  lemma {:induction false} CollapsePrefix(a: string, b: string)
    ensures StartsWith(Collapse(a + b), Collapse(a))
    decreases |b|
  {
    if |b| == 0 {
      assert a + b == a;
    } else if |a + b| < 2 {
      assert a == [] && Collapse(a) == [];
    } else {
      var b' := b[..|b| - 1];
      CollapsePrefix(a, b');
      var x := a + b;
      assert x[..|x| - 1] == a + b';
      CollapseLast(x);
      var tail := if x[|x| - 2] == '/' && x[|x| - 1] == '/' then [] else [x[|x| - 1]];
      StartsWithAppend(Collapse(a + b'), tail, Collapse(a + b'));
      StartsWithTrans(Collapse(x), Collapse(a + b'), Collapse(a));
    }
  }

  /** A string without repeated separators is its own folding. */
  lemma {:induction false} CollapseKeeps(s: string)
    requires SingleSlashes(s)
    ensures Collapse(s) == s
    decreases |s|
  {
    if |s| >= 2 {
      var init := s[..|s| - 1];
      assert SingleSlashes(init) by {
        forall i | 0 < i < |init| ensures !(init[i - 1] == '/' && init[i] == '/') {
          assert init[i - 1] == s[i - 1] && init[i] == s[i];
        }
      }
      CollapseKeeps(init);
      CollapseLast(s);
      assert !(s[|s| - 2] == '/' && s[|s| - 1] == '/');
      assert init + [s[|s| - 1]] == s;
    }
  }

  /** `//` and `/` fold the same. */
  lemma {:induction false} CollapseDouble(a: string, b: string)
    ensures Collapse(a + "//" + b) == Collapse(a + "/" + b)
    decreases |b|
  {
    var l, r := a + "//" + b, a + "/" + b;
    if |b| == 0 {
      assert l[..|l| - 1] == r;
      CollapseLast(l);
    } else {
      var b' := b[..|b| - 1];
      CollapseDouble(a, b');
      assert l[..|l| - 1] == a + "//" + b';
      assert r[..|r| - 1] == a + "/" + b';
      assert l[|l| - 1] == r[|r| - 1] == b[|b| - 1];
      assert l[|l| - 2] == r[|r| - 2] by {
        if |b'| > 0 {
          assert l[|l| - 2] == b[|b| - 2];
          assert r[|r| - 2] == b[|b| - 2];
        }
      }
      CollapseLast(l);
      CollapseLast(r);
    }
  }

  /** Two spellings of a name that differ by a doubled separator reach
      one file. */
  lemma FilePathFoldsSeparators(c: Config, a: string, b: string)
    ensures FilePath(c, a + "//" + b) == FilePath(c, a + "/" + b)
  {
    var pre := c.root + "/" + a;
    assert c.root + "/" + (a + "//" + b) + c.ext == pre + "//" + (b + c.ext);
    assert c.root + "/" + (a + "/" + b) + c.ext == pre + "/" + (b + c.ext);
    CollapseDouble(pre, b + c.ext);
  }

  /** Names the resolver refuses before touching the file system: a
      traversal shape, or no `/` (macros live in sub-directories). */
  predicate Rejected(name: string) {
    TraversalShape(name) || !Contains(name, "/")
  }

  /** The file of a name always lies below the root, so the `startsWith`
      guard never declines on its own. */
  lemma FilePathUnderRoot(c: Config, name: string)
    ensures StartsWith(FilePath(c, name), c.root)
  {
    assert c.root + "/" + name + c.ext == c.root + "/" + (name + c.ext);
    NormalizeUnderRoot(c.root, name + c.ext);
  }

  lemma NormalizeUnderRoot(root: string, rest: string)
    requires NormalPath(root)
    ensures StartsWith(Normalize(root + "/" + rest), root)
  {
    if root == "/" {
      NormalizeUnderSlash(rest);
    } else {
      NormalizeUnderDirectory(root, rest);
    }
  }

  lemma NormalizeUnderSlash(rest: string)
    ensures StartsWith(Normalize("/" + "/" + rest), "/")
  {
    CollapsePrefix("/" + "/", rest);
    CollapseLast("//");
    assert Collapse("//") == "/";
    TrimKeeps("/" + "/" + rest, "/");
  }

  lemma NormalizeUnderDirectory(root: string, rest: string)
    requires NormalPath(root) && root != "/"
    ensures StartsWith(Normalize(root + "/" + rest), root)
  {
    CollapsePrefix(root + "/", rest);
    SlashAfterRoot(root);
    CollapseKeeps(root + "/");
    StartsWithTrans(Collapse(root + "/" + rest), root + "/", root);
    TrimKeeps(root + "/" + rest, root);
  }

  lemma SlashAfterRoot(root: string)
    requires NormalPath(root) && root != "/"
    ensures SingleSlashes(root + "/")
  {
    forall i | 0 < i < |root| + 1 ensures !((root + "/")[i - 1] == '/' && (root + "/")[i] == '/') {
      if i < |root| {
        assert (root + "/")[i - 1] == root[i - 1] && (root + "/")[i] == root[i];
      }
    }
  }

  /** Dropping a trailing separator keeps a prefix that is `/` alone or
      stops short of the end. */
  lemma TrimKeeps(s: string, p: string)
    requires StartsWith(Collapse(s), p) && (p == "/" || |Collapse(s)| > |p|)
    ensures StartsWith(Normalize(s), p)
  {
    var t := Collapse(s);
    if |t| > 1 && t[|t| - 1] == '/' {
      assert t[..|t| - 1][..|p|] == t[..|p|];
    }
  }

  /** The unit recording a failed load: it reports the time, the name and
      the message, then fails; it expires `failedTtl` after `now` (a plain
      `long` addition), and has no fingerprint. */
  function FailUnit(c: Config, w: World, name: string, message: string): (u: Unit)
    ensures IsFailUnit(u) && !u.secure && u.fingerprint == 0 && |u.body| == 2
    ensures u.body[0] == Str("[" + IntToString(w.now) + ERROR_TEXT + name + "': " + message)
    ensures u.expiry == Wrap64(w.now + c.failedTtl)
  {
    NewUnit([Str("[" + IntToString(w.now) + ERROR_TEXT + name + "': " + message), Fn(MSGFAIL)])
      .(expiry := Wrap64(w.now + c.failedTtl))
  }

  /** The time to live a run asks for, or `None` when its attribute is not
      a `Long` (the cast throws). */
  function RunTtl(c: Config, attr: Option<Attr>): Option<Int64> {
    match attr
    case None => Some(c.ttl)
    case Some(LongAttr(t)) => Some(t)
    case Some(OtherAttr) => None
  }

  /** The run completes the load: a single macro becomes a secure unit
      named after the macro, fingerprinted with the file's hash, expiring
      after the requested time to live (saturating instead of overflowing);
      anything else becomes a fail unit carrying the reason. */
  function Complete(c: Config, w: World, name: string, hash: Int64, ex: Execution): (o: Outcome)
    ensures o.Loaded?
    ensures o.u.secure <==> ex.Ran? && SingleMacro(ex.stack) && RunTtl(c, ex.ttlAttr).Some?
    ensures o.u.secure ==> && o.u.body == ex.stack[0].body && o.u.name == name && o.u.fingerprint == hash
                           && o.u.expiry == SaturatingExpiry(w.now, RunTtl(c, ex.ttlAttr).value)
    ensures !o.u.secure ==> IsFailUnit(o.u) && o.u.fingerprint == 0
    ensures ex.Threw? ==> o.u == FailUnit(c, w, name, ex.message)
    ensures ex.Ran? && |ex.stack| != 1 ==> o.u == FailUnit(c, w, name, DepthMessage(|ex.stack|))
    ensures ex.Ran? && |ex.stack| == 1 && !ex.stack[0].MacroValue? ==> o.u == FailUnit(c, w, name, NOT_A_MACRO)
  {
    match ex
    case Threw(m) => Loaded(FailUnit(c, w, name, m))
    case Ran(stack, attr) =>
      if |stack| != 1 then Loaded(FailUnit(c, w, name, DepthMessage(|stack|)))
      else if !stack[0].MacroValue? then Loaded(FailUnit(c, w, name, NOT_A_MACRO))
      else match RunTtl(c, attr)
        case None => Loaded(FailUnit(c, w, name, w.describe(BadTtl)))
        case Some(t) => Loaded(Unit(stack[0].body, name, true, SaturatingExpiry(w.now, t), hash))
  }

  /** A loaded unit with a positive time to live is not already expired. */
  lemma CompleteNotExpired(c: Config, w: World, name: string, hash: Int64, ex: Execution)
    requires Complete(c, w, name, hash, ex).u.secure
    requires RunTtl(c, ex.ttlAttr).value > 0 && w.now < LONG_MAX - 1
    ensures !Expired(Complete(c, w, name, hash, ex).u, w.now)
  {
    SaturatingExpiryInFuture(w.now, RunTtl(c, ex.ttlAttr).value);
  }

  /** The `finally` clause: the last in-flight name goes; on an empty list
      Java throws, and that exception replaces the outcome. */
  function Unwind(o: Outcome, st: State): (r: (Outcome, State))
    ensures r.1.cache == st.cache
    ensures |st.inflight| > 0 ==> r == (o, st.(inflight := st.inflight[..|st.inflight| - 1]))
    ensures |st.inflight| == 0 ==> r == (Crashed, st)
  {
    match PopLast(st.inflight)
    case None => (Crashed, st)
    case Some(rest) => (o, st.(inflight := rest))
  }

  /** How resolving the names a run needs ended. */
  datatype RefsEnd = AllResolved | RefFailed(problem: Problem)

  /** `findMacro`: a cached unit that has not expired is returned as is;
      otherwise the macro is loaded and, when the load yields a unit,
      cached under its name. */
  function FindMacro(c: Config, w: World, st: State, name: string, fuel: nat, fixed: bool): (r: (Outcome, State))
    requires CacheOk(st.cache)
    ensures CacheOk(r.1.cache) && r.1.cache.max == st.cache.max
    ensures fixed ==> r.1.inflight == st.inflight && !r.0.Crashed?
    ensures Hit(w, st, name) ==> r == (Loaded(Get(st.cache, name).value), st)
    ensures !Hit(w, st, name) && r.0.Loaded? && st.cache.max > 0 ==> Get(r.1.cache, name) == Some(r.0.u)
    ensures r.0.Overflow? <==> !Hit(w, st, name) && fuel == 0
    ensures st.overflowed ==> r.1.overflowed
    decreases fuel, 2, 0
  {
    if Hit(w, st, name) then (Loaded(Get(st.cache, name).value), st)
    else
      var (o, st1) := Load(c, w, st, name, fuel, fixed);
      if o.Loaded? then
        PutValid(st1.cache, name, o.u);
        PutGet(st1.cache, name, o.u, name);
        (o, st1.(cache := Put(st1.cache, name, o.u)))
      else (o, st1)
  }

  /** The cache holds a unit for `name` that has not expired. */
  predicate Hit(w: World, st: State, name: string) {
    var cached := Get(st.cache, name);
    cached.Some? && !Expired(cached.value, w.now)
  }

  /** `loadMacro(name, null)`. Given stack to spare, a load declines
      exactly when the name is refused, or when it is not being loaded
      already and has no file; a name already being loaded yields a unit
      reporting the cycle, listing the in-flight names outermost first. */
  function Load(c: Config, w: World, st: State, name: string, fuel: nat, fixed: bool): (r: (Outcome, State))
    requires CacheOk(st.cache)
    ensures CacheOk(r.1.cache) && r.1.cache.max == st.cache.max
    ensures fixed ==> r.1.inflight == st.inflight && !r.0.Crashed?
    ensures fuel > 0 ==> (r.0.Declined? <==> Rejected(name) || (name !in st.inflight && FilePath(c, name) !in w.files))
    ensures fuel > 0 && Rejected(name) ==> r == (Declined, st)
    ensures fuel > 0 && !Rejected(name) && name in st.inflight ==>
      && r.0 == Loaded(FailUnit(c, w, name, CycleMessage(st.inflight)))
      && r.1.cache == st.cache
      && r.1.inflight == (if fixed then st.inflight else st.inflight[..|st.inflight| - 1])
      && r.1.overflowed == st.overflowed
    ensures r.0.Overflow? <==> fuel == 0
    ensures st.overflowed ==> r.1.overflowed
    decreases fuel, 1, 0
  {
    if fuel == 0 then (Overflow, st)
    else if !StartsWith(FilePath(c, name), c.root) then (FilePathUnderRoot(c, name); assert false; (Declined, st))
    else if Rejected(name) then (Declined, st)
    else if name in st.inflight then
      var u := FailUnit(c, w, name, CycleMessage(st.inflight));
      if fixed then (Loaded(u), st) else Unwind(Loaded(u), st)
    else Pushed(c, w, st, name, fuel, fixed)
  }

  /** The `try` and its `finally`: the name pushed, the attempt made, the
      name popped again. */
  function Pushed(c: Config, w: World, st: State, name: string, fuel: nat, fixed: bool): (r: (Outcome, State))
    requires CacheOk(st.cache) && fuel > 0
    ensures CacheOk(r.1.cache) && r.1.cache.max == st.cache.max
    ensures fixed ==> r.1.inflight == st.inflight && !r.0.Crashed?
    ensures !r.0.Overflow?
    ensures st.overflowed ==> r.1.overflowed
    decreases fuel, 0, 0
  {
    var (o, st1) := Attempt(c, w, st.(inflight := st.inflight + [name]), name, fuel - 1, fixed);
    assert fixed ==> st1.inflight[..|st1.inflight| - 1] == st.inflight;
    Unwind(o, st1)
  }

  /** Whether the cached unit may stand for a file whose content hashes to
      `hash`: same fingerprint, not expired. */
  predicate Reusable(w: World, st: State, name: string, hash: Int64) {
    var prior := Get(st.cache, name);
    prior.Some? && prior.value.fingerprint == hash && !Expired(prior.value, w.now)
  }

  /** The body of the `try`, once the name is in flight: read the file,
      reuse the cached unit when its fingerprint matches, otherwise run
      the source. A missing file declines; everything caught becomes a
      fail unit. */
  function Attempt(c: Config, w: World, st: State, name: string, fuel: nat, fixed: bool): (r: (Outcome, State))
    requires CacheOk(st.cache) && |st.inflight| > 0
    ensures CacheOk(r.1.cache) && r.1.cache.max == st.cache.max
    ensures fixed ==> r.1.inflight == st.inflight && !r.0.Crashed?
    ensures r.0.Declined? <==> FilePath(c, name) !in w.files
    ensures r.0.Declined? ==> r.1 == st
    ensures FilePath(c, name) in w.files && w.files[FilePath(c, name)].Present? ==>
      var hash := w.hash(w.files[FilePath(c, name)].data);
      && (Reusable(w, st, name, hash) ==> r == (Loaded(Get(st.cache, name).value), st))
      && (!Reusable(w, st, name, hash) && r.0.Loaded? && r.0.u.secure ==> r.0.u.name == name && r.0.u.fingerprint == hash)
    ensures !r.0.Overflow?
    ensures st.overflowed ==> r.1.overflowed
    decreases fuel, 4, 0
  {
    var path := FilePath(c, name);
    if path !in w.files then (Declined, st)
    else match w.files[path]
      case Unreadable => (Loaded(FailUnit(c, w, name, w.describe(ReadFailed))), st)
      case Present(data) =>
        var hash := w.hash(data);
        if Reusable(w, st, name, hash) then (Loaded(Get(st.cache, name).value), st)
        else
          var run := w.run(Source(data));
          var (end, st1) := RunRefs(c, w, st, run.refs, fuel, fixed);
          match end
          case RefFailed(p) => (Loaded(FailUnit(c, w, name, w.describe(p))), st1)
          case AllResolved => (Complete(c, w, name, hash, run.outcome), st1)
  }

  /** Running the source resolves the names it uses, one after the other:
      a name nobody resolves, a unit that fails, an exception out of the
      nested load, or the stack running out in it stops the run, and the
      enclosing load catches the failure. */
  function RunRefs(c: Config, w: World, st: State, refs: seq<string>, fuel: nat, fixed: bool): (r: (RefsEnd, State))
    requires CacheOk(st.cache)
    ensures CacheOk(r.1.cache) && r.1.cache.max == st.cache.max
    ensures fixed ==> r.1.inflight == st.inflight
    ensures st.overflowed ==> r.1.overflowed
    decreases fuel, 3, |refs|
  {
    if |refs| == 0 then (AllResolved, st)
    else
      var (o, st1) := FindMacro(c, w, st, refs[0], fuel, fixed);
      match o
      case Declined => (RefFailed(UnknownRef(refs[0])), st1)
      case Crashed => (RefFailed(BrokenRef(refs[0])), st1)
      case Overflow => (RefFailed(StackExhausted), st1.(overflowed := true))
      case Loaded(u) =>
        if IsFailUnit(u) then (RefFailed(FailingRef(refs[0])), st1)
        else RunRefs(c, w, st1, refs[1..], fuel, fixed)
  }

  /** A macro whose source uses itself, loaded from an empty in-flight
      list. */
  function SelfRefWorld(c: Config, name: string): World {
    World(map[FilePath(c, name) := Present("@" + name)], _ => 7, _ => Run([name], Ran([MacroValue([])], None)), _ => "", 1000)
  }

  lemma SelfRefName()
    ensures !Rejected("lib/self")
  {
    var name := "lib/self";
    assert OccursAt(name, "/", 3);
    assert name[..1][0] == name[..2][0] == name[..3][0] == 'l';
    assert forall k | 0 <= k < |name| :: name[k] != '.';
    forall i | 0 <= i <= |name| - 3 ensures !OccursAt(name, "/./", i) && !OccursAt(name, "/../", i) {
      assert name[i..i + 3][1] == name[i + 1];
      if i <= |name| - 4 {
        assert name[i..i + 4][1] == name[i + 1];
      }
    }
  }

  /** As written, a macro that uses itself makes the outer `findMacro`
      throw: the inner load reports the cycle but its `finally` pops the
      outer load's name, so the outer `finally` finds the list empty. */
  lemma SelfReferenceCrashes(c: Config)
    ensures FindMacro(c, SelfRefWorld(c, "lib/self"), State(Cache([], 10), [], false), "lib/self", 3, false).0 == Crashed
  {
    var w, st, name := SelfRefWorld(c, "lib/self"), State(Cache([], 10), [], false), "lib/self";
    assert CacheOk(st.cache);
    SelfRefName();
    assert !Hit(w, st, name);
    var pushed := st.(inflight := [name]);
    var (o1, st1) := FindMacro(c, w, pushed, name, 2, false);
    assert !Hit(w, pushed, name);
    assert o1.Loaded? && IsFailUnit(o1.u) && st1.inflight == [];
    assert RunRefs(c, w, pushed, [name], 2, false).0.RefFailed?;
    assert Attempt(c, w, pushed, name, 2, false).1.inflight == [];
  }

  /** Popping only what was pushed, the same load completes: the outer load
      catches the failing inner unit and reports it. */
  lemma SelfReferenceReported(c: Config)
    ensures var r := FindMacro(c, SelfRefWorld(c, "lib/self"), State(Cache([], 10), [], false), "lib/self", 3, true);
      r.0.Loaded? && IsFailUnit(r.0.u) && r.1.inflight == []
  {
    var w, st, name := SelfRefWorld(c, "lib/self"), State(Cache([], 10), [], false), "lib/self";
    assert CacheOk(st.cache);
    SelfRefName();
    assert !Hit(w, st, name);
    var pushed := st.(inflight := [name]);
    assert !Hit(w, pushed, name);
    // The inner lookup meets the cycle and yields a fail unit.
    var (o1, st1) := FindMacro(c, w, pushed, name, 2, true);
    assert o1 == Load(c, w, pushed, name, 2, true).0;
    assert o1.Loaded? && IsFailUnit(o1.u);
    var (end, st2) := RunRefs(c, w, pushed, [name], 2, true);
    assert end == RefFailed(FailingRef(name));
    // So the outer attempt reports the failing reference.
    var (o3, st3) := Attempt(c, w, pushed, name, 2, true);
    assert o3 == Loaded(FailUnit(c, w, name, w.describe(FailingRef(name))));
    var (o4, st4) := Load(c, w, st, name, 3, true);
    assert o4 == o3 && st4.inflight == [];
  }

  /** The names any present source uses. */
  function UsedNames(w: World): set<string> {
    set p, i | p in w.files && w.files[p].Present? && 0 <= i < |w.run(Source(w.files[p].data)).refs|
      :: w.run(Source(w.files[p].data)).refs[i]
  }

  /** Every name a present source uses lies in `names`. */
  predicate RefsWithin(w: World, names: set<string>) {
    forall p, i :: p in w.files && w.files[p].Present? && 0 <= i < |w.run(Source(w.files[p].data)).refs| ==>
      w.run(Source(w.files[p].data)).refs[i] in names
  }

  /** Distinct names from `names`: what the corrected resolver keeps true
      of the in-flight list. Names, not files: `lib/a` and `lib//a` are two
      names of one file. */
  predicate InflightOk(names: set<string>, inflight: seq<string>) {
    && (forall i, j :: 0 <= i < j < |inflight| ==> inflight[i] != inflight[j])
    && (forall i :: 0 <= i < |inflight| ==> inflight[i] in names)
  }

  /** Distinct names from a set are no more than the set. */
  lemma {:induction false} InflightBound(names: set<string>, inflight: seq<string>)
    requires InflightOk(names, inflight)
    ensures |inflight| <= |names|
  {
    if |inflight| > 0 {
      var init, last := inflight[..|inflight| - 1], inflight[|inflight| - 1];
      assert last in names;
      assert InflightOk(names - {last}, init) by {
        forall i | 0 <= i < |init| ensures init[i] in names - {last} {
          assert init[i] == inflight[i];
        }
      }
      InflightBound(names - {last}, init);
    }
  }

  /** A load that starts with nothing in flight cannot nest deeper than
      the names it can meet: its own and those the sources use. */
  lemma FreshLoadTerminates(c: Config, w: World, st: State, name: string, fuel: nat)
    requires CacheOk(st.cache) && st.inflight == [] && !st.overflowed
    requires fuel > |UsedNames(w) + {name}|
    ensures var r := FindMacro(c, w, st, name, fuel, true); !r.0.Overflow? && !r.1.overflowed
  {
    var names := UsedNames(w) + {name};
    assert RefsWithin(w, names) by {
      forall p, i | p in w.files && w.files[p].Present? && 0 <= i < |w.run(Source(w.files[p].data)).refs|
        ensures w.run(Source(w.files[p].data)).refs[i] in names
      {
        assert w.run(Source(w.files[p].data)).refs[i] in UsedNames(w);
      }
    }
    FindMacroTerminates(c, w, names, st, name, fuel);
  }

  /** Popping only what it pushed, the resolver never has the same name in
      flight twice: with as much stack to spare as there are names it can
      meet, no load, however deeply nested, runs out of stack, however the
      sources use one another. */
  lemma {:induction false} LoadTerminates(c: Config, w: World, names: set<string>, st: State, name: string, fuel: nat)
    requires Room(w, names, st, fuel) && name in names
    ensures var r := Load(c, w, st, name, fuel, true); !r.0.Overflow? && !r.1.overflowed
    decreases fuel, 1, 0
  {
    InflightBound(names, st.inflight);
    if Rejected(name) || name in st.inflight {
      LoadRefuses(c, w, st, name, fuel);
    } else {
      var pushed := st.(inflight := st.inflight + [name]);
      PushedLoadTerminates(c, w, names, st, pushed, name, fuel);
      LoadAfterAttempt(c, w, st, pushed, name, fuel);
    }
  }

  /** A name not yet in flight is pushed; distinct names from `names` stay
      in flight, so the attempt on it has the stack it needs. */
  lemma {:induction false} PushedLoadTerminates(c: Config, w: World, names: set<string>, st: State, pushed: State, name: string, fuel: nat)
    requires Room(w, names, st, fuel) && name in names && Pushes(st, pushed, name, fuel)
    ensures AttemptSafe(c, w, pushed, name, fuel - 1)
    decreases fuel, 0, 0
  {
    PushKeepsRoom(w, names, st, pushed, name, fuel);
    AttemptTerminates(c, w, names, pushed, name, fuel - 1);
  }

  /** A refused name, or one already in flight, is answered at once. */
  lemma LoadRefuses(c: Config, w: World, st: State, name: string, fuel: nat)
    requires CacheOk(st.cache) && fuel > 0 && (Rejected(name) || name in st.inflight)
    ensures var r := Load(c, w, st, name, fuel, true); !r.0.Overflow? && r.1.overflowed == st.overflowed
  {
    FilePathUnderRoot(c, name);
  }

  /** A load of `name` gets past its checks and pushes the name. */
  predicate Pushes(st: State, pushed: State, name: string, fuel: nat) {
    CacheOk(st.cache) && fuel > 0 && !Rejected(name) && name !in st.inflight && pushed == st.(inflight := st.inflight + [name])
  }

  /** Past the checks, the corrected load ends as the attempt with the name
      pushed ends. */
  lemma LoadAttempts(c: Config, w: World, st: State, pushed: State, name: string, fuel: nat)
    requires Pushes(st, pushed, name, fuel)
    ensures Load(c, w, st, name, fuel, true).0 == Attempt(c, w, pushed, name, fuel - 1, true).0
    ensures Load(c, w, st, name, fuel, true).1.overflowed == Attempt(c, w, pushed, name, fuel - 1, true).1.overflowed
    ensures !Load(c, w, st, name, fuel, true).0.Overflow?
  {
    FilePathUnderRoot(c, name);
  }

  /** The attempt on a pushed name records no overflow. */
  predicate AttemptSafe(c: Config, w: World, pushed: State, name: string, f: nat)
    requires CacheOk(pushed.cache) && |pushed.inflight| > 0
  {
    !Attempt(c, w, pushed, name, f, true).1.overflowed
  }

  /** A load whose attempt ends without overflow ends without overflow. */
  lemma LoadAfterAttempt(c: Config, w: World, st: State, pushed: State, name: string, fuel: nat)
    requires Pushes(st, pushed, name, fuel) && !st.overflowed
    ensures AttemptSafe(c, w, pushed, name, fuel - 1) ==>
      var r := Load(c, w, st, name, fuel, true); !r.0.Overflow? && !r.1.overflowed
  {
    LoadAttempts(c, w, st, pushed, name, fuel);
  }

  lemma PushKeepsRoom(w: World, names: set<string>, st: State, pushed: State, name: string, fuel: nat)
    requires Room(w, names, st, fuel) && name in names && Pushes(st, pushed, name, fuel)
    ensures Room(w, names, pushed, fuel - 1) && |pushed.inflight| > 0
  {
    PushKeepsInflightOk(names, st.inflight, name);
  }

  lemma PushKeepsInflightOk(names: set<string>, inflight: seq<string>, name: string)
    requires InflightOk(names, inflight) && name !in inflight && name in names
    ensures InflightOk(names, inflight + [name])
  {
    var pushed := inflight + [name];
    assert forall i :: 0 <= i < |inflight| ==> pushed[i] == inflight[i];
  }

  /** What the termination proof carries from load to load: a well-formed
      cache, distinct in-flight names from `names`, which hold every name a
      source uses, more stack than `names` has names left to push, and no
      overflow so far. */
  predicate Room(w: World, names: set<string>, st: State, fuel: nat) {
    && CacheOk(st.cache) && InflightOk(names, st.inflight) && RefsWithin(w, names)
    && fuel + |st.inflight| > |names| && !st.overflowed
  }

  lemma {:induction false} AttemptTerminates(c: Config, w: World, names: set<string>, st: State, name: string, fuel: nat)
    requires Room(w, names, st, fuel) && |st.inflight| > 0
    ensures !Attempt(c, w, st, name, fuel, true).1.overflowed
    decreases fuel, 4, 0
  {
    var path := FilePath(c, name);
    if path in w.files && w.files[path].Present? {
      var data := w.files[path].data;
      if !Reusable(w, st, name, w.hash(data)) {
        var refs := w.run(Source(data)).refs;
        assert forall i :: 0 <= i < |refs| ==> refs[i] in names;
        RunRefsTerminates(c, w, names, st, refs, fuel);
      }
    }
  }

  lemma {:induction false} RunRefsTerminates(c: Config, w: World, names: set<string>, st: State, refs: seq<string>, fuel: nat)
    requires Room(w, names, st, fuel)
    requires forall i :: 0 <= i < |refs| ==> refs[i] in names
    ensures !RunRefs(c, w, st, refs, fuel, true).1.overflowed
    decreases fuel, 3, |refs|
  {
    if |refs| > 0 {
      FindMacroTerminates(c, w, names, st, refs[0], fuel);
      var (o, st1) := FindMacro(c, w, st, refs[0], fuel, true);
      if o.Loaded? && !IsFailUnit(o.u) {
        RunRefsTerminates(c, w, names, st1, refs[1..], fuel);
      }
    }
  }

  lemma {:induction false} FindMacroTerminates(c: Config, w: World, names: set<string>, st: State, name: string, fuel: nat)
    requires Room(w, names, st, fuel) && name in names
    ensures var r := FindMacro(c, w, st, name, fuel, true); !r.0.Overflow? && !r.1.overflowed
    decreases fuel, 2, 0
  {
    if !Hit(w, st, name) {
      LoadTerminates(c, w, names, st, name, fuel);
    }
  }

  /** The stack running out in a nested load does not reach the caller:
      the enclosing load, here `name` with room for itself alone, yields a
      fail unit with the message of the caught error, and `findMacro`
      caches it. */
  lemma NestedOverflowCaught(c: Config, w: World, st: State, name: string, fixed: bool)
    requires CacheOk(st.cache) && !Rejected(name) && name !in st.inflight && !Hit(w, st, name)
    requires FilePath(c, name) in w.files && w.files[FilePath(c, name)].Present?
    requires var data := w.files[FilePath(c, name)].data;
      && !Reusable(w, st, name, w.hash(data))
      && |w.run(Source(data)).refs| > 0 && !Hit(w, st, w.run(Source(data)).refs[0])
    ensures var r := FindMacro(c, w, st, name, 1, fixed);
      && r.0 == Loaded(FailUnit(c, w, name, w.describe(StackExhausted)))
      && r.1.overflowed
      && (st.cache.max > 0 ==> Get(r.1.cache, name) == Some(r.0.u))
  {
    var pushed := st.(inflight := st.inflight + [name]);
    var refs := w.run(Source(w.files[FilePath(c, name)].data)).refs;
    var (o1, st1) := FindMacro(c, w, pushed, refs[0], 0, fixed);
    assert o1 == Overflow && st1 == pushed;
    var (end, st2) := RunRefs(c, w, pushed, refs, 0, fixed);
    assert end == RefFailed(StackExhausted) && st2.overflowed;
    var (o3, st3) := Attempt(c, w, pushed, name, 0, fixed);
    assert o3 == Loaded(FailUnit(c, w, name, w.describe(StackExhausted))) && st3.overflowed;
    FilePathUnderRoot(c, name);
    assert |st3.inflight| > 0;
    var (o4, st4) := Load(c, w, st, name, 1, fixed);
    assert o4 == o3 && st4.overflowed;
  }
}

=== FILE: results.dfy ===
/** Failure-compatible wrappers used by every other module: an optional value
    (a Java reference that may be null) and a value-or-error result (a call
    that may throw). */
module Results {

  /** A Java reference that may be `null`. */
  datatype Option<+T> = None | Some(value: T) {

    /** The wrapped value, or `default` when there is none. */
    function GetOr(default: T): T {
      match this
      case Some(v) => v
      case None => default
    }
  }

  /** The outcome of a call that either returns a value or throws. */
  datatype Result<+R, +E> = Success(value: R) | Failure(error: E) {

    predicate IsFailure() {
      Failure?
    }

    function PropagateFailure<U>(): Result<U, E>
      requires Failure?
    {
      Failure(error)
    }

    function Extract(): R
      requires Success?
    {
      value
    }
  }
}

=== FILE: text.dfy ===
/** The `String` predicates the resolvers use (`startsWith`, `endsWith`,
    `contains`), and the path-shape rule the three resolvers share. */
module Text {

  predicate StartsWith(s: string, p: string) {
    |p| <= |s| && s[..|p|] == p
  }

  predicate EndsWith(s: string, p: string) {
    |p| <= |s| && s[|s| - |p|..] == p
  }

  /** `p` occurs in `s` starting at position `i`. */
  predicate OccursAt(s: string, p: string, i: int) {
    0 <= i <= |s| - |p| && s[i..i + |p|] == p
  }

  /** `s.contains(p)`: `p` occurs at some position of `s`. */
  predicate Contains(s: string, p: string) {
    exists i :: 0 <= i <= |s| - |p| && OccursAt(s, p, i)
  }

  /** A macro name the resolvers reject outright: it holds a `/../` or
      `/./` component or starts with `../`, `./` or `/`. */
  predicate TraversalShape(name: string) {
    || Contains(name, "/../")
    || Contains(name, "/./")
    || StartsWith(name, "../")
    || StartsWith(name, "./")
    || StartsWith(name, "/")
  }

  /** `p[i..j]` is a whole `/`-separated component of `p` that reads `.` or
      `..`, the two components a file system resolves relative to their
      position. */
  ghost predicate DotComponentAt(p: string, i: int, j: int) {
    && 0 <= i <= j <= |p|
    && (i == 0 || p[i - 1] == '/')
    && (j == |p| || p[j] == '/')
    && (p[i..j] == "." || p[i..j] == "..")
  }

  ghost predicate HasDotComponent(p: string) {
    exists i, j :: DotComponentAt(p, i, j)
  }

  /** What the shape rule buys: once a file extension (non-empty, without
      `/`, and not itself `.` or `..`) is appended to an accepted name, no
      component of the resulting relative path is `.` or `..`, so the path
      stays below the directory it is resolved against. */
  lemma AcceptedNameHasNoDotComponent(name: string, ext: string)
    requires !TraversalShape(name)
    requires |ext| > 0 && ext != "." && ext != ".."
    requires forall k :: 0 <= k < |ext| ==> ext[k] != '/'
    ensures !HasDotComponent(name + ext)
  {
    forall i, j ensures !DotComponentAt(name + ext, i, j) {
      NoDotComponentAt(name, ext, i, j);
    }
  }

  lemma NoDotComponentAt(name: string, ext: string, i: int, j: int)
    requires !TraversalShape(name)
    requires |ext| > 0 && ext != "." && ext != ".."
    requires forall k :: 0 <= k < |ext| ==> ext[k] != '/'
    ensures !DotComponentAt(name + ext, i, j)
  {
    var p := name + ext;
    if 0 <= i <= j <= |p| {
      if j < |p| && j >= |name| {
        assert p[j] == ext[j - |name|];
      } else if j < |p| {
        assert p[i..j] == name[i..j];
        assert p[j] == name[j];
        assert i > 0 ==> p[i - 1] == name[i - 1];
        InnerComponent(name, i, j);
      } else {
        LastComponent(name, ext, i);
      }
    }
  }

  /** A component followed by `/` inside an accepted name is not `.` or `..`. */
  lemma InnerComponent(name: string, i: int, j: int)
    requires !TraversalShape(name)
    requires 0 <= i <= j < |name|
    ensures !(name[j] == '/' && (i == 0 || name[i - 1] == '/') && (name[i..j] == "." || name[i..j] == ".."))
  {
    if name[j] == '/' && name[i..j] == "." {
      assert j == i + 1 && name[i] == '.';
      assert i == 0 ==> StartsWith(name, "./");
      assert i > 0 && name[i - 1] == '/' ==> OccursAt(name, "/./", i - 1);
    } else if name[j] == '/' && name[i..j] == ".." {
      assert j == i + 2 && name[i] == '.' && name[i + 1] == '.';
      assert i == 0 ==> StartsWith(name, "../");
      assert i > 0 && name[i - 1] == '/' ==> OccursAt(name, "/../", i - 1);
    }
  }

  /** The last component of `name + ext` holds all of `ext`, so it is
      neither `.` nor `..`. */
  lemma LastComponent(name: string, ext: string, i: int)
    requires |ext| > 0 && ext != "." && ext != ".."
    requires forall k :: 0 <= k < |ext| ==> ext[k] != '/'
    requires 0 <= i <= |name + ext|
    ensures !((i == 0 || (name + ext)[i - 1] == '/') && ((name + ext)[i..] == "." || (name + ext)[i..] == ".."))
  {
    var p := name + ext;
    if i > |name| {
      assert p[i - 1] == ext[i - 1 - |name|];
    } else if i == |name| {
      assert p[i..] == ext;
    } else {
      assert p[i..] == name[i..] + ext;
      assert |ext| == 1 ==> ext[0] != '.';
      assert p[|p| - 1] == ext[|ext| - 1];
    }
  }
}

=== FILE: units.dfy ===
/** What the three macro resolvers share: the compiled unit (a warp10
    `Macro`) with its metadata, expiry, the outcome of compiling a source,
    and the text listing a chain of macros being loaded. */
module Units {
  import opened Results
  import opened Numbers

  /** One element of a compiled unit's body, kept opaque: a string or
      number constant, or a function by name. */
  datatype Item = Str(s: string) | Num(n: int) | Fn(name: string)

  /** A compiled unit and its metadata. */
  datatype Unit = Unit(body: seq<Item>, name: string, secure: bool, expiry: int, fingerprint: int)

  const MSGFAIL: string := "MSGFAIL"

  /** The fixed part of the resolvers' load-error texts, after the
      bracketed time. */
  const ERROR_TEXT := "] Error while loading macro '"

  /** A fresh `new Macro()` holding `body`: not secure, no expiry, no
      fingerprint. */
  function NewUnit(body: seq<Item>): (u: Unit)
    ensures u.body == body && !u.secure && u.expiry == 0 && u.fingerprint == 0
  {
    Unit(body, "", false, 0, 0)
  }

  /** `isExpired()` at time `now`: a unit without expiry never expires. */
  predicate Expired(u: Unit, now: int) {
    u.expiry > 0 && u.expiry < now
  }

  /** `Math.addExact(now, ttl)`, replaced by `Long.MAX_VALUE - 1` when the
      sum does not fit in a `long`. */
  function SaturatingExpiry(now: int, ttl: int): (e: int)
    requires IsLong(now) && IsLong(ttl)
    ensures IsLong(e)
    ensures IsLong(now + ttl) ==> e == now + ttl
    ensures !IsLong(now + ttl) ==> e == LONG_MAX - 1
    ensures ttl >= 0 ==> e >= now || e == LONG_MAX - 1
  {
    if IsLong(now + ttl) then now + ttl else LONG_MAX - 1
  }

  /** A positive time to live never yields an expiry at or before `now`:
      the saturated value is in the far future and nothing wraps. */
  lemma SaturatingExpiryInFuture(now: int, ttl: int)
    requires IsLong(now) && IsLong(ttl) && now < LONG_MAX - 1 && ttl > 0
    ensures SaturatingExpiry(now, ttl) > now
  {
  }

  /** A unit compiled from a `MSGFAIL` error report: running it fails. */
  predicate IsFailUnit(u: Unit) {
    |u.body| > 0 && u.body[|u.body| - 1] == Fn(MSGFAIL)
  }

  /** What a resolver hands back: `null`, a unit, an exception the
      resolver does not catch, or the JVM running out of stack. */
  datatype Outcome = Declined | Loaded(u: Unit) | Crashed | Overflow

  /** `loading.get().remove(loading.get().size() - 1)`: the list without
      its last name, or `None` where Java throws because the list is
      empty. */
  function PopLast(inflight: seq<string>): (r: Option<seq<string>>)
    ensures r.Some? <==> |inflight| > 0
    ensures r.Some? ==> r.value + [inflight[|inflight| - 1]] == inflight
  {
    if |inflight| == 0 then None else Some(inflight[..|inflight| - 1])
  }

  /** The text every resolver compiles for a source: a space, the source,
      a newline. */
  function Source(data: string): (src: string)
    ensures |src| == |data| + 2 && src[1..|src| - 1] == data
  {
    " " + data + "\n"
  }

  /** The message of the exception raised on a loading cycle. */
  function CycleMessage(chain: seq<string>): string {
    "Invalid recursive macro loading (" + ChainText(chain) + ")"
  }

  /** The cycle message names the in-flight macros outermost first. */
  lemma CycleMessageListsChain(chain: seq<string>)
    ensures CycleMessage(chain) == "Invalid recursive macro loading (" + ChainFromFront(chain) + ")"
  {
    ChainTextListsChain(chain);
  }

  /** The message when a run leaves other than one value (repository and
      WarpFleet resolvers). */
  function DepthMessage(depth: int): string {
    "Expected a single value after the code execution, found " + IntToString(depth)
  }

  const NOT_A_MACRO: string := "Execution did not return a macro."

  /** A value left on the stack by compiling a source. */
  datatype Value = MacroValue(body: seq<Item>) | OtherValue

  /** The `ATTRIBUTE_MACRO_TTL` stack attribute, when set: a `Long`, or
      anything else (which the `(long)` cast rejects). */
  datatype Attr = LongAttr(v: Int64) | OtherAttr

  /** Running a FLoWS source: the stack it leaves and its TTL attribute, or
      the message of the exception it raised. */
  datatype Execution = Ran(stack: seq<Value>, ttlAttr: Option<Attr>) | Threw(message: string)

  /** The check every resolver applies after running a source: exactly one
      value, and that value a macro. */
  predicate SingleMacro(stack: seq<Value>) {
    |stack| == 1 && stack[0].MacroValue?
  }

  /** `@a >>> @b >>> @c` for the chain `[a, b, c]`, built as the resolvers
      build it: left to right, with a separator before every name but the
      first. */
  function ChainText(chain: seq<string>): (t: string)
    decreases |chain|
  {
    if |chain| == 0 then ""
    else
      var prev := ChainText(chain[..|chain| - 1]);
      (if |prev| > 0 then prev + " >>> " else "") + "@" + chain[|chain| - 1]
  }

  /** The same text described from the front: the first name, then the
      rest of the chain after a separator. */
  function ChainFromFront(chain: seq<string>): string
    decreases |chain|
  {
    if |chain| == 0 then ""
    else if |chain| == 1 then "@" + chain[0]
    else "@" + chain[0] + " >>> " + ChainFromFront(chain[1..])
  }

  lemma ChainTextNonEmpty(chain: seq<string>)
    requires |chain| > 0
    ensures |ChainText(chain)| > 0
  {
  }

  /** The loop's text is the front-to-back listing of the whole chain. */
  lemma {:induction false} ChainTextListsChain(chain: seq<string>)
    ensures ChainText(chain) == ChainFromFront(chain)
    decreases |chain|
  {
    if |chain| > 1 {
      var init := chain[..|chain| - 1];
      ChainTextListsChain(init);
      ChainTextNonEmpty(init);
      ChainFromFrontSnoc(init, chain[|chain| - 1]);
      assert init + [chain[|chain| - 1]] == chain;
    }
  }

  lemma {:induction false} ChainFromFrontSnoc(init: seq<string>, last: string)
    requires |init| > 0
    ensures ChainFromFront(init + [last]) == ChainFromFront(init) + " >>> " + "@" + last
    decreases |init|
  {
    var c := init + [last];
    if |init| == 1 {
      assert c[1..] == [last];
    } else {
      assert c[1..] == init[1..] + [last];
      ChainFromFrontSnoc(init[1..], last);
    }
  }
}
